=== FILE: README.md ===
# Music collection reconciliation, modelled in Dafny

This project models the core of a personal music player and its catalog
server. The player reads a music directory laid out as
`<root>/<band>/<YEAR - TITLE>` and compares it with the albums the catalog
server knows. The result is sorted into three trees:

- the valid albums: folders that follow the naming convention;
- the new albums: the ones the player pushed to the server;
- the wrong albums: misnamed folders, catalog albums without a folder, and
  albums that could not be pushed.

On top of those trees the player does two more things:

- It applies review files named `BAND - ALBUM - SCORE.txt` to the matching
  valid albums.
- It finds the audio file of each favourite song. It searches the album's
  folder first, and falls back to an interactive file chooser.

An older album manager does the same work in a simpler way: it has one
result tree, and its song search differs. On the server side, the database
provider stores favourite songs and albums in two tables.

Everything is a pure function over immutable values:

- A Python dict becomes an ordered `Dict` (insertion-ordered keys plus a map).
- An album tree is `Tree<A> = Dict<string, Dict<string, A>>`, from band key
  to album key.
- An album is a map from field names to values.
- A Python exception becomes `Raise(exc)` of a `Result`.
- Database tables are ordered maps from integer ids to rows.

The outside world becomes parameters, and the model makes no assumption
about them:

- the directory scan, `os.walk`, `os.path.isfile` and the working directory
  (`Disk`, `BandFolder`);
- the catalog's album list (a `Result<Option<...>>`: `Raise` when the
  request itself raised, `None` when the server did not answer with a
  list);
- the server's validation and update (`Server`);
- the review files' contents;
- the rescan that `Locator.SongsInFs`, `Legacy.LegacySongsInFs` and
  `Reviews.AddReviewsBatch` take as an argument. Their `...Rescanned`
  forms fill it in with the computation the code runs there:
  `Reconciliation.Rescan` (the reconciliation without `add_to_db`) or
  `Legacy.GetAlbumsFromCollection`;
- the file chooser's answers;
- the order `RAND()` gives the rows (`shuffled`).

Two details of the code decide which names are accepted:

- Review file names are split at every `-`. A name whose album title
  contains a dash therefore has more than three parts and is rejected.
- The folder convention is a regular-expression search for
  `[0-9][ ]+-[ ]+.+` anywhere in the name. The separator must be one or
  more plain spaces, not any whitespace.

Modules, in dependency order:

- `Py`: results and exceptions.
- `Seqs`: first index, last hit, filter, take, choose.
- `Text`: `str.strip` and `str.casefold` on ASCII, `split`, `in`.
- `PyNum`: `int()`, `float()`, `str(int)`, `format(n, '02d')`.
- `Dicts`: the ordered dict.
- `Albums`: the player's album: `from_dict`, `merge`.
- `Songs`: `validate`, `band`, `total_length`.
- `Naming`: the `YEAR - TITLE` convention and the tree keys.
- `Paths`: `os.path.join`, `os.path.relpath`, and absolute paths.
- `Trees`: `_add_album_to_tree` and placing many albums.
- `Collection` and `Reconciliation`: `_update_albums_from_collection`.
- `Reviews`: `add_reviews_batch`.
- `Locator`: `_get_songs_in_fs` and `_search_and_update_song_file_name`.
- `Legacy`: the older album manager.
- `Provider`: the server's `DatabaseProvider`.

## Model

| member | source | states |
|---|---|---|
| Albums.FromDict | MusicPlayer/music/album.py:42-66 | exactly the known attribute names present in the dict are overwritten with the dict's values; every other attribute keeps its value, and unknown keys are ignored |
| Albums.Merge | MusicPlayer/music/album.py:36-40 | after a merge, every attribute the other album carries has the other album's value, and every attribute it lacks keeps this album's value |
| Albums.MergeIdempotent | MusicPlayer/music/album.py:36-40 | merging the same album a second time changes nothing |
| Albums.MergeKeepsLocalFields | MusicPlayer/music/album.py:36-40 | `path` and `in_db` survive a merge with a catalog album that lacks them, and are taken from it when it has them |
| Albums.NewAlbum | MusicPlayer/music/album.py:15-18 | a fresh album has every attribute unset, including `path` and `in_db` |
| Songs.Validate | MusicPlayer/music/song.py:72-111 | a song is valid exactly when its album is a valid player album, the title and file name are set, the track number parses as an int unless the score is blank, and the score, when not blank, is a float in [0, 10]; a track number with a `None` score raises `AttributeError` |
| Songs.ValidateTrackChecked | MusicPlayer/music/song.py:72-111 | the intended rule: an accepted song has a valid album, a title and a file name; its score passes the float check; and a non-blank track number is an int whatever the score |
| Songs.TrackCheckAgreesWithoutTrack | MusicPlayer/music/song.py:92-111 | without a track number, the intended rule and `validate()` as written agree |
| Songs.TrackCheckAgreesWithScore | MusicPlayer/music/song.py:95-111 | with a non-blank track number and a non-blank score, the intended rule and `validate()` as written agree |
| Songs.BlankScoreSkipsTrackCheck | MusicPlayer/music/song.py:95-100 | a blank score lets the track number `one` pass `validate()`, which the intended rule rejects |
| Songs.TrackWithoutScoreRaises | MusicPlayer/music/song.py:95 | a track number with no score raises `AttributeError` in `validate()`, which the intended rule accepts |
| Songs.Band | MusicPlayer/music/song.py:40-44 | a song without an album has band `None`; with a player album it is that album's `band` field; with another album record it is that record's band |
| Songs.TotalLength | MusicPlayer/music/song.py:55-58 | reading the length resets unset or zero seconds to 0 and leaves everything else as it was |
| Songs.TotalLengthRoundTrip | MusicPlayer/music/song.py:55-58 | the text splits at its one colon into two parts; `int()` reads the first back as the minutes, which are the text `None` when unset, and the second as the seconds, with unset seconds read as 0; seconds that are not negative are written with at least two digits |
| PyNum.ParseIntRoundTrip | MusicPlayer/music/song.py:95-100 | `int(str(i)) == i` for every integer |
| PyNum.ParseFloatNat | MusicPlayer/music/song.py:101-110 | `float()` of a decimal numeral is its value, so a whole-number score is read exactly |
| Naming.FolderRoundTrip | MusicPlayer/music/music_manager.py:269-276 | a folder named `year + " - " + title` passes the convention test and splits at its first dash back into that year and title |
| Naming.MiscDoesNotConform | MusicPlayer/music/music_manager.py:281-282 | `Misc` breaks the convention, so only the explicit exception keeps it out of the wrong tree |
| Naming.NoDigitNoMatch | MusicPlayer/music/music_manager.py:269 | a name without a digit never passes the convention test |
| Naming.CatalogMatchesFolder | MusicPlayer/music/music_manager.py:280-296 | the key built for a catalog album with a non-zero year is the key of the folder `year - title` |
| Naming.ZeroYearMatchesPaddedFolder | MusicPlayer/music/music_manager.py:294-296 | a catalog year `0` is looked up as a folder whose year is `0000` |
| Naming.KeyHasNoUpperCase | MusicPlayer/music/music_manager.py:280 | album keys are case-folded |
| Text.StripCasefold | MusicPlayer/music/music_manager.py:291 | stripping and case-folding commute, so `casefold().strip()` and `strip().casefold()` agree |
| Text.SplitJoin | MusicPlayer/music/music_manager.py:165 | splitting at a separator inverts joining parts that do not contain it |
| Paths.PathJoin | MusicPlayer/music/music_manager.py:353 | `os.path.join` keeps an absolute second part, and otherwise inserts one `/` only when the first part does not end in one |
| Paths.RelPath | MusicPlayer/music/music_manager.py:411 | `os.path.relpath` raises `ValueError` on an empty path and otherwise gives a non-empty relative path |
| Paths.RelPathResolves | MusicPlayer/music/music_manager.py:409-413 | joining the album folder with the relative path of a file leads back to that file |
| Trees.AddAlbumToTree | MusicPlayer/music/music_manager.py:238-248 | afterwards the album sits under its band and album key, and every other entry of the tree is unchanged |
| Trees.PlaceSpec | MusicPlayer/music/music_manager.py:263-286 | adding albums one by one puts an entry under a key exactly when some added album has that key or the tree already had one |
| Trees.LastHit | MusicPlayer/music/music_manager.py:280 | when several albums land on one key, the last one stays |
| Trees.TreePairs | MusicPlayer/music/music_manager.py:309-310 | the (band, album) pairs the final pass visits are exactly the entries of the tree |
| Collection.ScanCollection | MusicPlayer/music/music_manager.py:263-286 | the valid tree holds exactly the conforming folders, under case-folded band and stripped, case-folded folder name; the wrong tree holds exactly the misnamed folders other than `Misc`, under raw names |
| Collection.ValidAlbumsAreFolderAlbums | MusicPlayer/music/music_manager.py:266-280 | each valid album is built from a folder: its band, the year and title split from the folder name, its path under the root; it is not yet marked as in the catalog |
| Collection.LastFolder | MusicPlayer/music/music_manager.py:280 | two folders whose names fold to one key leave the later folder's album |
| Collection.CatalogRecord | MusicPlayer/music/music_manager.py:294-295 | a catalog album's year `0` becomes `0000`, and no other field changes |
| Collection.MatchCatalogAlbum | MusicPlayer/music/music_manager.py:290-307 | a catalog album with a non-string band raises `AttributeError`; one whose band has no folder changes nothing |
| Collection.StepMerges | MusicPlayer/music/music_manager.py:297-299 | a catalog album found under its key is merged into the local album, which is marked as in the catalog |
| Collection.StepWrong | MusicPlayer/music/music_manager.py:300-305 | a catalog album of a known band without a matching folder is added to the wrong tree under its catalog key, and nothing else leaves the wrong tree |
| Collection.MatchCatalogRaises | MusicPlayer/music/music_manager.py:288-307 | the catalog loop raises exactly when some catalog album has a non-string band |
| Collection.MatchCatalogKeepsAlbums | MusicPlayer/music/music_manager.py:288-307 | the catalog loop neither adds nor removes valid albums |
| Collection.MatchCatalogMarks | MusicPlayer/music/music_manager.py:296-299 | every local album that some catalog album targets ends marked as in the catalog |
| Collection.MatchCatalogFlagsMissing | MusicPlayer/music/music_manager.py:300-305 | every catalog album of a known band that matches no folder ends in the wrong tree |
| Collection.MatchCatalogLeavesOthers | MusicPlayer/music/music_manager.py:288-307 | a local album that no catalog album targets is left exactly as the scan made it |
| Collection.Settle | MusicPlayer/music/music_manager.py:77-89 | an album already in the catalog is kept; otherwise it is pushed exactly when `add_to_db` is set and the server validates and accepts it, and fails in every other case |
| Collection.FinalPass | MusicPlayer/music/music_manager.py:309-323 | the valid tree keeps its keys; the new tree holds exactly the albums that were pushed; the wrong tree gains exactly the albums that failed |
| Collection.FindAlbum | MusicPlayer/music/album_manager.py:95-99 | the album matched is the first one of the band, in tree order, whose title case-folds to the catalog title; an album without a string title raises `AttributeError` |
| Reconciliation.Reconcile | MusicPlayer/music/music_manager.py:251-324 | when the unguarded catalog request raises, the reconciliation raises the same exception and pushes nothing; otherwise it raises exactly when the catalog answered with a list that holds an album with a non-string band |
| Reconciliation.ValidAreConformingFolders | MusicPlayer/music/music_manager.py:263-307 | the valid tree holds exactly the conforming folders: no catalog album and no misnamed folder is ever added to it |
| Reconciliation.EveryAlbumAccounted | MusicPlayer/music/music_manager.py:309-323 | every valid album ends either marked as in the catalog or listed in the wrong tree |
| Reconciliation.AddedArePushed | MusicPlayer/music/music_manager.py:311-317 | every new album was pushed under `add_to_db`, is also a valid album, and is marked as in the catalog |
| Reconciliation.CatalogMatchMarks | MusicPlayer/music/music_manager.py:296-317 | a local album the catalog knows ends marked as in the catalog and is not pushed again |
| Reconciliation.UnmatchedCatalogIsWrong | MusicPlayer/music/music_manager.py:300-305 | a catalog album of a known band that matches no folder is reported in the wrong tree |
| Reconciliation.MisnamedFolderIsWrong | MusicPlayer/music/music_manager.py:281-286 | a misnamed folder other than `Misc` is reported in the wrong tree under its raw band and folder names |
| Reconciliation.Rescan | MusicPlayer/music/music_manager.py:251-324 | the state `_update_albums_from_collection()` leaves with its default `add_to_db=False`: a failing catalog request escapes, and it succeeds exactly when the reconciliation does |
| Reconciliation.RescanValidConforms | MusicPlayer/music/music_manager.py:251-324 | the rescanned valid tree holds exactly the conforming folders |
| Reviews.ParseReviewName | MusicPlayer/music/music_manager.py:162-171 | a review file name is accepted exactly when its name without the extension splits at `-` into three parts; the keys are those parts with band and album case-folded and stripped and the score stripped, so band and album come out normalised |
| Reviews.ReviewNameDashes | MusicPlayer/music/music_manager.py:162-166 | a review file name is accepted exactly when its name without the extension has two dashes |
| Reviews.ReviewNameRoundTrip | MusicPlayer/music/music_manager.py:162-171 | for dash-free, stripped parts, `band - album - score.txt` parses to the case-folded band, the case-folded album and the score |
| Reviews.UnknownBandIsWrong | MusicPlayer/music/music_manager.py:203-205 | a review for a band with no folder adds that band and album to the wrong tree, with no album |
| Reviews.MalformedNameIgnored | MusicPlayer/music/music_manager.py:166-167 | a file whose name does not have exactly two dashes changes nothing |
| Reviews.Reviewed | MusicPlayer/music/music_manager.py:178-185 | a reviewed album has the file's score and contents as score and review, and its other fields unchanged |
| Reviews.ReviewApplied | MusicPlayer/music/music_manager.py:173-188 | a review whose update the server accepts is merged into the first album of the band with that title, which is marked as in the catalog |
| Reviews.ReviewRejected | MusicPlayer/music/music_manager.py:186-192 | a review whose update fails leaves the album's score and review set and puts it in the wrong tree under the review's keys |
| Reviews.RegularFiles | MusicPlayer/music/music_manager.py:157 | the files considered are exactly the listing's entries that are regular files |
| Reviews.ApplyReviewsKeeps | MusicPlayer/music/music_manager.py:160-205 | applying reviews never adds or removes a valid album and never removes a wrong one |
| Reviews.AddReviewsBatch | MusicPlayer/music/music_manager.py:148-206 | an empty valid tree is first refilled by the rescan, whose failure escapes; then, with no regular file in the folder, the batch raises `FileNotFoundError`, and otherwise it applies every file in listing order to the tree in use |
| Reviews.BatchKeepsTrees | MusicPlayer/music/music_manager.py:155-206 | a successful batch keeps the set of valid albums and every wrong album |
| Reviews.AddReviewsBatchRescanned | MusicPlayer/music/music_manager.py:148-206 | with an empty valid tree, a failing catalog request of the rescan escapes, and a successful batch implies a successful rescan |
| Reviews.BatchRescannedKeepsFolders | MusicPlayer/music/music_manager.py:148-206 | starting from an empty valid tree, a successful batch ends with a valid tree holding exactly the conforming folders |
| Locator.FolderHit | MusicPlayer/music/music_manager.py:395-400 | a folder's hit is its first file whose folded name contains the folded title and whose name contains `.mp3` |
| Locator.WalkSearch | MusicPlayer/music/music_manager.py:394-400 | the name kept is the hit of the last folder in walk order that has one, because the `break` leaves only the file loop |
| Locator.SearchSongFile | MusicPlayer/music/music_manager.py:384-429 | the walk's hit wins; otherwise an existing chosen file is stored relative to the album's folder; a `None` title raises `AttributeError` as soon as the walk yields a file |
| Locator.PickedFileResolves | MusicPlayer/music/music_manager.py:405-414 | the name stored from the chooser leads from the album's folder to the chosen file |
| Locator.WalkBeatsChooser | MusicPlayer/music/music_manager.py:393-409 | when the walk finds a song file, the chooser's answer does not matter |
| Locator.LocateSong | MusicPlayer/music/music_manager.py:339-377 | a song of an unknown band is dropped; a band that is not a string raises; a returned song has the first album of its band with the song's album id |
| Locator.StoredFileKept | MusicPlayer/music/music_manager.py:352-356 | a stored file name that exists in the album's folder is kept, with no search |
| Locator.MissingStoredFileSearched | MusicPlayer/music/music_manager.py:352-370 | a song whose stored file name is unset or missing from the album's folder is searched for: a failed search raises, no find drops the song, and a find becomes its file name |
| Locator.UnknownAlbumDropped | MusicPlayer/music/music_manager.py:346-377 | a song whose album id matches no album of its band is dropped |
| Locator.SongsInFs | MusicPlayer/music/music_manager.py:327-381 | anything but a list gives no songs; a failing rescan propagates; the result is never longer than the list |
| Locator.SongsInFsRescanned | MusicPlayer/music/music_manager.py:327-381 | with the rescan made explicit: anything but a list gives no songs, a failing catalog request escapes, and a result implies a successful rescan |
| Locator.RescannedSongsFromFolders | MusicPlayer/music/music_manager.py:327-381 | every song returned carries the album of a conforming folder of the collection |
| Locator.LocateAllSound | MusicPlayer/music/music_manager.py:339-381 | every returned song comes from a listed song whose band and album are in the collection |
| Locator.LocateAllKeeps | MusicPlayer/music/music_manager.py:339-381 | every song that is located is returned |
| Legacy.LegacyScan | MusicPlayer/music/album_manager.py:68-87 | the result tree holds exactly the conforming folders, under the case-folded band and the raw folder name |
| Legacy.LegacyKeysConform | MusicPlayer/music/album_manager.py:70-84 | every key of the older tree is a conforming folder name |
| Legacy.LegacyLastFolder | MusicPlayer/music/album_manager.py:82-84 | the album under a key is the one built from the last folder with that name |
| Legacy.LegacyMatch | MusicPlayer/music/album_manager.py:91-101 | a catalog album with a non-string band raises `AttributeError`; one whose band has no folder changes nothing |
| Legacy.MarkAlbum | MusicPlayer/music/album_manager.py:97-98 | the matched album is merged and marked as in the catalog, and the tree's keys do not change |
| Legacy.LegacyMatchMarksFirst | MusicPlayer/music/album_manager.py:92-99 | the first album of the band with the catalog title is the one merged and marked |
| Legacy.LegacyCatalogKeepsKeys | MusicPlayer/music/album_manager.py:89-101 | the catalog loop neither adds nor removes albums |
| Legacy.GetAlbumsFromCollection | MusicPlayer/music/album_manager.py:58-107 | an exception of the catalog request escapes as it is; when the catalog answers with something other than a list the result is the scan; otherwise the only exception raised is `AttributeError` |
| Legacy.LegacyResultIsScan | MusicPlayer/music/album_manager.py:58-107 | the albums returned are exactly the conforming folders: no catalog album and no misnamed folder is added |
| Legacy.LegacyFolder | MusicPlayer/music/album_manager.py:180-202 | one folder of the older search: a found name is never overwritten, and a fresh find is the folder's first file containing the title |
| Legacy.FolderFirst | MusicPlayer/music/album_manager.py:181-186 | a folder's hit is its first file whose folded name contains the folded title, whatever its extension |
| Legacy.ChoicesNamed | MusicPlayer/music/album_manager.py:222-225 | a file taken from the dialog always gives a non-empty relative name |
| Legacy.Pushed | MusicPlayer/music/album_manager.py:222-227 | the unguarded catalog update after a choice: a failed `relpath` stays that failure; otherwise the result raises exactly when the update raises, with its exception, and is the chosen name when it does not |
| Legacy.PickPushRaises | MusicPlayer/music/album_manager.py:180-202 | a file chosen before any folder with a matching file, whose update raises, makes the whole walk raise that exception |
| Legacy.LegacyPickPushRaises | MusicPlayer/music/album_manager.py:180-227 | for a song without a stored file name, a failed update of the song under the chosen name (with type `Strong`) escapes the older `_get_songs_in_fs` |
| Legacy.FoundStays | MusicPlayer/music/album_manager.py:182-186 | once a file is found, later folders change nothing |
| Legacy.FirstMatchFrom | MusicPlayer/music/album_manager.py:180-202 | the older search ends with the first matching file of the first folder that has one, as long as the dialog was dismissed for the folders before it |
| Legacy.PickDrops | MusicPlayer/music/album_manager.py:196-225 | once a file is picked in the dialog, the search never counts the song as found, so the song is dropped |
| Legacy.LegacyLocateSong | MusicPlayer/music/album_manager.py:152-205 | band and album are found as in the newer manager; a returned song has the first album of its band with its album id |
| Legacy.StoredMissingDropped | MusicPlayer/music/album_manager.py:164-173 | a stored file name that does not exist drops the song, with no search |
| Legacy.LegacyFirstFileWins | MusicPlayer/music/album_manager.py:174-204 | a song without a file name takes the first file of the first folder that contains its title |
| Legacy.LegacySongsInFs | MusicPlayer/music/album_manager.py:141-212 | anything but a list gives no songs; a failing rescan propagates; the result is never longer than the list |
| Legacy.LegacySongsInFsRescanned | MusicPlayer/music/album_manager.py:141-212 | with `get_albums_from_collection()` as the rescan: anything but a list gives no songs, a failing catalog request escapes, and a result implies a successful rescan |
| Legacy.LegacyRescannedFromFolders | MusicPlayer/music/album_manager.py:141-212 | every song returned carries the album of a conforming folder, filed under its raw name |
| Legacy.LegacyLocateAllSound | MusicPlayer/music/album_manager.py:152-210 | every returned song comes from a listed song whose band and album are in the collection |
| Provider.IntOf | MusicDatabaseServer/providers/DatabaseProvider.py:136 | `int()` of a JSON value: an int is kept; only a string or NaN raises `ValueError`; null, lists and objects raise `TypeError` |
| Provider.NextId | MusicDatabaseServer/providers/DatabaseProvider.py:165 | an inserted row gets a positive id above every id in the table |
| Provider.SearchSong | MusicDatabaseServer/providers/DatabaseProvider.py:84-89 | the lookup finds the first row, in table order, with the given title and album id, and finds none exactly when no row has both |
| Provider.ReadSong | MusicDatabaseServer/providers/DatabaseProvider.py:133-143 | a body is read exactly when it has a title, a float score, an int album id and a file name; in that reading order, the first missing key raises `KeyError`, a score or album id that does not convert raises what `float()` or `int()` raises, an album that is not a dict raises `TypeError`, and a body that is not a dict raises `TypeError` |
| Provider.CreateSong | MusicDatabaseServer/providers/DatabaseProvider.py:128-168 | an empty body is answered 400 with no body; a body whose compulsory fields fail with `KeyError` or `ValueError` is answered 400 and saves nothing, and any other failure there escapes; any answer other than 200 is such a 400; a successful call echoes the body |
| Provider.MissingTitleRejected | MusicDatabaseServer/providers/DatabaseProvider.py:133-140 | a body without a title is answered 400 and saves nothing |
| Provider.CompulsoryFieldRejected | MusicDatabaseServer/providers/DatabaseProvider.py:133-143 | for a body whose conversions can only fail with `ValueError`: it is answered 400 with nothing saved exactly when the title, score, album, album id or file name is missing or the score or album id does not convert |
| Provider.WellFormedSongAccepted | MusicDatabaseServer/providers/DatabaseProvider.py:130-166 | a well-formed song is answered 200 with the body echoed |
| Provider.SongStored | MusicDatabaseServer/providers/DatabaseProvider.py:151-165 | a success inserts a row or updates the resolved one: title, album id, score and file name come from the body, and the track number and type are written when sent and otherwise defaulted on insert and kept on update; an update of an unknown or unreadable id saves nothing; every other row is kept |
| Provider.ExistingSongReused | MusicDatabaseServer/providers/DatabaseProvider.py:154-160 | without an id, the first row with the same title and album id is updated, and no row is added |
| Provider.NewSongInserted | MusicDatabaseServer/providers/DatabaseProvider.py:154-165 | without an id and without a matching row, exactly one row is added, under a new id |
| Provider.UnknownSongIdSavesNothing | MusicDatabaseServer/providers/DatabaseProvider.py:151-166 | an id that no row has is answered 200, although nothing is saved |
| Provider.UnreadableSongIdSavesNothing | MusicDatabaseServer/providers/DatabaseProvider.py:151-166 | a well-formed song whose id `int()` rejects with `ValueError` is answered 200 and nothing is saved: the id is assigned as sent and selects no row |
| Provider.ResolveSongId | MusicDatabaseServer/providers/DatabaseProvider.py:151-162 | a null id inserts; an id `int()` reads updates that row; an id it rejects with `ValueError` selects no row; without an id, the first row with the same title and album id is updated, and a new row is inserted exactly when there is none |
| Provider.CreateSongTwiceAddsNoRow | MusicDatabaseServer/providers/DatabaseProvider.py:154-165 | sending the same song twice without an id adds no row the second time |
| Provider.GetAlbums | MusicDatabaseServer/providers/DatabaseProvider.py:191-205 | an album id selects that row only; a quantity selects that many rows in random order; otherwise every row; an empty selection is answered 400 with the album id |
| Provider.RandomAlbumsCount | MusicDatabaseServer/providers/DatabaseProvider.py:195-202 | a quantity yields that many albums, or every album when the table is smaller |
| Provider.GetSongs | MusicDatabaseServer/providers/DatabaseProvider.py:108-125 | each listed song carries its own album's row; with a quantity, at most that many songs, all scoring above the threshold; songs without an album are left out |
| Provider.CreatedSongListed | MusicDatabaseServer/providers/DatabaseProvider.py:108-166 | a song created without an id, whose album exists, is then listed by `get_songs` without a quantity |
| Provider.ReadAlbum | MusicDatabaseServer/providers/DatabaseProvider.py:215-224 | an album body is read exactly when it has a band, a title and an int year |
| Provider.ReadScore | MusicDatabaseServer/providers/DatabaseProvider.py:226-230 | a score is used when it parses as a float; a `ValueError` only drops it, and any other error raises |
| Provider.CreateAlbum | MusicDatabaseServer/providers/DatabaseProvider.py:208-252 | a missing key or bad year is answered 400 and saves nothing; on 200 the body carries the row's id |
| Provider.AlbumInserted | MusicDatabaseServer/providers/DatabaseProvider.py:213-248 | an insert writes the compulsory fields, each optional field that was sent, and defaults for the rest |
| Provider.UnparsableScoreIgnored | MusicDatabaseServer/providers/DatabaseProvider.py:226-230 | a score that does not parse has the same effect as no score |
| Provider.CreatedAlbumFound | MusicDatabaseServer/providers/DatabaseProvider.py:191-248 | an inserted album is what `get_albums` returns for the id written back into the body |
| Provider.UnreadableAlbumIdRejected | MusicDatabaseServer/providers/DatabaseProvider.py:242-252 | a well-formed album whose id `int()` rejects with `ValueError` is answered 400 and changes nothing: the id selects no row |
| Provider.CreateAlbumTwiceNoChange | MusicDatabaseServer/providers/DatabaseProvider.py:242-252 | sending an album with an id a second time changes nothing and is answered 400, since `save()` reports no changed row |

## Left out

- `update_song` and `update_album` only call `create_song` and `create_album`, so the same members model them.
- Text.Casefold folds ASCII letters only: Unicode case folding is not modelled. `Text.Strip` uses Python's whitespace set.
- PyNum.ParseInt and PyNum.ParseFloat read ASCII digits only. Python's `int()` and `float()` also accept the other Unicode decimal digits, such as `٣`, so the model rejects a track number, a year or an album id written in them, which Python accepts.
- `float()` on text is modelled over exact decimals. Binary rounding is not modelled, and neither are the score's comparison with 0.0 and 10.0 beyond that.
- The directory scan, `os.walk`, `os.listdir`, `os.path.isfile`, file reading and the working directory are inputs (`BandFolder`, `Disk`, the review listing and reader).
- The GUI, the MusicBrainz lookups, mp3 tag reading, cover art and configuration are not modelled.
- The `abs_path` setter is not modelled: it reads tags from the file.
- The cached directory tree (`_music_dir_tree`) is an input rather than a cache.
- Several provider and manager operations are not modelled: `add_song_to_favorites`, `get_favorites`, `delete_song`, `delete_album` and `get_album_list_for_band`.
- SQL collation is not modelled: title and album-id lookups compare exactly.
- The ORM's column coercion is not modelled. Values are stored as sent, and the album score is stored as the parsed float.
- Provider.ResolveSongId: a provided id is assigned as sent. The model takes the ORM's conversion of it for the query to be `int()`, keeping the raw value when `int()` raises `ValueError` (`Provider.RowId`). Such a raw value is taken to select no row; the database's own comparison of it is not modelled.
- Provider.SaveAlbum: the album id is converted as for songs, so an id that `int()` rejects with `ValueError` selects no row and is answered 400.
- The order `ORDER BY RAND()` gives the rows is the parameter `shuffled`. Auto-increment ids are modelled as one above the largest id.
- Provider.GetAlbums: a quantity is an `Option<nat>`. A negative `LIMIT` is not modelled, and neither is a non-numeric quantity.
- Provider.GetSongs: the threshold is a real number, and the quantity is an `Option<nat>` as for albums.
- Foreign keys are not enforced, and MySQL's integer range is not modelled.
- Pushing a found song's file name to the server (`api_songs_update_song`) is not modelled: it is fire-and-forget, and its failure is swallowed.
- Moving a review file to `DONE - <name>` is not modelled, for the same reason.
- A song whose file was chosen in the older dialog does not count as found and is not returned. Its new file name and its `Strong` type therefore show only in the update sent to the server, which the model keeps as `Legacy.Dialog`'s `push` together with its exception.
- Object aliasing is not modelled: the wrong tree holds copies of albums rather than shared objects.
- The exact key set of `to_dict` and the partial state left behind when an exception escapes are not modelled.
- The older file dialog may return several files; only the first is used, so the model takes an optional single file per folder (`picks`). Its relative path and the outcome of the update that follows are computed up front (`Legacy.Choices`), so the walk sees each folder's answer as a value.

## Findings

| source | as written | input that shows it | evidently intended | confidence | as-written member | corrected member |
|---|---|---|---|---|---|---|
| MusicPlayer/music/song.py:95 | the track-number check runs only when `not self._score.isspace()`: it tests the score, not the track number | track number `one` with score `" "`: `validate()` returns True; track number `3` with score `None`: `AttributeError` | guard the check with `not self._track_number.isspace()`, so a non-numeric track number is rejected whatever the score | medium, not executed | Songs.BlankScoreSkipsTrackCheck | Songs.ValidateTrackChecked |

=== FILE: album.dfy ===
/** The music player's `Album` record (MusicPlayer/music/album.py): the
    catalog client's album fields plus the local `path` and `in_db`, held as
    the dictionary `to_dict()` would produce, and the field-level `merge`. */
module Albums {
  import opened PyNum

  /** A Python attribute value as it appears in an album's dict. */
  datatype Value = VNone | VStr(s: string) | VInt(i: int) | VBool(b: bool)

  /** Python truthiness: `None`, `''`, `0` and `False` are falsy. */
  predicate Truthy(v: Value) {
    match v
    case VNone => false
    case VStr(s) => s != []
    case VInt(i) => i != 0
    case VBool(b) => b
  }

  /** `str(v)`, as an f-string renders it. */
  function StrOf(v: Value): string {
    match v
    case VNone => "None"
    case VStr(s) => s
    case VInt(i) => IntToString(i)
    case VBool(b) => if b then "True" else "False"
  }

  /** The attributes `from_dict` knows how to assign. */
  const FieldNames: set<string> :=
    {"id", "title", "band", "copy", "country", "review", "score", "style",
     "type", "year", "path", "in_db"}

  /** An album, as its attribute dictionary. */
  datatype Album = Album(fields: map<string, Value>)

  /** Attribute read `a.f`; an attribute that was never set reads as `None`. */
  function Get(a: Album, f: string): Value {
    if f in a.fields then a.fields[f] else VNone
  }

  /** Attribute write `a.f = v`. */
  function With(a: Album, f: string, v: Value): (r: Album)
    ensures Get(r, f) == v
    ensures forall g :: g != f ==> Get(r, g) == Get(a, g)
  {
    Album(a.fields[f := v])
  }

  /** `Album()`: every attribute starts out as `None`, `path` and `in_db`
      included. */
  function NewAlbum(): (a: Album)
    ensures a.fields.Keys == FieldNames
    ensures forall f :: Get(a, f) == VNone
    ensures Get(a, "in_db") == VNone && Get(a, "path") == VNone
  {
    Album(map f | f in FieldNames :: VNone)
  }

  /** `to_dict()`: the attribute dictionary itself. */
  function ToDict(a: Album): map<string, Value> {
    a.fields
  }

  /** `a.from_dict(d)`: every known attribute whose key `d` carries is
      assigned; every other attribute keeps its value. */
  function FromDict(a: Album, d: map<string, Value>): (r: Album)
    ensures forall f :: f in FieldNames && f in d ==> Get(r, f) == d[f]
    ensures forall f :: !(f in FieldNames && f in d) ==> Get(r, f) == Get(a, f)
    ensures r.fields.Keys == a.fields.Keys + (d.Keys * FieldNames)
  {
    Album(map f | f in a.fields.Keys + (d.Keys * FieldNames) ::
      if f in FieldNames && f in d then d[f] else a.fields[f])
  }

  /** `a.merge(b)`: `a`'s dict updated with `b`'s dict, read back through
      `from_dict`. */
  function Merge(a: Album, b: Album): (r: Album)
    ensures forall f :: f in FieldNames && f in b.fields ==> Get(r, f) == b.fields[f]
    ensures forall f :: !(f in FieldNames && f in b.fields) ==> Get(r, f) == Get(a, f)
  {
    var d := ToDict(a) + ToDict(b);
    var r := FromDict(a, d);
    assert forall f :: f in FieldNames && f in b.fields ==> Get(r, f) == b.fields[f] by {
      forall f | f in FieldNames && f in b.fields ensures Get(r, f) == b.fields[f] {
        assert d[f] == b.fields[f];
      }
    }
    assert forall f :: !(f in FieldNames && f in b.fields) ==> Get(r, f) == Get(a, f) by {
      forall f | !(f in FieldNames && f in b.fields) ensures Get(r, f) == Get(a, f) {
        if f in FieldNames && f in d {
          assert f in a.fields && d[f] == a.fields[f];
        }
      }
    }
    r
  }

  /** Two albums with the same attributes are the same record. */
  lemma SameAttributes(a: Album, b: Album)
    requires a.fields.Keys == b.fields.Keys
    requires forall f :: Get(a, f) == Get(b, f)
    ensures a == b
  {
    assert forall f :: f in a.fields ==> a.fields[f] == Get(a, f);
    assert a.fields == b.fields;
  }

  /** Merging the same incoming album a second time changes nothing. */
  lemma MergeIdempotent(a: Album, b: Album)
    ensures Merge(Merge(a, b), b) == Merge(a, b)
  {
    var once := Merge(a, b);
    var twice := Merge(once, b);
    assert ToDict(once) + ToDict(b) == (ToDict(a) + ToDict(b)) + ToDict(b);
    assert twice.fields.Keys == once.fields.Keys;
    SameAttributes(twice, once);
  }

  /** `path` and `in_db` change in a merge only when the incoming dict
      carries those keys. */
  lemma MergeKeepsLocalFields(a: Album, b: Album)
    ensures "path" !in b.fields ==> Get(Merge(a, b), "path") == Get(a, "path")
    ensures "in_db" !in b.fields ==> Get(Merge(a, b), "in_db") == Get(a, "in_db")
    ensures "path" in b.fields ==> Get(Merge(a, b), "path") == b.fields["path"]
    ensures "in_db" in b.fields ==> Get(Merge(a, b), "in_db") == b.fields["in_db"]
  {
  }
}

=== FILE: collection.dfy ===
/** `_update_albums_from_collection` (MusicPlayer/music/music_manager.py):
    reconciles the album folders of the music directory with the catalog's
    albums and sorts them into the valid, new and wrong trees. */
module Collection {
  import opened Py
  import opened Text
  import opened Dicts
  import opened Albums
  import opened Naming
  import opened Paths
  import opened Trees

  /** A band folder of the music directory and the names directly inside it
      (album folders and loose files alike), in listing order. A loose file
      at the top level is a band with no entries. */
  datatype BandFolder = BandFolder(name: string, entries: seq<string>)

  /** One name inside one band folder. */
  datatype Entry = Entry(band: string, name: string)

  /** Every entry, band after band, in listing order. */
  function Entries(bands: seq<BandFolder>): (es: seq<Entry>)
    ensures forall b, n :: Entry(b, n) in es <==>
      exists i :: 0 <= i < |bands| && bands[i].name == b && n in bands[i].entries
    decreases |bands|
  {
    if bands == [] then []
    else
      var last := bands[|bands| - 1];
      var tail := seq(|last.entries|, j requires 0 <= j < |last.entries| => Entry(last.name, last.entries[j]));
      var es := Entries(bands[..|bands| - 1]) + tail;
      assert forall b, n :: Entry(b, n) in tail <==> b == last.name && n in last.entries by {
        forall b, n | b == last.name && n in last.entries ensures Entry(b, n) in tail {
          var j :| 0 <= j < |last.entries| && last.entries[j] == n;
          assert tail[j] == Entry(b, n);
        }
      }
      es
  }

  /** The three trees the reconciliation returns. `wrong` holds `None` where
      the review importer files a band it could not find. */
  datatype AlbumTrees = AlbumTrees(valid: Tree<Album>, added: Tree<Album>, wrong: Tree<Option<Album>>)

  /** The valid and wrong trees while they are being built. */
  datatype Stage = Stage(valid: Tree<Album>, wrong: Tree<Option<Album>>)

  /** The album object made for a conforming folder: band, year and title
      from the name, and the folder's path under the collection root. */
  function FolderAlbum(root: string, band: string, name: string): (a: Album)
    requires FollowsConvention(name)
    ensures Get(a, "band") == VStr(band)
    ensures Get(a, "year") == VStr(ParseFolder(name).0)
    ensures Get(a, "title") == VStr(ParseFolder(name).1)
    ensures Get(a, "path") == VStr(PathJoin(PathJoin(root, band), name))
    ensures Get(a, "in_db") == VNone && Get(a, "id") == VNone
  {
    var yt := ParseFolder(name);
    LocalAlbum(band, yt.0, yt.1, PathJoin(PathJoin(root, band), name))
  }

  function LocalAlbum(band: string, year: string, title: string, path: string): (a: Album)
    ensures Get(a, "band") == VStr(band) && Get(a, "year") == VStr(year)
    ensures Get(a, "title") == VStr(title) && Get(a, "path") == VStr(path)
    ensures Get(a, "in_db") == VNone && Get(a, "id") == VNone
  {
    var a := With(NewAlbum(), "band", VStr(band));
    var a := With(a, "year", VStr(year));
    var a := With(a, "title", VStr(title));
    With(a, "path", VStr(path))
  }

  /** The album object made for a folder that breaks the convention: the band
      and the raw folder name as title. */
  function MisnamedAlbum(band: string, name: string): (a: Album)
    ensures Get(a, "band") == VStr(band) && Get(a, "title") == VStr(name)
    ensures Get(a, "in_db") == VNone && Get(a, "path") == VNone
  {
    With(With(NewAlbum(), "band", VStr(band)), "title", VStr(name))
  }

  /** Where a conforming folder is filed in the valid tree:
      `band.casefold()` and `album.strip().casefold()`. */
  function ValidSlot(root: string): Entry -> Option<Slot<Album>> {
    (e: Entry) => if FollowsConvention(e.name)
         then Some(Slot(Casefold(e.band), FolderKey(e.name), FolderAlbum(root, e.band, e.name)))
         else None
  }

  /** Where a non-conforming folder is filed in the wrong tree: under the raw
      band and folder names. `Misc` is exempt. */
  function WrongSlot(e: Entry): Option<Slot<Option<Album>>> {
    if !FollowsConvention(e.name) && e.name != "Misc"
    then Some(Slot(e.band, e.name, Some(MisnamedAlbum(e.band, e.name))))
    else None
  }

  /** A conforming folder's keys: `band.casefold()` and
      `album.strip().casefold()`. */
  predicate FiledAs(e: Entry, b: string, k: string) {
    FollowsConvention(e.name) && Casefold(e.band) == b && FolderKey(e.name) == k
  }

  /** The first loop: conforming folders into the valid tree, the others
      (except `Misc`) into the wrong tree. */
  function ScanCollection(root: string, bands: seq<BandFolder>): (st: Stage)
    ensures forall b, k :: InTree(st.valid, b, k) <==> exists e :: e in Entries(bands) && FiledAs(e, b, k)
    ensures forall b, k :: InTree(st.wrong, b, k) <==>
      Entry(b, k) in Entries(bands) && !FollowsConvention(k) && k != "Misc"
  {
    var es := Entries(bands);
    var st := Stage(Place(Empty(), es, ValidSlot(root)), Place(Empty(), es, WrongSlot));
    assert forall b, k :: InTree(st.valid, b, k) <==> exists e :: e in es && FiledAs(e, b, k) by {
      forall b, k ensures InTree(st.valid, b, k) <==> exists e :: e in es && FiledAs(e, b, k) {
        ScanValid(root, es, b, k);
      }
    }
    assert forall b, k :: InTree(st.wrong, b, k) <==> Entry(b, k) in es && !FollowsConvention(k) && k != "Misc" by {
      forall b, k ensures InTree(st.wrong, b, k) <==> Entry(b, k) in es && !FollowsConvention(k) && k != "Misc" {
        ScanWrong(es, b, k);
      }
    }
    st
  }

  lemma ScanValid(root: string, es: seq<Entry>, b: string, k: string)
    ensures InTree(Place(Empty(), es, ValidSlot(root)), b, k) <==> exists e :: e in es && FiledAs(e, b, k)
  {
    var f := ValidSlot(root);
    PlaceSpec(Empty(), es, f, b, k);
    if InTree(Place(Empty(), es, f), b, k) {
      var i :| 0 <= i < |es| && Hits(f(es[i]), b, k);
      assert es[i] in es && FiledAs(es[i], b, k);
    }
    if exists e :: e in es && FiledAs(e, b, k) {
      var e :| e in es && FiledAs(e, b, k);
      var i :| 0 <= i < |es| && es[i] == e;
      assert Hits(f(es[i]), b, k);
    }
  }

  lemma ScanWrong(es: seq<Entry>, b: string, k: string)
    ensures InTree(Place(Empty(), es, WrongSlot), b, k) <==> Entry(b, k) in es && !FollowsConvention(k) && k != "Misc"
  {
    PlaceSpec(Empty(), es, WrongSlot, b, k);
    if Entry(b, k) in es && !FollowsConvention(k) && k != "Misc" {
      var i :| 0 <= i < |es| && es[i] == Entry(b, k);
      assert Hits(WrongSlot(es[i]), b, k);
    }
  }

  /** Every album of the scanned valid tree is the folder album of a
      conforming folder filed under the same keys (the last such folder in
      listing order): band, year, title and path come from the folder, and it
      is not yet marked as in the catalog. */
  lemma ValidAlbumsAreFolderAlbums(root: string, bands: seq<BandFolder>, b: string, k: string)
    requires InTree(ScanCollection(root, bands).valid, b, k)
    ensures exists e :: (e in Entries(bands) && FiledAs(e, b, k) &&
      At(ScanCollection(root, bands).valid, b, k) == FolderAlbum(root, e.band, e.name))
    ensures Get(At(ScanCollection(root, bands).valid, b, k), "in_db") == VNone
  {
    var es := Entries(bands);
    var f := ValidSlot(root);
    var e := LastFolder(root, es, b, k);
    assert e in es;
  }

  lemma LastFolder(root: string, es: seq<Entry>, b: string, k: string) returns (e: Entry)
    requires InTree(Place(Empty(), es, ValidSlot(root)), b, k)
    ensures e in es && FiledAs(e, b, k)
    ensures At(Place(Empty(), es, ValidSlot(root)), b, k) == FolderAlbum(root, e.band, e.name)
  {
    var f := ValidSlot(root);
    PlaceSpec(Empty(), es, f, b, k);
    var i :| 0 <= i < |es| && Hits(f(es[i]), b, k);
    LastHit(es, f, b, k, i);
    var m :| i <= m < |es| && Hits(f(es[m]), b, k) && forall j :: m < j < |es| ==> !Hits(f(es[j]), b, k);
    e := es[m];
  }

  // ---------------------------------------------------------------------
  // The catalog pass

  /** The catalog album as it is filed: a year of `'0'` rewritten to
      `'0000'`. */
  function CatalogRecord(r: Album): (c: Album)
    ensures Get(c, "year") == CatalogYear(Get(r, "year"))
    ensures forall f :: f != "year" ==> Get(c, f) == Get(r, f)
  {
    if Get(r, "year") == VStr("0") then With(r, "year", VStr("0000")) else r
  }

  /** The band key a catalog album is looked up under:
      `band.casefold().strip()`. */
  function CatalogBandKey(r: Album): string
    requires Get(r, "band").VStr?
  {
    Strip(Casefold(Get(r, "band").s))
  }

  function CatalogAlbumKey(r: Album): string {
    CatalogKey(CatalogYear(Get(r, "year")), Get(r, "title"))
  }

  /** Catalog album `r` is looked up at `(b, k)` and its band is known. */
  predicate Targets(st: Stage, r: Album, b: string, k: string) {
    Get(r, "band").VStr? && CatalogBandKey(r) == b && b in st.valid.vals && CatalogAlbumKey(r) == k
  }

  /** One catalog album: a band missing from the collection is skipped; a
      matching local album takes the catalog's fields and `in_db = True`;
      otherwise the catalog album is filed in the wrong tree. A band that is
      not a string has no `casefold` and raises `AttributeError`. */
  function MatchCatalogAlbum(st: Stage, r: Album): (res: Result<Stage>)
    ensures res.Raise? <==> !Get(r, "band").VStr?
    ensures res.Raise? ==> res.exc == AttributeError
    ensures res.Ok? && !(Get(r, "band").VStr? && CatalogBandKey(r) in st.valid.vals) ==> res.value == st
    ensures res.Ok? ==> res.value.valid.vals.Keys == st.valid.vals.Keys
  {
    match Get(r, "band")
    case VStr(_) =>
      var bk := CatalogBandKey(r);
      if bk !in st.valid.vals then Ok(st)
      else Ok(FileCatalogAlbum(st, bk, CatalogAlbumKey(r), CatalogRecord(r)))
    case _ => Raise(AttributeError)
  }

  /** A catalog album `c` of a known band `bk`, looked up under `key`. */
  function FileCatalogAlbum(st: Stage, bk: string, key: string, c: Album): (next: Stage)
    requires bk in st.valid.vals
    ensures next.valid.vals.Keys == st.valid.vals.Keys
  {
    if key in st.valid.vals[bk].vals then
      Stage(AddAlbumToTree(st.valid, bk, key, Marked(st.valid.vals[bk].vals[key], c)), st.wrong)
    else
      Stage(st.valid, AddAlbumToTree(st.wrong, bk, key, Some(c)))
  }

  /** `album.merge(db_album)` followed by `album.in_db = True`. */
  function Marked(a: Album, c: Album): (m: Album)
    ensures Get(m, "in_db") == VBool(true)
  {
    With(Merge(a, c), "in_db", VBool(true))
  }

  /** The local album a catalog album is matched with takes the catalog's
      fields (year rewritten) and `in_db = True`. */
  lemma StepMerges(st: Stage, r: Album)
    requires Get(r, "band").VStr? && InTree(st.valid, CatalogBandKey(r), CatalogAlbumKey(r))
    ensures var next := MatchCatalogAlbum(st, r);
      && next.Ok?
      && InTree(next.value.valid, CatalogBandKey(r), CatalogAlbumKey(r))
      && At(next.value.valid, CatalogBandKey(r), CatalogAlbumKey(r)) ==
         Marked(At(st.valid, CatalogBandKey(r), CatalogAlbumKey(r)), CatalogRecord(r))
  {
  }

  /** Catalog album `r` has a local album under its keys. */
  predicate MatchesLocal(st: Stage, r: Album) {
    Get(r, "band").VStr? && InTree(st.valid, CatalogBandKey(r), CatalogAlbumKey(r))
  }

  /** The valid tree after one catalog album: the matched local album
      replaced by its marked merge, or nothing changed. */
  lemma StepValid(st: Stage, r: Album)
    requires MatchCatalogAlbum(st, r).Ok?
    ensures MatchesLocal(st, r) ==>
      var bk, key := CatalogBandKey(r), CatalogAlbumKey(r);
      MatchCatalogAlbum(st, r).value.valid ==
        AddAlbumToTree(st.valid, bk, key, Marked(At(st.valid, bk, key), CatalogRecord(r)))
    ensures !MatchesLocal(st, r) ==> MatchCatalogAlbum(st, r).value.valid == st.valid
  {
  }

  /** A catalog album marks the local album it is looked up under, and a
      marked album stays marked. */
  lemma StepMarks(st: Stage, r: Album, b: string, k: string)
    requires MatchCatalogAlbum(st, r).Ok? && InTree(st.valid, b, k)
    requires Targets(st, r, b, k) || Get(At(st.valid, b, k), "in_db") == VBool(true)
    ensures InTree(MatchCatalogAlbum(st, r).value.valid, b, k)
    ensures Get(At(MatchCatalogAlbum(st, r).value.valid, b, k), "in_db") == VBool(true)
  {
    StepValid(st, r);
    if MatchesLocal(st, r) {
      var bk, key := CatalogBandKey(r), CatalogAlbumKey(r);
      TreeUpdate(st.valid, bk, key, Marked(At(st.valid, bk, key), CatalogRecord(r)), b, k);
    }
  }

  /** A catalog album leaves every local album it is not looked up under as
      it was. */
  lemma StepLeaves(st: Stage, r: Album, b: string, k: string)
    requires MatchCatalogAlbum(st, r).Ok? && InTree(st.valid, b, k) && !Targets(st, r, b, k)
    ensures InTree(MatchCatalogAlbum(st, r).value.valid, b, k)
    ensures At(MatchCatalogAlbum(st, r).value.valid, b, k) == At(st.valid, b, k)
  {
    StepValid(st, r);
    if MatchesLocal(st, r) {
      var bk, key := CatalogBandKey(r), CatalogAlbumKey(r);
      assert bk != b || key != k;
      TreeUpdate(st.valid, bk, key, Marked(At(st.valid, bk, key), CatalogRecord(r)), b, k);
    }
  }

  /** Reading entry `(b, k)` of a tree after one entry was set. */
  lemma TreeUpdate(t: Tree<Album>, bk: string, key: string, a: Album, b: string, k: string)
    requires InTree(t, b, k)
    ensures InTree(AddAlbumToTree(t, bk, key, a), b, k)
    ensures At(AddAlbumToTree(t, bk, key, a), b, k) == if bk == b && key == k then a else At(t, b, k)
  {
  }

  /** A catalog album of a known band with no matching folder is filed in
      the wrong tree; what the wrong tree held stays. */
  lemma StepWrong(st: Stage, r: Album, b: string, k: string)
    requires MatchCatalogAlbum(st, r).Ok?
    ensures InTree(st.wrong, b, k) ==> InTree(MatchCatalogAlbum(st, r).value.wrong, b, k)
    ensures (Get(r, "band").VStr? && CatalogBandKey(r) in st.valid.vals &&
             !InTree(st.valid, CatalogBandKey(r), CatalogAlbumKey(r))) ==>
      && InTree(MatchCatalogAlbum(st, r).value.wrong, CatalogBandKey(r), CatalogAlbumKey(r))
      && At(MatchCatalogAlbum(st, r).value.wrong, CatalogBandKey(r), CatalogAlbumKey(r)) == Some(CatalogRecord(r))
  {
  }

  /** The catalog loop, in catalog order, stopping at the first exception. */
  function MatchCatalog(st: Stage, rs: seq<Album>): Result<Stage>
    decreases |rs|
  {
    if rs == [] then Ok(st)
    else
      var next :- MatchCatalogAlbum(st, rs[0]);
      MatchCatalog(next, rs[1..])
  }

  lemma MatchCatalogUnfold(st: Stage, rs: seq<Album>)
    requires rs != [] && MatchCatalog(st, rs).Ok?
    ensures MatchCatalogAlbum(st, rs[0]).Ok?
    ensures MatchCatalog(st, rs) == MatchCatalog(MatchCatalogAlbum(st, rs[0]).value, rs[1..])
  {
  }

  /** The catalog loop raises iff some catalog album has a band that is not
      a string. */
  lemma {:induction false} MatchCatalogRaises(st: Stage, rs: seq<Album>)
    ensures MatchCatalog(st, rs).Raise? <==> exists i :: 0 <= i < |rs| && !Get(rs[i], "band").VStr?
    decreases |rs|
  {
    if rs != [] {
      var r := MatchCatalogAlbum(st, rs[0]);
      BandlessCons(rs);
      if r.Ok? {
        MatchCatalogRaises(r.value, rs[1..]);
      }
    }
  }

  lemma BandlessCons(rs: seq<Album>)
    requires rs != []
    ensures (exists i :: 0 <= i < |rs| && !Get(rs[i], "band").VStr?) <==>
      !Get(rs[0], "band").VStr? || exists i :: 0 <= i < |rs[1..]| && !Get(rs[1..][i], "band").VStr?
  {
    assert forall i :: 0 < i < |rs| ==> rs[i] == rs[1..][i - 1];
  }

  /** The catalog loop neither adds nor removes bands of the valid tree. */
  lemma {:induction false} MatchCatalogKeepsBands(st: Stage, rs: seq<Album>)
    requires MatchCatalog(st, rs).Ok?
    ensures MatchCatalog(st, rs).value.valid.vals.Keys == st.valid.vals.Keys
    decreases |rs|
  {
    if rs != [] {
      MatchCatalogUnfold(st, rs);
      MatchCatalogKeepsBands(MatchCatalogAlbum(st, rs[0]).value, rs[1..]);
    }
  }

  /** The catalog loop only adds to the wrong tree. */
  lemma {:induction false} MatchCatalogKeepsWrong(st: Stage, rs: seq<Album>, b: string, k: string)
    requires MatchCatalog(st, rs).Ok? && InTree(st.wrong, b, k)
    ensures InTree(MatchCatalog(st, rs).value.wrong, b, k)
    decreases |rs|
  {
    if rs != [] {
      MatchCatalogUnfold(st, rs);
      StepWrong(st, rs[0], b, k);
      MatchCatalogKeepsWrong(MatchCatalogAlbum(st, rs[0]).value, rs[1..], b, k);
    }
  }

  /** The catalog loop neither adds nor removes valid albums. */
  lemma {:induction false} MatchCatalogKeepsAlbums(st: Stage, rs: seq<Album>, b: string, k: string)
    requires MatchCatalog(st, rs).Ok?
    ensures InTree(MatchCatalog(st, rs).value.valid, b, k) <==> InTree(st.valid, b, k)
    decreases |rs|
  {
    if rs != [] {
      MatchCatalogUnfold(st, rs);
      var next := MatchCatalogAlbum(st, rs[0]).value;
      if InTree(st.valid, b, k) {
        StepKeeps(st, rs[0], b, k);
      } else {
        StepAddsNone(st, rs[0], b, k);
      }
      MatchCatalogKeepsAlbums(next, rs[1..], b, k);
    }
  }

  /** Every local album some catalog album is looked up under ends the
      catalog loop marked `in_db`. */
  lemma MatchCatalogMarks(st: Stage, rs: seq<Album>, b: string, k: string)
    requires MatchCatalog(st, rs).Ok? && InTree(st.valid, b, k)
    requires (exists i :: 0 <= i < |rs| && Targets(st, rs[i], b, k)) ||
      Get(At(st.valid, b, k), "in_db") == VBool(true)
    ensures InTree(MatchCatalog(st, rs).value.valid, b, k)
    ensures Get(At(MatchCatalog(st, rs).value.valid, b, k), "in_db") == VBool(true)
  {
    if Get(At(st.valid, b, k), "in_db") == VBool(true) {
      MarkedStays(st, rs, b, k);
    } else {
      var i :| 0 <= i < |rs| && Targets(st, rs[i], b, k);
      MarksAt(st, rs, b, k, rs[i]);
    }
  }

  /** A marked local album stays marked through the catalog loop. */
  lemma {:induction false} MarkedStays(st: Stage, rs: seq<Album>, b: string, k: string)
    requires MatchCatalog(st, rs).Ok? && InTree(st.valid, b, k)
    requires Get(At(st.valid, b, k), "in_db") == VBool(true)
    ensures InTree(MatchCatalog(st, rs).value.valid, b, k)
    ensures Get(At(MatchCatalog(st, rs).value.valid, b, k), "in_db") == VBool(true)
    decreases |rs|
  {
    if rs != [] {
      MatchCatalogUnfold(st, rs);
      StepMarks(st, rs[0], b, k);
      MarkedStays(MatchCatalogAlbum(st, rs[0]).value, rs[1..], b, k);
    }
  }

  /** A catalog album `r` of the loop marks the local album it is looked
      up under, and the rest of the loop keeps the mark. */
  lemma {:induction false} MarksAt(st: Stage, rs: seq<Album>, b: string, k: string, r: Album)
    requires MatchCatalog(st, rs).Ok? && InTree(st.valid, b, k)
    requires r in rs && Targets(st, r, b, k)
    ensures InTree(MatchCatalog(st, rs).value.valid, b, k)
    ensures Get(At(MatchCatalog(st, rs).value.valid, b, k), "in_db") == VBool(true)
    decreases |rs|
  {
    MatchCatalogUnfold(st, rs);
    var next := MatchCatalogAlbum(st, rs[0]).value;
    StepKeeps(st, rs[0], b, k);
    if rs[0] == r {
      StepMarks(st, r, b, k);
      MarkedStays(next, rs[1..], b, k);
    } else if Get(At(next.valid, b, k), "in_db") == VBool(true) {
      MarkedStays(next, rs[1..], b, k);
    } else {
      TargetsCarry(st, next, r, b, k);
      MarksAt(next, rs[1..], b, k, r);
    }
  }

  /** One catalog album keeps every local album of the stage. */
  lemma StepKeeps(st: Stage, r: Album, b: string, k: string)
    requires MatchCatalogAlbum(st, r).Ok? && InTree(st.valid, b, k)
    ensures InTree(MatchCatalogAlbum(st, r).value.valid, b, k)
  {
    if Targets(st, r, b, k) {
      StepMarks(st, r, b, k);
    } else {
      StepLeaves(st, r, b, k);
    }
  }

  /** One catalog album adds no local album to the stage. */
  lemma StepAddsNone(st: Stage, r: Album, b: string, k: string)
    requires MatchCatalogAlbum(st, r).Ok? && !InTree(st.valid, b, k)
    ensures !InTree(MatchCatalogAlbum(st, r).value.valid, b, k)
  {
  }

  /** Whether a catalog album targets a local album depends on the stage only
      through the band being present. */
  lemma TargetsCarry(st: Stage, next: Stage, r: Album, b: string, k: string)
    requires Targets(st, r, b, k) && b in next.valid.vals
    ensures Targets(next, r, b, k)
  {
  }

  /** The band of catalog album `r` is in the collection but no local album
      has its key. */
  predicate Unmatched(st: Stage, r: Album) {
    Get(r, "band").VStr? && CatalogBandKey(r) in st.valid.vals &&
    !InTree(st.valid, CatalogBandKey(r), CatalogAlbumKey(r))
  }

  /** A catalog album whose band is in the collection but whose key is not
      ends up in the wrong tree under that key. */
  lemma {:induction false} MatchCatalogFlagsMissing(st: Stage, rs: seq<Album>, r: Album)
    requires MatchCatalog(st, rs).Ok? && r in rs && Unmatched(st, r)
    ensures InTree(MatchCatalog(st, rs).value.wrong, CatalogBandKey(r), CatalogAlbumKey(r))
    decreases |rs|
  {
    if r == rs[0] {
      FlagsAtHead(st, rs);
    } else {
      MatchCatalogUnfold(st, rs);
      var next := MatchCatalogAlbum(st, rs[0]).value;
      assert r in rs[1..];
      StepKeepsUnmatched(st, rs[0], r);
      MatchCatalogFlagsMissing(next, rs[1..], r);
    }
  }

  lemma FlagsAtHead(st: Stage, rs: seq<Album>)
    requires rs != [] && MatchCatalog(st, rs).Ok? && Unmatched(st, rs[0])
    ensures InTree(MatchCatalog(st, rs).value.wrong, CatalogBandKey(rs[0]), CatalogAlbumKey(rs[0]))
  {
    MatchCatalogUnfold(st, rs);
    var r := rs[0];
    var next := MatchCatalogAlbum(st, r).value;
    StepWrong(st, r, CatalogBandKey(r), CatalogAlbumKey(r));
    MatchCatalogKeepsWrong(next, rs[1..], CatalogBandKey(r), CatalogAlbumKey(r));
  }

  lemma StepKeepsUnmatched(st: Stage, r: Album, r': Album)
    requires MatchCatalogAlbum(st, r).Ok? && Unmatched(st, r')
    ensures Unmatched(MatchCatalogAlbum(st, r).value, r')
  {
    var next := MatchCatalogAlbum(st, r).value;
    var b, k := CatalogBandKey(r'), CatalogAlbumKey(r');
    if InTree(next.valid, b, k) {
      StepBack(st, r, b, k);
    }
  }

  lemma StepBack(st: Stage, r: Album, b: string, k: string)
    requires MatchCatalogAlbum(st, r).Ok? && InTree(MatchCatalogAlbum(st, r).value.valid, b, k)
    ensures InTree(st.valid, b, k)
  {
  }

  /** A local album no catalog album is looked up under leaves the catalog
      loop unchanged. */
  lemma {:induction false} MatchCatalogLeavesOthers(st: Stage, rs: seq<Album>, b: string, k: string)
    requires MatchCatalog(st, rs).Ok? && InTree(st.valid, b, k)
    requires forall i :: 0 <= i < |rs| ==> !Targets(st, rs[i], b, k)
    ensures InTree(MatchCatalog(st, rs).value.valid, b, k)
    ensures At(MatchCatalog(st, rs).value.valid, b, k) == At(st.valid, b, k)
    decreases |rs|
  {
    if rs != [] {
      MatchCatalogUnfold(st, rs);
      var next := MatchCatalogAlbum(st, rs[0]).value;
      StepLeaves(st, rs[0], b, k);
      forall i | 0 <= i < |rs| - 1 ensures !Targets(next, rs[1..][i], b, k) {
        assert rs[1..][i] == rs[i + 1];
      }
      MatchCatalogLeavesOthers(next, rs[1..], b, k);
    }
  }

  // ---------------------------------------------------------------------
  // The final pass

  /** The catalog server as the final pass sees it: `album.validate()` and
      the album update call, `None` standing for an exception. */
  datatype Server = Server(validate: Album -> bool, push: Album -> Option<Album>)

  /** What the final pass did with one valid album. */
  datatype Outcome = Kept | Pushed(album: Album) | Failed

  /** The final pass for one album. An album already marked `in_db` is
      kept. Otherwise, without `add_to_db` it is reported wrong; with it, the
      album is validated and sent to the catalog and on success takes the
      reply's fields and `in_db = True`; a failed validation leaves
      `update_album` returning `None`, whose merge raises, so the album is
      reported wrong, as is one whose update call raises. */
  function Settle(a: Album, addToDb: bool, srv: Server): (o: Outcome)
    ensures Truthy(Get(a, "in_db")) ==> o == Kept
    ensures o.Pushed? <==> !Truthy(Get(a, "in_db")) && addToDb && srv.validate(a) && srv.push(a).Some?
    ensures o.Failed? <==> !Truthy(Get(a, "in_db")) && !(addToDb && srv.validate(a) && srv.push(a).Some?)
    ensures o.Pushed? ==> Get(o.album, "in_db") == VBool(true)
    ensures o.Pushed? ==> forall f :: f != "in_db" && !(f in FieldNames && f in srv.push(a).value.fields) ==>
      Get(o.album, f) == Get(a, f)
  {
    if Truthy(Get(a, "in_db")) then Kept
    else if !addToDb || !srv.validate(a) then Failed
    else match srv.push(a)
      case None => Failed
      case Some(reply) => Pushed(With(Merge(a, reply), "in_db", VBool(true)))
  }

  /** The album after the final pass. */
  function Settled(a: Album, o: Outcome): Album {
    if o.Pushed? then o.album else a
  }

  function SettleTree(v: Tree<Album>, addToDb: bool, srv: Server): (r: Tree<Album>)
    ensures forall b, k :: InTree(r, b, k) <==> InTree(v, b, k)
    ensures forall b, k :: InTree(v, b, k) ==> At(r, b, k) == Settled(At(v, b, k), Settle(At(v, b, k), addToDb, srv))
  {
    MapValues(v, (b: string, band: Dict<string, Album>) =>
      MapValues(band, (k: string, a: Album) => Settled(a, Settle(a, addToDb, srv))))
  }

  function AddedSlot(v: Tree<Album>, addToDb: bool, srv: Server): ((string, string)) -> Option<Slot<Album>> {
    (p: (string, string)) =>
      if InTree(v, p.0, p.1) && Settle(At(v, p.0, p.1), addToDb, srv).Pushed?
      then Some(Slot(p.0, p.1, Settle(At(v, p.0, p.1), addToDb, srv).album))
      else None
  }

  function FailedSlot(v: Tree<Album>, addToDb: bool, srv: Server): ((string, string)) -> Option<Slot<Option<Album>>> {
    (p: (string, string)) =>
      if InTree(v, p.0, p.1) && Settle(At(v, p.0, p.1), addToDb, srv).Failed?
      then Some(Slot(p.0, p.1, Some(At(v, p.0, p.1))))
      else None
  }

  /** The final loop over the valid tree, in tree order. */
  function FinalPass(st: Stage, addToDb: bool, srv: Server): (t: AlbumTrees)
    ensures forall b, k :: InTree(t.valid, b, k) <==> InTree(st.valid, b, k)
    ensures forall b, k :: InTree(st.valid, b, k) ==>
      At(t.valid, b, k) == Settled(At(st.valid, b, k), Settle(At(st.valid, b, k), addToDb, srv))
    ensures forall b, k :: InTree(t.added, b, k) <==>
      InTree(st.valid, b, k) && Settle(At(st.valid, b, k), addToDb, srv).Pushed?
    ensures forall b, k :: InTree(t.added, b, k) ==> At(t.added, b, k) == At(t.valid, b, k)
    ensures forall b, k :: InTree(t.wrong, b, k) <==> InTree(st.wrong, b, k) || FailsAt(st.valid, addToDb, srv, b, k)
    ensures forall b, k :: FailsAt(st.valid, addToDb, srv, b, k) ==> At(t.wrong, b, k) == Some(At(st.valid, b, k))
  {
    var v := st.valid;
    var ps := TreePairs(v);
    var t := AlbumTrees(SettleTree(v, addToDb, srv),
      Place(Empty(), ps, AddedSlot(v, addToDb, srv)),
      Place(st.wrong, ps, FailedSlot(v, addToDb, srv)));
    assert forall b, k :: (InTree(t.added, b, k) <==> InTree(v, b, k) && Settle(At(v, b, k), addToDb, srv).Pushed?) by {
      forall b, k ensures InTree(t.added, b, k) <==> InTree(v, b, k) && Settle(At(v, b, k), addToDb, srv).Pushed? {
        AddedSpec(v, addToDb, srv, b, k);
      }
    }
    assert forall b, k :: InTree(t.added, b, k) ==> At(t.added, b, k) == At(t.valid, b, k) by {
      forall b, k | InTree(t.added, b, k) ensures At(t.added, b, k) == At(t.valid, b, k) {
        AddedSpec(v, addToDb, srv, b, k);
      }
    }
    assert forall b, k :: InTree(t.wrong, b, k) <==> InTree(st.wrong, b, k) || FailsAt(v, addToDb, srv, b, k) by {
      forall b, k ensures InTree(t.wrong, b, k) <==> InTree(st.wrong, b, k) || FailsAt(v, addToDb, srv, b, k) {
        FailedSpec(st.wrong, v, addToDb, srv, b, k);
      }
    }
    assert forall b, k :: FailsAt(v, addToDb, srv, b, k) ==> At(t.wrong, b, k) == Some(At(v, b, k)) by {
      forall b, k | FailsAt(v, addToDb, srv, b, k) ensures At(t.wrong, b, k) == Some(At(v, b, k)) {
        FailedSpec(st.wrong, v, addToDb, srv, b, k);
      }
    }
    t
  }

  predicate FailsAt(v: Tree<Album>, addToDb: bool, srv: Server, b: string, k: string) {
    InTree(v, b, k) && Settle(At(v, b, k), addToDb, srv).Failed?
  }

  lemma AddedSpec(v: Tree<Album>, addToDb: bool, srv: Server, b: string, k: string)
    ensures var added := Place(Empty(), TreePairs(v), AddedSlot(v, addToDb, srv));
      && (InTree(added, b, k) <==> InTree(v, b, k) && Settle(At(v, b, k), addToDb, srv).Pushed?)
      && (InTree(added, b, k) ==> At(added, b, k) == At(SettleTree(v, addToDb, srv), b, k))
  {
    PlacePairs(TreePairs(v), AddedSlot(v, addToDb, srv), Empty(), b, k);
  }

  lemma FailedSpec(w: Tree<Option<Album>>, v: Tree<Album>, addToDb: bool, srv: Server, b: string, k: string)
    ensures var wrong := Place(w, TreePairs(v), FailedSlot(v, addToDb, srv));
      && (InTree(wrong, b, k) <==> InTree(w, b, k) || FailsAt(v, addToDb, srv, b, k))
      && (FailsAt(v, addToDb, srv, b, k) ==> At(wrong, b, k) == Some(At(v, b, k)))
  {
    PlacePairs(TreePairs(v), FailedSlot(v, addToDb, srv), w, b, k);
  }

  /** Filing tree pairs whose slot is the pair itself (or nothing): the pair
      is filed iff its slot is present, with that slot's value. */
  lemma PlacePairs<A>(ps: seq<(string, string)>, f: ((string, string)) -> Option<Slot<A>>, t: Tree<A>, b: string, k: string)
    requires forall p :: f(p).Some? ==> f(p).value.band == p.0 && f(p).value.key == p.1
    ensures InTree(Place(t, ps, f), b, k) <==> InTree(t, b, k) || ((b, k) in ps && f((b, k)).Some?)
    ensures (b, k) in ps && f((b, k)).Some? ==> At(Place(t, ps, f), b, k) == f((b, k)).value.value
  {
    PlaceSpec(t, ps, f, b, k);
    assert forall i :: 0 <= i < |ps| && Hits(f(ps[i]), b, k) ==> ps[i] == (b, k);
    if (b, k) in ps && f((b, k)).Some? {
      var i :| 0 <= i < |ps| && ps[i] == (b, k);
      assert Hits(f(ps[i]), b, k);
      LastHit(ps, f, b, k, i);
    }
  }

  /** The album's title matches a lookup key: `title.casefold() == key`. */
  predicate TitleMatches(a: Album, key: string) {
    Get(a, "title").VStr? && Casefold(Get(a, "title").s) == key
  }

  /** The first `n` albums of `keys` have string titles none of which
      matches `key`. */
  predicate Skips(d: Dict<string, Album>, keys: seq<string>, key: string, n: nat)
    requires n <= |keys| && forall x :: x in keys ==> x in d.vals
  {
    forall j :: 0 <= j < n ==> Get(d.vals[keys[j]], "title").VStr? && !TitleMatches(d.vals[keys[j]], key)
  }

  /** The search from position `i` on, the albums before it skipped. */
  function FindFrom(d: Dict<string, Album>, keys: seq<string>, key: string, i: nat): (r: Result<Option<string>>)
    requires i <= |keys| && forall x :: x in keys ==> x in d.vals
    requires Skips(d, keys, key, i)
    ensures r.Ok? && r.value.Some? ==> exists m :: (i <= m < |keys| && keys[m] == r.value.value &&
      TitleMatches(d.vals[keys[m]], key) && Skips(d, keys, key, m))
    ensures r == Ok(None) <==> Skips(d, keys, key, |keys|)
    ensures r.Raise? ==> r.exc == AttributeError
    decreases |keys| - i
  {
    if i == |keys| then Ok(None)
    else
      match Get(d.vals[keys[i]], "title")
      case VStr(t) =>
        if Casefold(t) == key then Ok(Some(keys[i])) else FindFrom(d, keys, key, i + 1)
      case _ => Raise(AttributeError)
  }

  /** The first album of a band, in the band's order, whose case-folded
      title is `key`. Reading a title that is not a string raises
      `AttributeError`; the search stops at the first match. */
  function FindAlbum(d: Dict<string, Album>, keys: seq<string>, key: string): (r: Result<Option<string>>)
    requires forall x :: x in keys ==> x in d.vals
    ensures r.Ok? && r.value.Some? ==> r.value.value in keys
    ensures r.Ok? && r.value.Some? ==> exists i :: (0 <= i < |keys| && keys[i] == r.value.value &&
      TitleMatches(d.vals[keys[i]], key) && Skips(d, keys, key, i))
    ensures r == Ok(None) <==> Skips(d, keys, key, |keys|)
    ensures r.Raise? ==> r.exc == AttributeError
  {
    FindFrom(d, keys, key, 0)
  }
}

module Reconciliation {
  import opened Py
  import opened Text
  import opened Albums
  import opened Naming
  import opened Trees
  import opened Collection

  /** The valid and wrong trees after the scan and, when the catalog
      answered with a list, the catalog loop. */
  function Prepared(root: string, bands: seq<BandFolder>, catalog: Option<seq<Album>>): (r: Result<Stage>)
    ensures r.Raise? <==> catalog.Some? && exists i :: 0 <= i < |catalog.value| && !Get(catalog.value[i], "band").VStr?
  {
    var scanned := ScanCollection(root, bands);
    if catalog.Some? then
      MatchCatalogRaises(scanned, catalog.value);
      MatchCatalog(scanned, catalog.value)
    else Ok(scanned)
  }

  /** `_update_albums_from_collection(add_to_db)`: the valid, new and wrong
      trees. `catalog` is the outcome of the catalog request, which is not
      guarded: when it raises, the reconciliation raises the same exception.
      A catalog album whose band is not a string raises too. */
  function Reconcile(root: string, bands: seq<BandFolder>, catalog: Result<Option<seq<Album>>>, addToDb: bool, srv: Server): (r: Result<AlbumTrees>)
    ensures catalog.Raise? ==> r == Raise(catalog.exc)
    ensures catalog.Ok? ==> (r.Raise? <==>
      catalog.value.Some? && exists i :: 0 <= i < |catalog.value.value| && !Get(catalog.value.value[i], "band").VStr?)
  {
    var cat :- catalog;
    var st :- Prepared(root, bands, cat);
    Ok(FinalPass(st, addToDb, srv))
  }

  /** The prepared valid tree has exactly the keys of the conforming folders. */
  lemma PreparedKeys(root: string, bands: seq<BandFolder>, catalog: Option<seq<Album>>, b: string, k: string)
    requires Prepared(root, bands, catalog).Ok?
    ensures InTree(Prepared(root, bands, catalog).value.valid, b, k) <==>
      exists e :: e in Entries(bands) && FiledAs(e, b, k)
  {
    if catalog.Some? {
      MatchCatalogKeepsAlbums(ScanCollection(root, bands), catalog.value, b, k);
    }
  }

  /** The valid tree holds exactly the albums of the conforming folders,
      keyed by case-folded band and folder name; no catalog album and no
      misnamed folder is added to it. */
  lemma ValidAreConformingFolders(root: string, bands: seq<BandFolder>, catalog: Option<seq<Album>>,
                                  addToDb: bool, srv: Server, b: string, k: string)
    requires Reconcile(root, bands, Ok(catalog), addToDb, srv).Ok?
    ensures InTree(Reconcile(root, bands, Ok(catalog), addToDb, srv).value.valid, b, k) <==>
      exists e :: e in Entries(bands) && FiledAs(e, b, k)
  {
    PreparedKeys(root, bands, catalog, b, k);
  }

  /** The class state `_update_albums_from_collection()` leaves behind when
      it is called without arguments (`add_to_db` false): its valid and
      wrong trees. The song search and the review batch rescan with it. */
  function Rescan(root: string, bands: seq<BandFolder>, catalog: Result<Option<seq<Album>>>, srv: Server): (r: Result<Stage>)
    ensures catalog.Raise? ==> r == Raise(catalog.exc)
    ensures r.Ok? <==> Reconcile(root, bands, catalog, false, srv).Ok?
  {
    var t :- Reconcile(root, bands, catalog, false, srv);
    Ok(Stage(t.valid, t.wrong))
  }

  /** The rescanned valid tree holds exactly the conforming folders. */
  lemma RescanValidConforms(root: string, bands: seq<BandFolder>, catalog: Result<Option<seq<Album>>>,
                            srv: Server, b: string, k: string)
    requires Rescan(root, bands, catalog, srv).Ok?
    ensures InTree(Rescan(root, bands, catalog, srv).value.valid, b, k) <==>
      exists e :: e in Entries(bands) && FiledAs(e, b, k)
  {
    assert catalog == Ok(catalog.value);
    ValidAreConformingFolders(root, bands, catalog.value, false, srv, b, k);
  }

  /** Nothing is lost: every valid album ends either marked as in the
      catalog or listed in the wrong tree. */
  lemma EveryAlbumAccounted(root: string, bands: seq<BandFolder>, catalog: Option<seq<Album>>,
                            addToDb: bool, srv: Server, b: string, k: string)
    requires Reconcile(root, bands, Ok(catalog), addToDb, srv).Ok?
    requires InTree(Reconcile(root, bands, Ok(catalog), addToDb, srv).value.valid, b, k)
    ensures var t := Reconcile(root, bands, Ok(catalog), addToDb, srv).value;
      Truthy(Get(At(t.valid, b, k), "in_db")) || InTree(t.wrong, b, k)
  {
    var st := Prepared(root, bands, catalog).value;
    assert Reconcile(root, bands, Ok(catalog), addToDb, srv).value == FinalPass(st, addToDb, srv);
    FinalPassAccounts(st, addToDb, srv, b, k);
  }

  lemma FinalPassAccounts(st: Stage, addToDb: bool, srv: Server, b: string, k: string)
    requires InTree(FinalPass(st, addToDb, srv).valid, b, k)
    ensures var t := FinalPass(st, addToDb, srv);
      Truthy(Get(At(t.valid, b, k), "in_db")) || InTree(t.wrong, b, k)
  {
    var t := FinalPass(st, addToDb, srv);
    assert InTree(st.valid, b, k);
    var a := At(st.valid, b, k);
    assert FailsAt(st.valid, addToDb, srv, b, k) ==> InTree(t.wrong, b, k);
    SettledAccounts(a, addToDb, srv, At(t.valid, b, k), FailsAt(st.valid, addToDb, srv, b, k), InTree(t.wrong, b, k));
  }

  /** One album after the final pass: marked, or failed and so reported. */
  lemma SettledAccounts(a: Album, addToDb: bool, srv: Server, after: Album, fails: bool, reported: bool)
    requires after == Settled(a, Settle(a, addToDb, srv))
    requires fails == Settle(a, addToDb, srv).Failed?
    requires fails ==> reported
    ensures Truthy(Get(after, "in_db")) || reported
  {
  }

  /** The new tree holds exactly the albums the final pass pushed to the
      catalog, each the same record as in the valid tree and marked as in the
      catalog. Without `add_to_db` it is empty. */
  lemma AddedArePushed(root: string, bands: seq<BandFolder>, catalog: Option<seq<Album>>,
                       addToDb: bool, srv: Server, b: string, k: string)
    requires Reconcile(root, bands, Ok(catalog), addToDb, srv).Ok?
    ensures var t := Reconcile(root, bands, Ok(catalog), addToDb, srv).value;
      InTree(t.added, b, k) ==>
        && addToDb
        && InTree(t.valid, b, k)
        && At(t.added, b, k) == At(t.valid, b, k)
        && Get(At(t.added, b, k), "in_db") == VBool(true)
  {
  }

  /** A local album some catalog album is looked up under ends marked as in
      the catalog and is never pushed again. */
  lemma CatalogMatchMarks(root: string, bands: seq<BandFolder>, catalog: seq<Album>,
                          addToDb: bool, srv: Server, b: string, k: string, i: nat)
    requires Reconcile(root, bands, Ok(Some(catalog)), addToDb, srv).Ok?
    requires i < |catalog| && Targets(ScanCollection(root, bands), catalog[i], b, k)
    requires exists e :: e in Entries(bands) && FiledAs(e, b, k)
    ensures var t := Reconcile(root, bands, Ok(Some(catalog)), addToDb, srv).value;
      && InTree(t.valid, b, k)
      && Get(At(t.valid, b, k), "in_db") == VBool(true)
      && !InTree(t.added, b, k)
  {
    var scanned := ScanCollection(root, bands);
    assert InTree(scanned.valid, b, k);
    MatchCatalogMarks(scanned, catalog, b, k);
    var st := MatchCatalog(scanned, catalog).value;
    assert Prepared(root, bands, Some(catalog)) == Ok(st);
    assert Reconcile(root, bands, Ok(Some(catalog)), addToDb, srv).value == FinalPass(st, addToDb, srv);
    FinalPassKeepsMarked(st, addToDb, srv, b, k);
  }

  lemma FinalPassKeepsMarked(st: Stage, addToDb: bool, srv: Server, b: string, k: string)
    requires InTree(st.valid, b, k) && Get(At(st.valid, b, k), "in_db") == VBool(true)
    ensures var t := FinalPass(st, addToDb, srv);
      InTree(t.valid, b, k) && Get(At(t.valid, b, k), "in_db") == VBool(true) && !InTree(t.added, b, k)
  {
    assert Settle(At(st.valid, b, k), addToDb, srv) == Kept;
  }

  /** A catalog album of a band in the collection that no folder matches is
      reported in the wrong tree under its catalog key. */
  lemma UnmatchedCatalogIsWrong(root: string, bands: seq<BandFolder>, catalog: seq<Album>,
                                addToDb: bool, srv: Server, r: Album)
    requires Reconcile(root, bands, Ok(Some(catalog)), addToDb, srv).Ok?
    requires r in catalog && Unmatched(ScanCollection(root, bands), r)
    ensures InTree(Reconcile(root, bands, Ok(Some(catalog)), addToDb, srv).value.wrong, CatalogBandKey(r), CatalogAlbumKey(r))
  {
    MatchCatalogFlagsMissing(ScanCollection(root, bands), catalog, r);
  }

  /** A folder that breaks the naming convention, other than `Misc`, is
      reported in the wrong tree under its raw band and folder names. */
  lemma MisnamedFolderIsWrong(root: string, bands: seq<BandFolder>, catalog: Option<seq<Album>>,
                              addToDb: bool, srv: Server, band: string, name: string)
    requires Reconcile(root, bands, Ok(catalog), addToDb, srv).Ok?
    requires Entry(band, name) in Entries(bands) && !FollowsConvention(name) && name != "Misc"
    ensures InTree(Reconcile(root, bands, Ok(catalog), addToDb, srv).value.wrong, band, name)
  {
    var scanned := ScanCollection(root, bands);
    if catalog.Some? {
      MatchCatalogKeepsWrong(scanned, catalog.value, band, name);
    }
  }
}

=== FILE: dicts.dfy ===
/** Python's insertion-ordered `dict`: a map plus the order in which its keys
    were first inserted. Assigning to a present key keeps its position;
    assigning to a new key appends it. */
module Dicts {

  datatype RawDict<K(!new), V> = RawDict(keys: seq<K>, vals: map<K, V>)

  /** The keys are listed once each, and the listed keys are the map's keys. */
  ghost predicate WellFormed<K(!new), V>(d: RawDict<K, V>) {
    && (forall i, j :: 0 <= i < j < |d.keys| ==> d.keys[i] != d.keys[j])
    && (forall k :: k in d.vals <==> k in d.keys)
  }

  type Dict<K(!new), V> = d: RawDict<K, V> | WellFormed(d) witness RawDict([], map[])

  function Empty<K(!new), V>(): (d: Dict<K, V>)
    ensures d.vals == map[] && d.keys == []
  {
    RawDict([], map[])
  }

  /** `d[k] = v`. */
  function Put<K(!new), V>(d: Dict<K, V>, k: K, v: V): (r: Dict<K, V>)
    ensures r.vals == d.vals[k := v]
    ensures k in d.vals ==> r.keys == d.keys
    ensures k !in d.vals ==> r.keys == d.keys + [k]
  {
    if k in d.vals then RawDict(d.keys, d.vals[k := v])
    else
      var r := RawDict(d.keys + [k], d.vals[k := v]);
      assert forall x :: x in r.keys <==> x in d.keys || x == k;
      r
  }

  /** The same keys in the same order, every value replaced by `f(key, value)`. */
  function MapValues<K(!new), V, W>(d: Dict<K, V>, f: (K, V) -> W): (r: Dict<K, W>)
    ensures r.keys == d.keys
    ensures r.vals.Keys == d.vals.Keys
    ensures forall k :: k in d.vals ==> r.vals[k] == f(k, d.vals[k])
  {
    RawDict(d.keys, map k | k in d.vals :: f(k, d.vals[k]))
  }
}

=== FILE: legacy.dfy ===
/** The older album manager (MusicPlayer/music/album_manager.py): the same
    folder convention, but albums are filed under the raw folder name, a
    misnamed folder is only logged, a catalog album is matched by title
    alone, and the song search differs from the newer one. */
module Legacy {
  import opened Py
  import opened Seqs
  import opened Text
  import opened Dicts
  import opened Albums
  import opened Songs
  import opened Naming
  import opened Paths
  import opened Trees
  import opened Collection
  import opened Locator

  /** Where a conforming folder is filed: `band.casefold()` and the folder
      name exactly as listed. Other folders are filed nowhere. */
  function LegacySlot(root: string): Entry -> Option<Slot<Album>> {
    (e: Entry) => if FollowsConvention(e.name)
         then Some(Slot(Casefold(e.band), e.name, FolderAlbum(root, e.band, e.name)))
         else None
  }

  /** A conforming folder of band `band` named `k`, filed under band key `b`. */
  predicate LegacyFiled(e: Entry, b: string, k: string) {
    FollowsConvention(e.name) && Casefold(e.band) == b && e.name == k
  }

  /** The folder loop of `get_albums_from_collection`. */
  function LegacyScan(root: string, bands: seq<BandFolder>): (t: Tree<Album>)
    ensures forall b, k :: InTree(t, b, k) <==> exists e :: e in Entries(bands) && LegacyFiled(e, b, k)
  {
    var es := Entries(bands);
    var t := Place(Empty(), es, LegacySlot(root));
    assert forall b, k :: InTree(t, b, k) <==> exists e :: e in es && LegacyFiled(e, b, k) by {
      forall b, k ensures InTree(t, b, k) <==> exists e :: e in es && LegacyFiled(e, b, k) {
        LegacyScanAt(root, es, b, k);
      }
    }
    t
  }

  lemma LegacyScanAt(root: string, es: seq<Entry>, b: string, k: string)
    ensures InTree(Place(Empty(), es, LegacySlot(root)), b, k) <==> exists e :: e in es && LegacyFiled(e, b, k)
  {
    var f := LegacySlot(root);
    PlaceSpec(Empty(), es, f, b, k);
    if InTree(Place(Empty(), es, f), b, k) {
      var i :| 0 <= i < |es| && Hits(f(es[i]), b, k);
      assert es[i] in es && LegacyFiled(es[i], b, k);
    }
    if exists e :: e in es && LegacyFiled(e, b, k) {
      var e :| e in es && LegacyFiled(e, b, k);
      var i :| 0 <= i < |es| && es[i] == e;
      assert Hits(f(es[i]), b, k);
    }
  }

  /** Only conforming folder names are album keys, and every album is the
      folder album of a folder of that name (the last one listed). */
  lemma LegacyKeysConform(root: string, bands: seq<BandFolder>, b: string, k: string)
    requires InTree(LegacyScan(root, bands), b, k)
    ensures FollowsConvention(k)
    ensures exists e :: (e in Entries(bands) && LegacyFiled(e, b, k) &&
      At(LegacyScan(root, bands), b, k) == FolderAlbum(root, e.band, k))
  {
    var e := LegacyLastFolder(root, Entries(bands), b, k);
    assert e in Entries(bands);
  }

  lemma LegacyLastFolder(root: string, es: seq<Entry>, b: string, k: string) returns (e: Entry)
    requires InTree(Place(Empty(), es, LegacySlot(root)), b, k)
    ensures e in es && LegacyFiled(e, b, k)
    ensures At(Place(Empty(), es, LegacySlot(root)), b, k) == FolderAlbum(root, e.band, k)
  {
    var f := LegacySlot(root);
    PlaceSpec(Empty(), es, f, b, k);
    var i :| 0 <= i < |es| && Hits(f(es[i]), b, k);
    LastHit(es, f, b, k, i);
    var m :| i <= m < |es| && Hits(f(es[m]), b, k) && forall j :: m < j < |es| ==> !Hits(f(es[j]), b, k);
    e := es[m];
  }

  /** One catalog album: its band key is `band.casefold().strip()`; in a
      known band the first album whose title, case-folded, equals the
      catalog title case-folded takes the catalog's fields and
      `in_db = True`. A band that is not a string, or a title that is not
      one when it is compared, raises `AttributeError`. */
  function LegacyMatch(t: Tree<Album>, c: Album): (r: Result<Tree<Album>>)
    ensures r.Raise? ==> r.exc == AttributeError
    ensures !Get(c, "band").VStr? ==> r.Raise?
    ensures Get(c, "band").VStr? && Strip(Casefold(Get(c, "band").s)) !in t.vals ==> r == Ok(t)
    ensures r.Ok? ==> forall b, k :: InTree(r.value, b, k) <==> InTree(t, b, k)
  {
    if !Get(c, "band").VStr? then Raise(AttributeError)
    else
      var bk := Strip(Casefold(Get(c, "band").s));
      if bk !in t.vals then Ok(t)
      else
        var d := t.vals[bk];
        if d.keys == [] then Ok(t)
        else if !Get(c, "title").VStr? then Raise(AttributeError)
        else
          var found :- FindAlbum(d, d.keys, Casefold(Get(c, "title").s));
          if found.None? then Ok(t)
          else Ok(MarkAlbum(t, bk, found.value, c))
  }

  /** The matched album merged with the catalog album and marked. */
  function MarkAlbum(t: Tree<Album>, bk: string, k: string, c: Album): (r: Tree<Album>)
    requires InTree(t, bk, k)
    ensures InTree(r, bk, k) && At(r, bk, k) == Marked(At(t, bk, k), c)
    ensures Get(At(r, bk, k), "in_db") == VBool(true)
    ensures forall b, k' :: InTree(r, b, k') <==> InTree(t, b, k')
    ensures forall b, k' :: (b != bk || k' != k) && InTree(t, b, k') ==> At(r, b, k') == At(t, b, k')
  {
    AddAlbumToTree(t, bk, k, Marked(At(t, bk, k), c))
  }

  /** The album the catalog album is matched with is the first one of the
      band with that title: it is merged and marked, and every other entry
      keeps its album. */
  lemma LegacyMatchMarksFirst(t: Tree<Album>, c: Album, k: string)
    requires Get(c, "band").VStr? && Get(c, "title").VStr?
    requires var bk := Strip(Casefold(Get(c, "band").s));
      bk in t.vals && FindAlbum(t.vals[bk], t.vals[bk].keys, Casefold(Get(c, "title").s)) == Ok(Some(k))
    ensures var bk := Strip(Casefold(Get(c, "band").s));
      && InTree(t, bk, k)
      && LegacyMatch(t, c) == Ok(MarkAlbum(t, bk, k, c))
  {
    var bk := Strip(Casefold(Get(c, "band").s));
    var d := t.vals[bk];
    assert k in d.keys && d.keys != [];
    assert LegacyMatch(t, c) == Ok(MarkAlbum(t, bk, k, c));
  }

  /** A catalog album that matches no title changes nothing. */
  lemma LegacyUnmatchedIgnored(t: Tree<Album>, c: Album)
    requires Get(c, "band").VStr? && Get(c, "title").VStr?
    requires var bk := Strip(Casefold(Get(c, "band").s));
      bk in t.vals && FindAlbum(t.vals[bk], t.vals[bk].keys, Casefold(Get(c, "title").s)) == Ok(None)
    ensures LegacyMatch(t, c) == Ok(t)
  {
  }

  function LegacyCatalog(t: Tree<Album>, cs: seq<Album>): (r: Result<Tree<Album>>)
    ensures r.Raise? ==> r.exc == AttributeError
    decreases |cs|
  {
    if cs == [] then Ok(t)
    else
      var next :- LegacyMatch(t, cs[0]);
      LegacyCatalog(next, cs[1..])
  }

  /** The catalog pass never adds or removes an album entry. */
  lemma {:induction false} LegacyCatalogKeepsKeys(t: Tree<Album>, cs: seq<Album>, b: string, k: string)
    requires LegacyCatalog(t, cs).Ok?
    ensures InTree(LegacyCatalog(t, cs).value, b, k) <==> InTree(t, b, k)
    decreases |cs|
  {
    if cs != [] {
      var next := LegacyMatch(t, cs[0]).value;
      LegacyCatalogKeepsKeys(next, cs[1..], b, k);
    }
  }

  /** `get_albums_from_collection()`: the scan, then the catalog albums in
      turn when the catalog answered with a list. `catalog` is the outcome of
      the unguarded catalog request, whose exception escapes as it is. */
  function GetAlbumsFromCollection(root: string, bands: seq<BandFolder>, catalog: Result<Option<seq<Album>>>): (r: Result<Tree<Album>>)
    ensures catalog.Raise? ==> r == Raise(catalog.exc)
    ensures catalog == Ok(None) ==> r == Ok(LegacyScan(root, bands))
    ensures catalog.Ok? && r.Raise? ==> r.exc == AttributeError
  {
    var t := LegacyScan(root, bands);
    var cat :- catalog;
    match cat
    case None => Ok(t)
    case Some(cs) => LegacyCatalog(t, cs)
  }

  /** The albums returned are exactly the conforming folders, under their
      raw names: a misnamed folder is never in the result. */
  lemma LegacyResultIsScan(root: string, bands: seq<BandFolder>, catalog: Result<Option<seq<Album>>>, b: string, k: string)
    requires GetAlbumsFromCollection(root, bands, catalog).Ok?
    ensures InTree(GetAlbumsFromCollection(root, bands, catalog).value, b, k) <==>
      exists e :: e in Entries(bands) && LegacyFiled(e, b, k)
  {
    if catalog.Ok? && catalog.value.Some? {
      LegacyCatalogKeepsKeys(LegacyScan(root, bands), catalog.value.value, b, k);
    }
  }

  /** The file test of the older search: the case-folded name contains the
      case-folded title; the extension is not looked at. */
  predicate TitleIn(title: string, name: string) {
    Contains(Casefold(name), Casefold(title))
  }

  /** Search state: the song's file name so far and whether a file was
      found in the walk. */
  datatype Search = Search(name: Option<string>, found: bool)

  /** One folder of the walk. While the song has no file name, its files
      are tried in order and the first whose name contains the title is
      taken. When nothing has been found after the folder, the file
      chooser is opened (`choice` is its answer, already made relative to
      the album folder, or the error that raised); a chosen file becomes the
      file name but does not count as found. */
  function LegacyFolder(title: Option<string>, d: WalkDir, choice: Option<Result<string>>,
                        st: Search): (r: Result<Search>)
    ensures r.Ok? && st.found && Present(st.name) ==> r.value == st
    ensures r.Ok? && r.value.found && !st.found ==> title.Some? && r.value.name == FolderFirst(title.value, d)
  {
    var st' :-
      if Present(st.name) || d.files == [] then Ok(st)
      else if title.None? then Raise(AttributeError)
      else
        match FolderFirst(title.value, d)
        case None => Ok(st)
        case Some(f) => Ok(Search(Some(f), true));
    if st'.found then Ok(st')
    else
      match choice
      case None => Ok(st')
      case Some(rel) =>
        var name :- rel;
        Ok(Search(Some(name), false))
  }

  /** The file chooser and the catalog update that follows a choice:
      `picks(song)(i)` is the file chosen for `song` after folder `i`, if
      any, and `push(song)` is the exception `api_songs_update_song(song)`
      raises, if any. */
  datatype Dialog = Dialog(picks: Song -> nat -> Option<string>, push: Song -> Option<Exc>)

  /** A chosen name after the catalog update of the song has run. The
      update is not guarded, so its exception escapes. */
  function Pushed(rel: Result<string>, push: string -> Option<Exc>): (r: Result<string>)
    ensures rel.Raise? ==> r == rel
    ensures rel.Ok? ==> (r.Raise? <==> push(rel.value).Some?)
    ensures rel.Ok? && r.Raise? ==> r.exc == push(rel.value).value
    ensures r.Ok? ==> r == rel
  {
    var name :- rel;
    match push(name)
    case None => Ok(name)
    case Some(e) => Raise(e)
  }

  /** The chooser's answers after each folder, as `os.path.relpath(file,
      album_path)` turns them into file names and the catalog update then
      takes them: `picks(i)` is the file chosen after folder `i`, if any. */
  function Choices(picks: nat -> Option<string>, cwd: string, albumPath: string,
                   push: string -> Option<Exc>): nat -> Option<Result<string>> {
    (j: nat) => match picks(j)
      case None => None
      case Some(file) => Some(Pushed(RelPath(cwd, file, albumPath), push))
  }

  /** The answers for `song`: a chosen name is pushed as the song's file
      name, with the song's type set to `Strong`. */
  function SongChoices(dialog: Dialog, song: Song, cwd: string, albumPath: string): nat -> Option<Result<string>> {
    Choices(dialog.picks(song), cwd, albumPath,
            (name: string) => dialog.push(song.(fileName := Some(name), kind := Some("Strong"))))
  }

  /** A chosen file is never an empty name. */
  ghost predicate NamedChoices(choices: nat -> Option<Result<string>>) {
    forall j: nat :: choices(j).Some? && choices(j).value.Ok? ==> choices(j).value.value != []
  }

  lemma ChoicesNamed(picks: nat -> Option<string>, cwd: string, albumPath: string, push: string -> Option<Exc>)
    ensures NamedChoices(Choices(picks, cwd, albumPath, push))
  {
    var choices := Choices(picks, cwd, albumPath, push);
    forall j: nat
      ensures choices(j).Some? && choices(j).value.Ok? ==> choices(j).value.value != []
    {
      if picks(j).Some? {
        var rel := RelPath(cwd, picks(j).value, albumPath);
        assert choices(j) == Some(Pushed(rel, push));
      }
    }
  }

  /** The first file of a folder whose name contains the title. */
  function FolderFirst(title: string, d: WalkDir): (r: Option<string>)
    ensures r.None? <==> forall j :: 0 <= j < |d.files| ==> !TitleIn(title, d.files[j])
    ensures r.Some? ==> exists j :: (0 <= j < |d.files| && d.files[j] == r.value && TitleIn(title, r.value) &&
      forall i :: 0 <= i < j ==> !TitleIn(title, d.files[i]))
  {
    match FirstIndex(d.files, (f: string) => TitleIn(title, f))
    case None => None
    case Some(j) => Some(d.files[j])
  }

  /** The walk from folder `i` on; `choices(i)` is the chooser's answer after
      folder `i`. */
  function LegacyWalk(title: Option<string>, walk: seq<WalkDir>, choices: nat -> Option<Result<string>>,
                      i: nat, st: Search): Result<Search>
    requires i <= |walk|
    decreases |walk| - i
  {
    if i == |walk| then Ok(st)
    else
      var next :- LegacyFolder(title, walk[i], choices(i), st);
      LegacyWalk(title, walk, choices, i + 1, next)
  }

  /** Once found, the rest of the walk changes nothing. */
  lemma {:induction false} FoundStays(title: Option<string>, walk: seq<WalkDir>,
                                      choices: nat -> Option<Result<string>>, i: nat, st: Search)
    requires i <= |walk| && st.found && Present(st.name)
    ensures LegacyWalk(title, walk, choices, i, st) == Ok(st)
    decreases |walk| - i
  {
    if i < |walk| {
      FoundStays(title, walk, choices, i + 1, st);
    }
  }

  /** Once a chosen file has set the name without a find, no file of the
      walk is taken any more. */
  lemma {:induction false} NamedStaysUnfound(title: Option<string>, walk: seq<WalkDir>,
                                             choices: nat -> Option<Result<string>>, i: nat, st: Search)
    requires i <= |walk| && !st.found && Present(st.name) && NamedChoices(choices)
    ensures LegacyWalk(title, walk, choices, i, st).Ok? ==>
      !LegacyWalk(title, walk, choices, i, st).value.found
    decreases |walk| - i
  {
    if i < |walk| {
      var r := LegacyFolder(title, walk[i], choices(i), st);
      if r.Ok? {
        assert choices(i).Some? && choices(i).value.Ok? ==> choices(i).value.value != [];
        assert !r.value.found && Present(r.value.name);
        NamedStaysUnfound(title, walk, choices, i + 1, r.value);
      }
    }
  }

  /** Directory listings never hold an empty file name. */
  predicate NamedFiles(walk: seq<WalkDir>) {
    forall j :: 0 <= j < |walk| ==> forall x :: x in walk[j].files ==> x != []
  }

  /** A search that has neither a name nor a find. */
  predicate Blank(st: Search) {
    !Present(st.name) && !st.found
  }

  /** Folders `i` up to `m` have no matching file and the chooser was
      dismissed after each of them. */
  predicate Dismissed(title: string, walk: seq<WalkDir>, choices: nat -> Option<Result<string>>, i: nat, m: nat)
    requires i <= m <= |walk|
    decreases m - i
  {
    i == m || (FolderFirst(title, walk[i]).None? && choices(i).None? && Dismissed(title, walk, choices, i + 1, m))
  }

  lemma {:induction false} DismissedFrom(title: string, walk: seq<WalkDir>, choices: nat -> Option<Result<string>>, i: nat, m: nat)
    requires i <= m <= |walk|
    requires forall j :: i <= j < m ==> FolderFirst(title, walk[j]).None? && choices(j).None?
    ensures Dismissed(title, walk, choices, i, m)
    decreases m - i
  {
    if i < m {
      DismissedFrom(title, walk, choices, i + 1, m);
    }
  }

  /** Dismissed folders leave a blank search as it is. */
  lemma {:induction false} SkipTo(title: string, walk: seq<WalkDir>,
                                  choices: nat -> Option<Result<string>>, i: nat, m: nat, st: Search)
    requires Blank(st) && i <= m <= |walk|
    requires Dismissed(title, walk, choices, i, m)
    ensures LegacyWalk(Some(title), walk, choices, i, st) ==
      LegacyWalk(Some(title), walk, choices, m, st)
    decreases m - i
  {
    if i < m {
      SkipFolder(title, walk[i], choices(i), st);
      WalkStep(Some(title), walk, choices, i, st, st);
      SkipTo(title, walk, choices, i + 1, m, st);
    }
  }

  /** A folder that ends in `next` hands `next` to the rest of the walk. */
  lemma WalkStep(title: Option<string>, walk: seq<WalkDir>,
                 choices: nat -> Option<Result<string>>, i: nat, st: Search, next: Search)
    requires i < |walk|
    requires LegacyFolder(title, walk[i], choices(i), st) == Ok(next)
    ensures LegacyWalk(title, walk, choices, i, st) ==
      LegacyWalk(title, walk, choices, i + 1, next)
  {
  }

  /** From a blank search at folder `i`: if no folder before `m` has a
      matching file and the chooser was dismissed after each of them, the
      first matching file of folder `m` is the song's file. */
  lemma FirstMatchFrom(title: string, walk: seq<WalkDir>,
                       choices: nat -> Option<Result<string>>, i: nat, m: nat, st: Search)
    requires NamedFiles(walk) && Blank(st)
    requires i <= m < |walk|
    requires forall j :: i <= j < m ==> FolderFirst(title, walk[j]).None? && choices(j).None?
    requires FolderFirst(title, walk[m]).Some?
    ensures LegacyWalk(Some(title), walk, choices, i, st) ==
      Ok(Search(FolderFirst(title, walk[m]), true))
  {
    DismissedFrom(title, walk, choices, i, m);
    SkipTo(title, walk, choices, i, m, st);
    var f := FolderFirst(title, walk[m]).value;
    assert f in walk[m].files;
    TakeFolder(title, walk[m], choices(m), st);
    FoundStays(Some(title), walk, choices, m + 1, Search(Some(f), true));
  }

  lemma SkipFolder(title: string, d: WalkDir, choice: Option<Result<string>>, st: Search)
    requires Blank(st) && FolderFirst(title, d).None? && choice.None?
    ensures LegacyFolder(Some(title), d, choice, st) == Ok(st)
  {
  }

  lemma TakeFolder(title: string, d: WalkDir, choice: Option<Result<string>>, st: Search)
    requires Blank(st) && FolderFirst(title, d).Some?
    ensures LegacyFolder(Some(title), d, choice, st) == Ok(Search(FolderFirst(title, d), true))
  {
    assert d.files != [];
  }

  /** With no matching file from folder `i` on, nothing is found. */
  lemma {:induction false} NoMatchUnfound(title: string, walk: seq<WalkDir>,
                                          choices: nat -> Option<Result<string>>, i: nat, st: Search)
    requires i <= |walk| && !st.found
    requires forall j :: i <= j < |walk| ==> FolderFirst(title, walk[j]).None?
    ensures LegacyWalk(Some(title), walk, choices, i, st).Ok? ==>
      !LegacyWalk(Some(title), walk, choices, i, st).value.found
    decreases |walk| - i
  {
    if i < |walk| {
      var r := LegacyFolder(Some(title), walk[i], choices(i), st);
      if r.Ok? {
        assert !r.value.found;
        NoMatchUnfound(title, walk, choices, i + 1, r.value);
      }
    }
  }

  /** A file chosen in the chooser, before any folder with a matching file,
      ends the search for good: later folders are not looked at and the
      song counts as not found. */
  lemma PickDrops(title: string, walk: seq<WalkDir>,
                  choices: nat -> Option<Result<string>>, m: nat, st: Search)
    requires Blank(st) && m < |walk|
    requires forall j :: 0 <= j <= m ==> FolderFirst(title, walk[j]).None?
    requires forall j :: 0 <= j < m ==> choices(j).None?
    requires choices(m).Some? && NamedChoices(choices)
    ensures LegacyWalk(Some(title), walk, choices, 0, st).Ok? ==>
      !LegacyWalk(Some(title), walk, choices, 0, st).value.found
  {
    DismissedFrom(title, walk, choices, 0, m);
    SkipTo(title, walk, choices, 0, m, st);
    var r := LegacyFolder(Some(title), walk[m], choices(m), st);
    if r.Ok? {
      assert choices(m).value.Ok? ==> choices(m).value.value != [];
      assert !r.value.found && Present(r.value.name);
      NamedStaysUnfound(Some(title), walk, choices, m + 1, r.value);
    }
  }

  /** A file chosen after folder `m`, before any folder with a matching file,
      whose catalog update raises: the walk raises the same exception. */
  lemma PickPushRaises(title: string, walk: seq<WalkDir>,
                       choices: nat -> Option<Result<string>>, m: nat, st: Search, e: Exc)
    requires Blank(st) && m < |walk|
    requires forall j :: 0 <= j <= m ==> FolderFirst(title, walk[j]).None?
    requires forall j :: 0 <= j < m ==> choices(j).None?
    requires choices(m) == Some(Raise(e))
    ensures LegacyWalk(Some(title), walk, choices, 0, st) == Raise(e)
  {
    DismissedFrom(title, walk, choices, 0, m);
    SkipTo(title, walk, choices, 0, m, st);
    assert LegacyFolder(Some(title), walk[m], choices(m), st) == Raise(e);
  }

  /** The older `_get_songs_in_fs` for one catalog song: band and album are
      found as in the newer manager, but a stored file name that does not
      exist drops the song without a search, and a song without one is
      searched for by title alone. */
  function LegacyLocateSong(s: Song, valid: Tree<Album>, disk: Disk, dialog: Dialog): (r: Result<Option<Song>>)
    ensures Band(s).VStr? && Casefold(Band(s).s) !in valid.vals ==> r == Ok(None)
    ensures !Band(s).VStr? ==> r == Raise(AttributeError)
    ensures r.Ok? && r.value.Some? ==> Band(s).VStr? && Casefold(Band(s).s) in valid.vals
    ensures r.Ok? && r.value.Some? ==> Located(s, r.value.value, valid.vals[Casefold(Band(s).s)])
  {
    var band := Band(s);
    if !band.VStr? then Raise(AttributeError)
    else
      var bk := Casefold(band.s);
      if bk !in valid.vals then Ok(None)
      else
        var d := valid.vals[bk];
        match FirstIndex(d.keys, SameId(d, AlbumId(s)))
        case None => Ok(None)
        case Some(i) =>
          var album := d.vals[d.keys[i]];
          if !Get(album, "path").VStr? then Raise(TypeError)
          else
            var path := Get(album, "path").s;
            var song := s.(album := AnAlbum(album));
            if Present(s.fileName) then
              if disk.isFile(PathJoin(path, s.fileName.value)) then Ok(Some(song)) else Ok(None)
            else
              var res :- LegacyWalk(s.title, disk.walk(path), SongChoices(dialog, song, disk.cwd, path), 0, Search(s.fileName, false));
              if res.found then Ok(Some(song.(fileName := res.name))) else Ok(None)
  }

  /** A stored file name that does not exist in the album's folder drops
      the song; there is no search. */
  lemma StoredMissingDropped(s: Song, valid: Tree<Album>, disk: Disk, dialog: Dialog)
    requires Band(s).VStr? && Casefold(Band(s).s) in valid.vals
    requires var d := valid.vals[Casefold(Band(s).s)];
      var i := FirstIndex(d.keys, SameId(d, AlbumId(s)));
      i.Some? && Get(d.vals[d.keys[i.value]], "path").VStr? && Present(s.fileName) &&
      !disk.isFile(PathJoin(Get(d.vals[d.keys[i.value]], "path").s, s.fileName.value))
    ensures LegacyLocateSong(s, valid, disk, dialog) == Ok(None)
  {
  }

  /** A song without a stored file name takes the first matching file of
      the first folder, in walk order, that has one, provided the chooser
      was dismissed after the folders before it. */
  lemma LegacyFirstFileWins(s: Song, valid: Tree<Album>, disk: Disk, dialog: Dialog, m: nat)
    requires Band(s).VStr? && Casefold(Band(s).s) in valid.vals
    requires s.title.Some? && !Present(s.fileName)
    requires var d := valid.vals[Casefold(Band(s).s)];
      var i := FirstIndex(d.keys, SameId(d, AlbumId(s)));
      && i.Some? && Get(d.vals[d.keys[i.value]], "path").VStr?
      && var path := Get(d.vals[d.keys[i.value]], "path").s;
      && var walk := disk.walk(path);
      && var song := s.(album := AnAlbum(d.vals[d.keys[i.value]]));
      && NamedFiles(walk) && m < |walk|
      && (forall j :: 0 <= j < m ==> FolderFirst(s.title.value, walk[j]).None? && dialog.picks(song)(j).None?)
      && FolderFirst(s.title.value, walk[m]).Some?
    ensures var d := valid.vals[Casefold(Band(s).s)];
      var a := d.vals[d.keys[FirstIndex(d.keys, SameId(d, AlbumId(s))).value]];
      var walk := disk.walk(Get(a, "path").s);
      LegacyLocateSong(s, valid, disk, dialog) ==
        Ok(Some(s.(album := AnAlbum(a), fileName := FolderFirst(s.title.value, walk[m]))))
  {
    var d := valid.vals[Casefold(Band(s).s)];
    var a := d.vals[d.keys[FirstIndex(d.keys, SameId(d, AlbumId(s))).value]];
    var path := Get(a, "path").s;
    var song := s.(album := AnAlbum(a));
    var choices := SongChoices(dialog, song, disk.cwd, path);
    assert forall j :: 0 <= j < m ==> choices(j).None?;
    FirstMatchFrom(s.title.value, disk.walk(path), choices, 0, m, Search(s.fileName, false));
  }

  /** A song without a stored file name for which no folder up to `m` has
      a matching file, the chooser was dismissed after the folders before
      `m` and a file was chosen after folder `m`: when the catalog update of
      the song under the chosen name raises, so does the search. */
  lemma LegacyPickPushRaises(s: Song, valid: Tree<Album>, disk: Disk, dialog: Dialog, m: nat,
                             file: string, name: string, e: Exc)
    requires Band(s).VStr? && Casefold(Band(s).s) in valid.vals
    requires s.title.Some? && !Present(s.fileName)
    requires var d := valid.vals[Casefold(Band(s).s)];
      var i := FirstIndex(d.keys, SameId(d, AlbumId(s)));
      && i.Some? && Get(d.vals[d.keys[i.value]], "path").VStr?
      && var path := Get(d.vals[d.keys[i.value]], "path").s;
      && var walk := disk.walk(path);
      && var song := s.(album := AnAlbum(d.vals[d.keys[i.value]]));
      && m < |walk|
      && (forall j :: 0 <= j <= m ==> FolderFirst(s.title.value, walk[j]).None?)
      && (forall j :: 0 <= j < m ==> dialog.picks(song)(j).None?)
      && dialog.picks(song)(m) == Some(file) && RelPath(disk.cwd, file, path) == Ok(name)
      && dialog.push(song.(fileName := Some(name), kind := Some("Strong"))) == Some(e)
    ensures LegacyLocateSong(s, valid, disk, dialog) == Raise(e)
  {
    var d := valid.vals[Casefold(Band(s).s)];
    var a := d.vals[d.keys[FirstIndex(d.keys, SameId(d, AlbumId(s))).value]];
    var path := Get(a, "path").s;
    var song := s.(album := AnAlbum(a));
    var choices := SongChoices(dialog, song, disk.cwd, path);
    assert forall j :: 0 <= j < m ==> choices(j).None?;
    assert choices(m) == Some(Raise(e));
    PickPushRaises(s.title.value, disk.walk(path), choices, m, Search(s.fileName, false), e);
  }

  function LegacyLocateAll(songs: seq<Song>, valid: Tree<Album>, disk: Disk, dialog: Dialog): (r: Result<seq<Song>>)
    ensures r.Ok? ==> |r.value| <= |songs|
    decreases |songs|
  {
    if songs == [] then Ok([])
    else
      var first :- LegacyLocateSong(songs[0], valid, disk, dialog);
      var rest :- LegacyLocateAll(songs[1..], valid, disk, dialog);
      Ok(if first.Some? then [first.value] + rest else rest)
  }

  /** `AlbumManager._get_songs_in_fs(song_list, root)`: with a list, the
      collection is read again (`rescan`) and the located songs returned
      in order; any other argument gives no songs. */
  function LegacySongsInFs(songList: Option<seq<Song>>, rescan: Result<Tree<Album>>, disk: Disk,
                           dialog: Dialog): (r: Result<seq<Song>>)
    ensures songList.None? ==> r == Ok([])
    ensures songList.Some? && rescan.Raise? ==> r == Raise(rescan.exc)
    ensures r.Ok? && songList.Some? ==> |r.value| <= |songList.value|
  {
    match songList
    case None => Ok([])
    case Some(songs) =>
      var valid :- rescan;
      LegacyLocateAll(songs, valid, disk, dialog)
  }

  /** The older `_get_songs_in_fs` with its rescan made explicit:
      `get_albums_from_collection()`. */
  function LegacySongsInFsRescanned(songList: Option<seq<Song>>, root: string, bands: seq<BandFolder>,
                                    catalog: Result<Option<seq<Album>>>, disk: Disk, dialog: Dialog): (r: Result<seq<Song>>)
    ensures songList.None? ==> r == Ok([])
    ensures songList.Some? && catalog.Raise? ==> r == Raise(catalog.exc)
    ensures songList.Some? && r.Ok? ==> GetAlbumsFromCollection(root, bands, catalog).Ok?
  {
    LegacySongsInFs(songList, GetAlbumsFromCollection(root, bands, catalog), disk, dialog)
  }

  /** Every song the older rescanned search returns carries the album of a
      conforming folder, filed under its raw name. */
  lemma LegacyRescannedFromFolders(songs: seq<Song>, root: string, bands: seq<BandFolder>,
                                   catalog: Result<Option<seq<Album>>>, disk: Disk, dialog: Dialog, out: Song)
    requires LegacySongsInFsRescanned(Some(songs), root, bands, catalog, disk, dialog).Ok?
    requires out in LegacySongsInFsRescanned(Some(songs), root, bands, catalog, disk, dialog).value
    ensures var t := GetAlbumsFromCollection(root, bands, catalog).value;
      exists b, k :: InTree(t, b, k) && out.album == AnAlbum(t.vals[b].vals[k]) &&
        exists e :: e in Entries(bands) && LegacyFiled(e, b, k)
  {
    var t := GetAlbumsFromCollection(root, bands, catalog).value;
    assert LegacySongsInFsRescanned(Some(songs), root, bands, catalog, disk, dialog) == LegacyLocateAll(songs, t, disk, dialog);
    LegacyLocateAllSound(songs, t, disk, dialog, out);
    var s :| s in songs && Band(s).VStr? && Casefold(Band(s).s) in t.vals &&
      Located(s, out, t.vals[Casefold(Band(s).s)]);
    var b := Casefold(Band(s).s);
    var d := t.vals[b];
    var k := d.keys[FirstIndex(d.keys, SameId(d, AlbumId(s))).value];
    assert InTree(t, b, k) && out.album == AnAlbum(t.vals[b].vals[k]);
    LegacyResultIsScan(root, bands, catalog, b, k);
  }

  /** Every song returned is a catalog song, located in the collection. */
  lemma {:induction false} LegacyLocateAllSound(songs: seq<Song>, valid: Tree<Album>, disk: Disk,
                                                dialog: Dialog, out: Song)
    requires LegacyLocateAll(songs, valid, disk, dialog).Ok?
    requires out in LegacyLocateAll(songs, valid, disk, dialog).value
    ensures exists s :: (s in songs && Band(s).VStr? && Casefold(Band(s).s) in valid.vals &&
      Located(s, out, valid.vals[Casefold(Band(s).s)]))
    decreases |songs|
  {
    var first := LegacyLocateSong(songs[0], valid, disk, dialog).value;
    var rest := LegacyLocateAll(songs[1..], valid, disk, dialog).value;
    if first.Some? && out == first.value {
      assert songs[0] in songs;
    } else {
      assert out in rest;
      LegacyLocateAllSound(songs[1..], valid, disk, dialog, out);
      var s :| s in songs[1..] && Band(s).VStr? && Casefold(Band(s).s) in valid.vals &&
        Located(s, out, valid.vals[Casefold(Band(s).s)]);
      assert s in songs;
    }
  }
}

=== FILE: locator.dfy ===
/** Finding the audio files of catalog songs in the music directory
    (`_get_songs_in_fs` and `_search_and_update_song_file_name` of
    MusicPlayer/music/music_manager.py). The directory walk, the file test,
    the working directory and the interactive file chooser are inputs. */
module Locator {
  import opened Py
  import opened Seqs
  import opened Text
  import opened Dicts
  import opened Albums
  import opened Songs
  import opened Paths
  import opened Trees
  import Collection
  import Reconciliation

  /** One step of `os.walk`: a folder and the names of the files in it. */
  datatype WalkDir = WalkDir(folder: string, files: seq<string>)

  /** The file system as the search sees it: the walk below each folder,
      the regular-file test and the working directory that relative paths
      are resolved against. */
  datatype Disk = Disk(walk: string -> seq<WalkDir>, isFile: string -> bool, cwd: string)

  /** The file test of the search: the case-folded name contains the
      case-folded title, and the name contains `.mp3`. */
  predicate IsSongFile(title: string, name: string) {
    Contains(Casefold(name), Casefold(title)) && Contains(name, ".mp3")
  }

  /** The first song file of one folder, if any. */
  function FolderHit(title: string, d: WalkDir): (r: Option<string>)
    ensures r.None? <==> forall j :: 0 <= j < |d.files| ==> !IsSongFile(title, d.files[j])
    ensures r.Some? ==> exists j :: (0 <= j < |d.files| && d.files[j] == r.value && IsSongFile(title, r.value) &&
      forall i :: 0 <= i < j ==> !IsSongFile(title, d.files[i]))
  {
    match FirstIndex(d.files, (f: string) => IsSongFile(title, f))
    case None => None
    case Some(j) => Some(d.files[j])
  }

  /** The walk: each folder's first song file replaces whatever an earlier
      folder gave, because the `break` leaves only the loop over files. */
  function WalkSearch(title: string, walk: seq<WalkDir>): (r: Option<string>)
    ensures r.None? <==> forall i :: 0 <= i < |walk| ==> FolderHit(title, walk[i]).None?
    ensures r.Some? ==> exists i :: (0 <= i < |walk| && FolderHit(title, walk[i]) == r &&
      forall j :: i < j < |walk| ==> FolderHit(title, walk[j]).None?)
  {
    LastSome(walk, (d: WalkDir) => FolderHit(title, d))
  }

  /** Some folder of the walk holds a file, so the title gets read. */
  predicate HasFiles(walk: seq<WalkDir>) {
    exists i :: 0 <= i < |walk| && walk[i].files != []
  }

  /** `_search_and_update_song_file_name`: the new file name of the song, or
      `None` when it is not found. A walk hit gives the bare file name. Only
      when the walk finds nothing is the chooser's answer `picked` used: a
      non-empty name of an existing file, stored relative to the album's
      folder; a failure there is swallowed. A title of `None` raises
      `AttributeError` as soon as there is a file to compare it with. */
  function SearchSongFile(title: Option<string>, albumPath: string, disk: Disk, picked: Option<string>): (r: Result<Option<string>>)
    ensures r.Raise? <==> title.None? && HasFiles(disk.walk(albumPath))
    ensures r.Raise? ==> r.exc == AttributeError
    ensures title.Some? && WalkSearch(title.value, disk.walk(albumPath)).Some? ==>
      r == Ok(WalkSearch(title.value, disk.walk(albumPath)))
    ensures r.Ok? && r.value.Some? && (title.None? || WalkSearch(title.value, disk.walk(albumPath)).None?) ==>
      picked.Some? && picked.value != [] && disk.isFile(picked.value) &&
      r.value == Some(RelPath(disk.cwd, picked.value, albumPath).value)
    ensures (r.Ok? && (picked.None? || picked.value == [] || !disk.isFile(picked.value)) &&
             (title.None? || WalkSearch(title.value, disk.walk(albumPath)).None?)) ==> r.value.None?
  {
    var walk := disk.walk(albumPath);
    var hit: Option<string> :-
      if title.None? then (if HasFiles(walk) then Raise(AttributeError) else Ok(None))
      else Ok(WalkSearch(title.value, walk));
    if hit.Some? then Ok(hit)
    else if picked.Some? && picked.value != [] && disk.isFile(picked.value) then
      match RelPath(disk.cwd, picked.value, albumPath)
      case Ok(rel) => Ok(Some(rel))
      case Raise(_) => Ok(None)
    else Ok(None)
  }

  /** The name the chooser fallback stores leads, from the album's folder,
      to the very file that was chosen. */
  lemma PickedFileResolves(title: Option<string>, albumPath: string, disk: Disk, picked: Option<string>)
    requires IsAbsolute(disk.cwd)
    requires title.None? || WalkSearch(title.value, disk.walk(albumPath)).None?
    requires SearchSongFile(title, albumPath, disk, picked).Ok? && SearchSongFile(title, albumPath, disk, picked).value.Some?
    ensures var name := SearchSongFile(title, albumPath, disk, picked).value.value;
      Abs(disk.cwd, PathJoin(albumPath, name)) == Abs(disk.cwd, picked.value)
  {
    RelPathResolves(disk.cwd, picked.value, albumPath);
  }

  /** The walk's answer wins over the chooser: a song file found in the
      walk is stored whatever the chooser would answer. */
  lemma WalkBeatsChooser(title: string, albumPath: string, disk: Disk, p: Option<string>, q: Option<string>)
    requires WalkSearch(title, disk.walk(albumPath)).Some?
    ensures SearchSongFile(Some(title), albumPath, disk, p) == SearchSongFile(Some(title), albumPath, disk, q)
    ensures IsSongFile(title, SearchSongFile(Some(title), albumPath, disk, p).value.value)
  {
    var walk := disk.walk(albumPath);
    var i :| 0 <= i < |walk| && FolderHit(title, walk[i]) == WalkSearch(title, walk);
  }

  /** The id of the album a catalog song refers to. */
  function AlbumId(s: Song): Value {
    match s.album
    case NoAlbum => VNone
    case AnAlbum(a) => Get(a, "id")
    case Foreign(_, _, id) => id
  }

  /** Keys of a band's albums carrying catalog id `id`. */
  function SameId(d: Dict<string, Album>, id: Value): string -> bool {
    (k: string) => k in d.vals && Get(d.vals[k], "id") == id
  }

  /** One catalog song: the band key is `album.band.casefold()` (not
      stripped); the first album of that band with the song's album id is
      set as the song's album. A stored file name that exists in the
      album's folder is kept; otherwise the file is searched for. `None`
      when the band or album is unknown or the file is not found. A band
      that is not a string raises `AttributeError`, an album path that is
      not one raises `TypeError`. */
  function LocateSong(s: Song, valid: Tree<Album>, disk: Disk, chooser: Song -> Option<string>): (r: Result<Option<Song>>)
    ensures Band(s).VStr? && Casefold(Band(s).s) !in valid.vals ==> r == Ok(None)
    ensures !Band(s).VStr? ==> r == Raise(AttributeError)
    ensures r.Ok? && r.value.Some? ==> Band(s).VStr? && Casefold(Band(s).s) in valid.vals
    ensures r.Ok? && r.value.Some? ==> Located(s, r.value.value, valid.vals[Casefold(Band(s).s)])
  {
    var band := Band(s);
    if !band.VStr? then Raise(AttributeError)
    else
      var bk := Casefold(band.s);
      if bk !in valid.vals then Ok(None)
      else
        var d := valid.vals[bk];
        match FirstIndex(d.keys, SameId(d, AlbumId(s)))
        case None => Ok(None)
        case Some(i) =>
          var album := d.vals[d.keys[i]];
          match Get(album, "path")
          case VStr(path) =>
            var song := s.(album := AnAlbum(album));
            if Present(s.fileName) && disk.isFile(PathJoin(path, s.fileName.value)) then Ok(Some(song))
            else
              var found :- SearchSongFile(s.title, path, disk, chooser(song));
              if found.None? then Ok(None) else Ok(Some(song.(fileName := found)))
          case _ => Raise(TypeError)
  }

  /** `out` is the catalog song `s` with its album set to the first album
      of the band whose id is the song's album id, everything else kept
      except possibly the file name. */
  predicate Located(s: Song, out: Song, d: Dict<string, Album>) {
    && FirstIndex(d.keys, SameId(d, AlbumId(s))).Some?
    && var k := d.keys[FirstIndex(d.keys, SameId(d, AlbumId(s))).value];
    && k in d.vals
    && out == s.(album := AnAlbum(d.vals[k]), fileName := out.fileName)
  }

  /** A stored file name that exists in the album's folder is kept as it is
      and the song is returned; no search happens. */
  lemma StoredFileKept(s: Song, valid: Tree<Album>, disk: Disk, chooser: Song -> Option<string>, key: string)
    requires Band(s).VStr? && Casefold(Band(s).s) in valid.vals
    requires var d := valid.vals[Casefold(Band(s).s)];
      FirstIndex(d.keys, SameId(d, AlbumId(s))).Some? && d.keys[FirstIndex(d.keys, SameId(d, AlbumId(s))).value] == key
    requires var a := valid.vals[Casefold(Band(s).s)].vals[key];
      Get(a, "path").VStr? && Present(s.fileName) && disk.isFile(PathJoin(Get(a, "path").s, s.fileName.value))
    ensures LocateSong(s, valid, disk, chooser) == Ok(Some(s.(album := AnAlbum(valid.vals[Casefold(Band(s).s)].vals[key]))))
  {
  }

  /** A song whose stored file name is unset or does not exist in the
      album's folder is searched for: a failed search raises, no find drops
      the song, and a find becomes the song's file name. */
  lemma MissingStoredFileSearched(s: Song, valid: Tree<Album>, disk: Disk, chooser: Song -> Option<string>, key: string)
    requires Band(s).VStr? && Casefold(Band(s).s) in valid.vals
    requires var d := valid.vals[Casefold(Band(s).s)];
      FirstIndex(d.keys, SameId(d, AlbumId(s))).Some? && d.keys[FirstIndex(d.keys, SameId(d, AlbumId(s))).value] == key
    requires var a := valid.vals[Casefold(Band(s).s)].vals[key];
      Get(a, "path").VStr? && !(Present(s.fileName) && disk.isFile(PathJoin(Get(a, "path").s, s.fileName.value)))
    ensures var a := valid.vals[Casefold(Band(s).s)].vals[key];
      var song := s.(album := AnAlbum(a));
      var found := SearchSongFile(s.title, Get(a, "path").s, disk, chooser(song));
      LocateSong(s, valid, disk, chooser) ==
        if found.Raise? then Raise(found.exc)
        else if found.value.None? then Ok(None)
        else Ok(Some(song.(fileName := found.value)))
  {
  }

  /** A song whose album has no album of the band with its id is not
      returned. */
  lemma UnknownAlbumDropped(s: Song, valid: Tree<Album>, disk: Disk, chooser: Song -> Option<string>)
    requires Band(s).VStr? && Casefold(Band(s).s) in valid.vals
    requires var d := valid.vals[Casefold(Band(s).s)];
      forall k :: k in d.keys ==> Get(d.vals[k], "id") != AlbumId(s)
    ensures LocateSong(s, valid, disk, chooser) == Ok(None)
  {
    var d := valid.vals[Casefold(Band(s).s)];
    var p := SameId(d, AlbumId(s));
    assert forall j :: 0 <= j < |d.keys| ==> !p(d.keys[j]) by {
      forall j | 0 <= j < |d.keys| ensures !p(d.keys[j]) {
        assert d.keys[j] in d.keys;
      }
    }
  }

  /** `_get_songs_in_fs(song_list)`: when the argument is a list, the
      collection is reconciled again (`rescan`) and the songs that can be
      located are returned in order. Any other argument gives no songs. */
  function SongsInFs(songList: Option<seq<Song>>, rescan: Result<Tree<Album>>, disk: Disk,
                     chooser: Song -> Option<string>): (r: Result<seq<Song>>)
    ensures songList.None? ==> r == Ok([])
    ensures songList.Some? && rescan.Raise? ==> r == Raise(rescan.exc)
    ensures r.Ok? && songList.Some? ==> |r.value| <= |songList.value|
  {
    match songList
    case None => Ok([])
    case Some(songs) =>
      var valid :- rescan;
      LocateAll(songs, valid, disk, chooser)
  }

  /** `_get_songs_in_fs(song_list)` with its rescan made explicit: the
      valid tree that `_update_albums_from_collection()` leaves behind. */
  function SongsInFsRescanned(songList: Option<seq<Song>>, root: string, bands: seq<Collection.BandFolder>,
                              catalog: Result<Option<seq<Album>>>, srv: Collection.Server, disk: Disk,
                              chooser: Song -> Option<string>): (r: Result<seq<Song>>)
    ensures songList.None? ==> r == Ok([])
    ensures songList.Some? && catalog.Raise? ==> r == Raise(catalog.exc)
    ensures songList.Some? && r.Ok? ==> Reconciliation.Rescan(root, bands, catalog, srv).Ok?
  {
    var rescan := match Reconciliation.Rescan(root, bands, catalog, srv)
      case Ok(st) => Ok(st.valid)
      case Raise(e) => Raise(e);
    SongsInFs(songList, rescan, disk, chooser)
  }

  /** Every song the rescanned search returns carries the album of a
      conforming folder of the collection. */
  lemma RescannedSongsFromFolders(songs: seq<Song>, root: string, bands: seq<Collection.BandFolder>,
                                  catalog: Result<Option<seq<Album>>>, srv: Collection.Server, disk: Disk,
                                  chooser: Song -> Option<string>, out: Song)
    requires SongsInFsRescanned(Some(songs), root, bands, catalog, srv, disk, chooser).Ok?
    requires out in SongsInFsRescanned(Some(songs), root, bands, catalog, srv, disk, chooser).value
    ensures var valid := Reconciliation.Rescan(root, bands, catalog, srv).value.valid;
      exists b, k :: InTree(valid, b, k) && out.album == AnAlbum(valid.vals[b].vals[k]) &&
        exists e :: e in Collection.Entries(bands) && Collection.FiledAs(e, b, k)
  {
    var valid := Reconciliation.Rescan(root, bands, catalog, srv).value.valid;
    assert SongsInFsRescanned(Some(songs), root, bands, catalog, srv, disk, chooser) == LocateAll(songs, valid, disk, chooser);
    LocateAllSound(songs, valid, disk, chooser, out);
    var s :| s in songs && Band(s).VStr? && Casefold(Band(s).s) in valid.vals &&
      Located(s, out, valid.vals[Casefold(Band(s).s)]);
    var b := Casefold(Band(s).s);
    var d := valid.vals[b];
    var k := d.keys[FirstIndex(d.keys, SameId(d, AlbumId(s))).value];
    assert InTree(valid, b, k) && out.album == AnAlbum(valid.vals[b].vals[k]);
    Reconciliation.RescanValidConforms(root, bands, catalog, srv, b, k);
  }

  function LocateAll(songs: seq<Song>, valid: Tree<Album>, disk: Disk, chooser: Song -> Option<string>): (r: Result<seq<Song>>)
    ensures r.Ok? ==> |r.value| <= |songs|
    decreases |songs|
  {
    if songs == [] then Ok([])
    else
      var first :- LocateSong(songs[0], valid, disk, chooser);
      var rest :- LocateAll(songs[1..], valid, disk, chooser);
      Ok(if first.Some? then [first.value] + rest else rest)
  }

  /** Every song returned is one of the catalog songs, located: the band is
      known and the song carries the first album of the band with its
      album id. */
  lemma {:induction false} LocateAllSound(songs: seq<Song>, valid: Tree<Album>, disk: Disk,
                                          chooser: Song -> Option<string>, out: Song)
    requires LocateAll(songs, valid, disk, chooser).Ok?
    requires out in LocateAll(songs, valid, disk, chooser).value
    ensures exists s :: (s in songs && Band(s).VStr? && Casefold(Band(s).s) in valid.vals &&
      Located(s, out, valid.vals[Casefold(Band(s).s)]))
    decreases |songs|
  {
    var first := LocateSong(songs[0], valid, disk, chooser).value;
    var rest := LocateAll(songs[1..], valid, disk, chooser).value;
    if first.Some? && out == first.value {
      assert songs[0] in songs;
    } else {
      assert out in rest;
      LocateAllSound(songs[1..], valid, disk, chooser, out);
      var s :| s in songs[1..] && Band(s).VStr? && Casefold(Band(s).s) in valid.vals &&
        Located(s, out, valid.vals[Casefold(Band(s).s)]);
      assert s in songs;
    }
  }

  /** A catalog song whose stored file exists is returned, unless the batch
      stops at an exception. */
  lemma {:induction false} LocateAllKeeps(songs: seq<Song>, valid: Tree<Album>, disk: Disk,
                                          chooser: Song -> Option<string>, s: Song)
    requires LocateAll(songs, valid, disk, chooser).Ok?
    requires s in songs
    requires LocateSong(s, valid, disk, chooser).Ok? && LocateSong(s, valid, disk, chooser).value.Some?
    ensures LocateSong(s, valid, disk, chooser).value.value in LocateAll(songs, valid, disk, chooser).value
    decreases |songs|
  {
    if s != songs[0] {
      assert s in songs[1..];
      LocateAllKeeps(songs[1..], valid, disk, chooser, s);
    }
  }
}

=== FILE: naming.dfy ===
/** The album-folder naming convention `<year> - <title>`
    (MusicPlayer/music/music_manager.py and album_manager.py): the regular
    expression test, the split on the first dash, and the album keys. */
module Naming {
  import opened Text
  import opened PyNum
  import opened Albums

  /** One way `[0-9][ ]+-[ ]+.+` can match inside `s`: a digit at `i`, spaces
      up to the dash at `j`, spaces up to `k`, and at `k` a character other
      than a newline (the first character matched by `.+`). */
  predicate MatchAt(s: string, i: int, j: int, k: int) {
    && 0 <= i && i + 1 < j && j + 1 < k < |s|
    && IsDigit(s[i])
    && (forall x :: i < x < j ==> s[x] == ' ')
    && s[j] == '-'
    && (forall x :: j < x < k ==> s[x] == ' ')
    && s[k] != '\n'
  }

  /** `re.search("[0-9][ ]+-[ ]+.+", name)` finds a match. */
  predicate FollowsConvention(name: string) {
    exists i, j, k | 0 <= i < j < k < |name| :: MatchAt(name, i, j, k)
  }

  /** A conforming name contains a dash, so the split below has two halves. */
  lemma ConformingHasDash(name: string)
    requires FollowsConvention(name)
    ensures '-' in name
  {
    var i, j, k :| 0 <= i < j < k < |name| && MatchAt(name, i, j, k);
    assert name[j] == '-';
  }

  /** A name without any digit never conforms; `Misc` is one. */
  lemma NoDigitNoMatch(name: string)
    requires forall x :: 0 <= x < |name| ==> !IsDigit(name[x])
    ensures !FollowsConvention(name)
  {
  }

  lemma MiscDoesNotConform()
    ensures !FollowsConvention("Misc")
  {
    NoDigitNoMatch("Misc");
  }

  /** Year and title of a conforming folder name: the stripped text before
      and after the FIRST dash (`album.split('-', 1)`). */
  function ParseFolder(name: string): (yt: (string, string))
    requires FollowsConvention(name)
    ensures '-' !in yt.0 && Stripped(yt.0) && Stripped(yt.1)
  {
    ConformingHasDash(name);
    var halves := SplitFirst(name, '-');
    assert '-' !in Strip(halves.0) by {
      var t := TrimLeft(halves.0);
      assert forall x :: x in TrimRight(t) ==> x in t;
      assert forall x :: x in t ==> x in halves.0;
    }
    (Strip(halves.0), Strip(halves.1))
  }

  /** `"Y - T"` with a year ending in a digit and a non-empty title conforms. */
  lemma YearTitleConforms(year: string, title: string)
    requires |year| > 0 && IsDigit(year[|year| - 1])
    requires title != [] && title[0] != '\n'
    ensures FollowsConvention(year + " - " + title)
  {
    var s := year + " - " + title;
    var i := |year| - 1;
    assert MatchAt(s, i, i + 2, i + 4);
  }

  lemma StripPadded(y: string)
    requires Stripped(y)
    ensures Strip(y + " ") == y && Strip(" " + y) == y
  {
    StripSpaceAfter(y);
    StripSpaceBefore(y);
    StripStripped(y);
  }

  /** Round trip of the convention: from `"Y - T"` the parser recovers `Y`
      and `T` exactly, for a stripped dash-free year and a stripped title,
      dashes in the title included. */
  lemma FolderRoundTrip(year: string, title: string)
    requires '-' !in year && Stripped(year) && |year| > 0 && IsDigit(year[|year| - 1])
    requires Stripped(title) && title != []
    ensures FollowsConvention(year + " - " + title)
    ensures ParseFolder(year + " - " + title) == (year, title)
  {
    var s := year + " - " + title;
    assert title[0] != '\n';
    YearTitleConforms(year, title);
    assert s == (year + " ") + ['-'] + (" " + title);
    var i := IndexOf(s, '-');
    assert s[|year| + 1] == '-';
    assert i == |year| + 1;
    assert s[..i] == year + " ";
    assert s[i + 1..] == " " + title;
    StripPadded(year);
    StripPadded(title);
  }

  /** The key a local album is filed under: `album.strip().casefold()`. */
  function FolderKey(name: string): string {
    Casefold(Strip(name))
  }

  /** The year rewrite applied to catalog albums: `'0'` becomes `'0000'`. */
  function CatalogYear(year: Value): (y: Value)
    ensures year != VStr("0") ==> y == year
  {
    if year == VStr("0") then VStr("0000") else year
  }

  /** The key a catalog album is looked up under:
      `f'{year} - {title}'.strip().casefold()`. */
  function CatalogKey(year: Value, title: Value): string {
    Casefold(Strip(StrOf(year) + " - " + StrOf(title)))
  }

  /** A catalog album whose year and title are exactly what the parser reads
      from a folder `"Y - T"` is looked up under that folder's key. */
  lemma CatalogMatchesFolder(year: string, title: string)
    requires '-' !in year && Stripped(year) && |year| > 0 && IsDigit(year[|year| - 1])
    requires Stripped(title) && title != []
    requires year != "0"
    ensures FollowsConvention(year + " - " + title)
    ensures ParseFolder(year + " - " + title) == (year, title)
    ensures CatalogKey(CatalogYear(VStr(year)), VStr(title)) == FolderKey(year + " - " + title)
  {
    FolderRoundTrip(year, title);
  }

  /** A catalog album with year `'0'` is looked up under the key of folder
      `"0000 - T"`, never under `"0 - T"`. */
  lemma ZeroYearMatchesPaddedFolder(title: string)
    ensures CatalogKey(CatalogYear(VStr("0")), VStr(title)) == FolderKey("0000 - " + title)
  {
    var y := CatalogYear(VStr("0"));
    assert y == VStr("0000");
    var a := StrOf(y) + " - " + StrOf(VStr(title));
    assert a == "0000 - " + title;
    assert CatalogKey(y, VStr(title)) == Casefold(Strip(a));
  }

  /** Keys are case-folded, so an upper-case name is never a key. */
  lemma KeyHasNoUpperCase(name: string)
    ensures forall x :: 0 <= x < |FolderKey(name)| ==> !('A' <= FolderKey(name)[x] <= 'Z')
  {
  }
}

=== FILE: numbers.dfy ===
/** Python's conversions between numbers and text: `str(int)`, `int(str)`,
    `float(str)`, `format(n, '02d')`, and float comparisons against bounds. */
module PyNum {
  import opened Py
  import opened Text

  predicate IsDigit(c: char) { '0' <= c <= '9' }

  predicate AllDigits(s: string) {
    forall i :: 0 <= i < |s| ==> IsDigit(s[i])
  }

  function DigitOf(c: char): nat
    requires IsDigit(c)
  {
    c as int - '0' as int
  }

  function DigitChar(d: nat): (c: char)
    requires d < 10
    ensures IsDigit(c) && DigitOf(c) == d
  {
    (d + '0' as int) as char
  }

  /** `str(n)` for a natural number: decimal digits, no leading zero. */
  function NatToString(n: nat): (s: string)
    ensures |s| >= 1 && AllDigits(s)
    ensures |s| > 1 ==> s[0] != '0'
    decreases n
  {
    if n < 10 then [DigitChar(n)] else NatToString(n / 10) + [DigitChar(n % 10)]
  }

  /** The number a string of decimal digits denotes (leading zeros allowed). */
  function DigitsValue(s: string): nat
    requires AllDigits(s)
  {
    if s == [] then 0 else DigitsValue(s[..|s| - 1]) * 10 + DigitOf(s[|s| - 1])
  }

  /** Reading back the decimal text of `n` gives `n`. */
  lemma {:induction false} NatToStringValue(n: nat)
    ensures DigitsValue(NatToString(n)) == n
    decreases n
  {
    if n >= 10 {
      var s := NatToString(n);
      assert s[..|s| - 1] == NatToString(n / 10);
      NatToStringValue(n / 10);
    }
  }

  /** A leading zero does not change the value of a digit string. */
  lemma {:induction false} LeadingZeroValue(s: string)
    requires AllDigits(s)
    ensures DigitsValue("0" + s) == DigitsValue(s)
    decreases |s|
  {
    if s != [] {
      assert ("0" + s)[..|s|] == "0" + s[..|s| - 1];
      LeadingZeroValue(s[..|s| - 1]);
    }
  }

  /** `str(i)` for an integer. */
  function IntToString(i: int): (s: string)
    ensures i < 0 <==> (|s| > 0 && s[0] == '-')
  {
    if i < 0 then "-" + NatToString(-i) else NatToString(i)
  }

  /** Digits, optionally grouped by single underscores: what `int()` and
      `float()` accept as a run of decimal digits. */
  predicate DigitGroups(s: string) {
    && |s| >= 1 && IsDigit(s[0]) && IsDigit(s[|s| - 1])
    && (forall i :: 0 <= i < |s| ==> IsDigit(s[i]) || s[i] == '_')
    && (forall i :: 0 <= i < |s| - 1 ==> !(s[i] == '_' && s[i + 1] == '_'))
  }

  function RemoveUnderscores(s: string): (r: string)
    requires forall i :: 0 <= i < |s| ==> IsDigit(s[i]) || s[i] == '_'
    ensures AllDigits(r)
    ensures AllDigits(s) ==> r == s
  {
    if s == [] then []
    else (if s[0] == '_' then [] else [s[0]]) + RemoveUnderscores(s[1..])
  }

  /** The value of a run of digit groups. */
  function GroupsValue(s: string): nat
    requires DigitGroups(s)
  {
    DigitsValue(RemoveUnderscores(s))
  }

  lemma DigitsAreGroups(s: string)
    requires |s| >= 1 && AllDigits(s)
    ensures DigitGroups(s) && GroupsValue(s) == DigitsValue(s)
  {
  }

  /** `int(s)` for a `str` argument in base 10; `None` where Python raises
      `ValueError`. */
  function ParseInt(s: string): Option<int> {
    var t := Strip(s);
    if |t| > 0 && (t[0] == '+' || t[0] == '-') then
      if DigitGroups(t[1..]) then
        var v: int := GroupsValue(t[1..]);
        Some(if t[0] == '-' then -v else v)
      else None
    else if DigitGroups(t) then Some(GroupsValue(t))
    else None
  }

  /** `int(str(i)) == i`. */
  lemma ParseIntRoundTrip(i: int)
    ensures ParseInt(IntToString(i)) == Some(i)
  {
    var s := IntToString(i);
    var n: nat := if i < 0 then -i else i;
    var d := NatToString(n);
    assert Stripped(s);
    StripStripped(s);
    NatToStringValue(n);
    DigitsAreGroups(d);
    if i < 0 {
      assert s[1..] == d;
    }
  }

  /** `format(n, '02d')`: at least two digits, zero padded; a negative number
      keeps its sign and is not padded further. */
  function Format02d(n: int): (s: string)
    ensures n >= 0 ==> |s| >= 2 && AllDigits(s)
  {
    if n < 0 then "-" + NatToString(-n)
    else if n < 10 then "0" + NatToString(n)
    else NatToString(n)
  }

  /** `int(format(n, '02d')) == n`. */
  lemma Format02dRoundTrip(n: int)
    ensures ParseInt(Format02d(n)) == Some(n)
  {
    var s := Format02d(n);
    if n < 0 {
      ParseIntRoundTrip(n);
    } else if n < 10 {
      var d := NatToString(n);
      assert Stripped(s);
      StripStripped(s);
      LeadingZeroValue(d);
      NatToStringValue(n);
      DigitsAreGroups(s);
    } else {
      ParseIntRoundTrip(n);
    }
  }

  /** A Python float: a finite value (held exactly), an infinity or NaN. */
  datatype Float = Finite(r: real) | Infinity(negative: bool) | NaN

  function Pow10(e: nat): (p: nat)
    ensures p >= 1
  {
    if e == 0 then 1 else 10 * Pow10(e - 1)
  }

  function Scale(e: int): (x: real)
    ensures x > 0.0
  {
    if e >= 0 then Pow10(e) as real else 1.0 / Pow10(-e) as real
  }

  /** Optional sign followed by digit groups: an exponent's text. */
  function ParseExponent(s: string): Option<int> {
    if |s| > 0 && (s[0] == '+' || s[0] == '-') then
      if DigitGroups(s[1..]) then
        var v: int := GroupsValue(s[1..]);
        Some(if s[0] == '-' then -v else v)
      else None
    else if DigitGroups(s) then Some(GroupsValue(s))
    else None
  }

  /** A mantissa `digits[.digits]` or `.digits`, with at least one digit. */
  function ParseMantissa(m: string): Option<real> {
    if '.' in m then
      var halves := SplitFirst(m, '.');
      ParsePoint(halves.0, halves.1)
    else ParsePoint(m, "")
  }

  /** The digits before and after the decimal point. */
  function ParsePoint(ip: string, fp: string): Option<real> {
    if ip == [] && fp == [] then None
    else if ip != [] && !DigitGroups(ip) then None
    else if fp != [] && !DigitGroups(fp) then None
    else
      var whole := if ip == [] then 0 else GroupsValue(ip);
      if fp == [] then Some(whole as real)
      else
        var frac := RemoveUnderscores(fp);
        Some(whole as real + DigitsValue(frac) as real / Pow10(|frac|) as real)
  }

  /** An unsigned, case-folded finite decimal literal: mantissa with an
      optional exponent. */
  function ParseUnsignedDecimal(b: string): Option<real> {
    if 'e' in b then
      var (m, e) := SplitFirst(b, 'e');
      match (ParseMantissa(m), ParseExponent(e))
      case (Some(v), Some(x)) => Some(v * Scale(x))
      case _ => None
    else ParseMantissa(b)
  }

  /** `float(s)` for a `str` argument; `None` where Python raises `ValueError`. */
  function ParseFloat(s: string): Option<Float> {
    FloatLiteral(Casefold(Strip(s)))
  }

  /** A stripped, case-folded float literal: sign, then a word or a decimal. */
  function FloatLiteral(t: string): Option<Float> {
    var negative := |t| > 0 && t[0] == '-';
    var body := if |t| > 0 && (t[0] == '+' || t[0] == '-') then t[1..] else t;
    if body == "inf" || body == "infinity" then Some(Infinity(negative))
    else if body == "nan" then Some(NaN)
    else match ParseUnsignedDecimal(body)
      case Some(v) => Some(Finite(if negative then -v else v))
      case None => None
  }

  lemma NonDigitAbsent(s: string, c: char)
    requires AllDigits(s) && !IsDigit(c)
    ensures c !in s
  {
    assert forall i :: 0 <= i < |s| ==> s[i] != c;
  }

  lemma PointOfDigits(s: string)
    requires |s| >= 1 && AllDigits(s)
    ensures ParsePoint(s, "") == Some(DigitsValue(s) as real)
  {
    DigitsAreGroups(s);
  }

  lemma UnsignedOfDigits(s: string)
    requires |s| >= 1 && AllDigits(s)
    ensures ParseUnsignedDecimal(s) == Some(DigitsValue(s) as real)
  {
    NonDigitAbsent(s, 'e');
    NonDigitAbsent(s, '.');
    PointOfDigits(s);
  }

  lemma CasefoldDigits(s: string)
    requires AllDigits(s)
    ensures Casefold(s) == s
  {
  }

  /** `float(s)` reads a plain run of digits as its decimal value. */
  lemma ParseFloatDigits(s: string)
    requires |s| >= 1 && AllDigits(s)
    ensures ParseFloat(s) == Some(Finite(DigitsValue(s) as real))
  {
    assert Stripped(s);
    StripStripped(s);
    CasefoldDigits(s);
    assert Casefold(Strip(s)) == s;
    FloatLiteralDigits(s);
  }

  lemma FloatLiteralDigits(s: string)
    requires |s| >= 1 && AllDigits(s)
    ensures FloatLiteral(s) == Some(Finite(DigitsValue(s) as real))
  {
    NotSpecial(s);
    assert !(|s| > 0 && (s[0] == '+' || s[0] == '-'));
    UnsignedOfDigits(s);
  }

  /** A digit in front rules out a sign and the words `inf`, `infinity`
      and `nan`. */
  lemma NotSpecial(s: string)
    requires |s| >= 1 && IsDigit(s[0])
    ensures s[0] != '+' && s[0] != '-'
    ensures s != "inf" && s != "infinity" && s != "nan"
  {
    assert "inf"[0] == 'i' && "infinity"[0] == 'i' && "nan"[0] == 'n';
  }

  /** `float(str(n)) == n` for a natural number. */
  lemma ParseFloatNat(n: nat)
    ensures ParseFloat(NatToString(n)) == Some(Finite(n as real))
  {
    NatToStringValue(n);
    ParseFloatDigits(NatToString(n));
  }

  /** Python's `f < x` for a float and a finite bound (false for NaN). */
  predicate Less(f: Float, x: real) {
    match f
    case Finite(r) => r < x
    case Infinity(neg) => neg
    case NaN => false
  }

  /** Python's `f > x` for a float and a finite bound (false for NaN). */
  predicate Greater(f: Float, x: real) {
    match f
    case Finite(r) => r > x
    case Infinity(neg) => !neg
    case NaN => false
  }
}

=== FILE: paths.dfy ===
/** POSIX path arithmetic as `os.path` does it: `join`, `abspath` (join with
    the working directory, then drop empty and `.` components and let `..`
    cancel the component before it) and `relpath`. Paths are compared by
    their normalised components; symbolic links are not resolved. */
module Paths {
  import opened Py
  import opened Text

  predicate IsAbsolute(p: string) {
    |p| > 0 && p[0] == '/'
  }

  /** `os.path.join(a, b)`: an absolute `b` replaces `a`; otherwise a slash
      is inserted unless `a` is empty or already ends in one. */
  function PathJoin(a: string, b: string): (r: string)
    ensures IsAbsolute(b) ==> r == b
    ensures !IsAbsolute(b) && (a == [] || a[|a| - 1] == '/') ==> r == a + b
    ensures !IsAbsolute(b) && a != [] && a[|a| - 1] != '/' ==> r == a + "/" + b
  {
    if IsAbsolute(b) then b
    else if a == [] || a[|a| - 1] == '/' then a + b
    else a + "/" + b
  }

  /** A component that survives normalisation unchanged. */
  predicate Plain(c: string) {
    c != "" && c != "." && c != ".." && '/' !in c
  }

  predicate AllPlain(cs: seq<string>) {
    forall i :: 0 <= i < |cs| ==> Plain(cs[i])
  }

  /** Normalises components onto `stack`, as `normpath` does for an absolute
      path: `..` at the root stays at the root. */
  function Normalize(stack: seq<string>, comps: seq<string>): (r: seq<string>)
    requires AllPlain(stack)
    requires NoSlash(comps)
    ensures AllPlain(r)
    decreases |comps|
  {
    if comps == [] then stack
    else
      var c := comps[0];
      if c == "" || c == "." then Normalize(stack, comps[1..])
      else if c == ".." then Normalize(if stack == [] then [] else stack[..|stack| - 1], comps[1..])
      else Normalize(stack + [c], comps[1..])
  }

  predicate NoSlash(cs: seq<string>) {
    forall c :: c in cs ==> '/' !in c
  }

  /** `os.path.abspath(p)` as components, with `cwd` the working directory. */
  function Abs(cwd: string, p: string): (cs: seq<string>)
    ensures AllPlain(cs)
  {
    Normalize([], Split(PathJoin(cwd, p), '/'))
  }

  /** Length of the longest common prefix (`os.path.commonprefix` of two lists). */
  function CommonPrefix(a: seq<string>, b: seq<string>): (n: nat)
    ensures n <= |a| && n <= |b| && a[..n] == b[..n]
    ensures n == |a| || n == |b| || a[n] != b[n]
  {
    if a == [] || b == [] || a[0] != b[0] then 0
    else
      var m := CommonPrefix(a[1..], b[1..]);
      assert a[..m + 1] == [a[0]] + a[1..][..m];
      assert b[..m + 1] == [b[0]] + b[1..][..m];
      m + 1
  }

  function Ups(n: nat): (r: seq<string>)
    ensures |r| == n && forall i :: 0 <= i < n ==> r[i] == ".."
  {
    if n == 0 then [] else Ups(n - 1) + [".."]
  }

  /** The components leading from `s` to `p`: up to the common ancestor,
      then down the rest of `p`. */
  function RelComps(s: seq<string>, p: seq<string>): (rel: seq<string>)
    requires AllPlain(s) && AllPlain(p)
    ensures forall k :: 0 <= k < |rel| ==> rel[k] == ".." || Plain(rel[k])
  {
    var i := CommonPrefix(s, p);
    Ups(|s| - i) + p[i..]
  }

  /** Components joined with `/`, or `.` for none. */
  function RelText(rel: seq<string>): (r: string)
    requires forall k :: 0 <= k < |rel| ==> rel[k] == ".." || Plain(rel[k])
    ensures !IsAbsolute(r) && r != []
  {
    if rel == [] then "."
    else
      assert rel[0] == ".." || Plain(rel[0]);
      assert rel[0] != [] && rel[0][0] != '/';
      assert Join(rel, '/')[0] != '/' by {
        JoinHead(rel);
      }
      Join(rel, '/')
  }

  /** `os.path.relpath(path, start)`: up from `start` to the common ancestor,
      then down to `path`; `.` when they are the same directory. An empty
      `path` raises `ValueError`. */
  function RelPath(cwd: string, path: string, start: string): (r: Result<string>)
    ensures r.Raise? <==> path == []
    ensures r.Raise? ==> r.exc == ValueError
    ensures r.Ok? ==> !IsAbsolute(r.value) && r.value != []
  {
    if path == [] then Raise(ValueError)
    else Ok(RelText(RelComps(Abs(cwd, start), Abs(cwd, path))))
  }

  lemma JoinHead(parts: seq<string>)
    requires |parts| >= 1 && parts[0] != []
    ensures |Join(parts, '/')| > 0 && Join(parts, '/')[0] == parts[0][0]
  {
    if |parts| > 1 {
      assert Join(parts, '/') == parts[0] + ['/'] + Join(parts[1..], '/');
    }
  }

  /** Normalising plain components only pushes them. */
  lemma {:induction false} NormalizePlain(stack: seq<string>, comps: seq<string>)
    requires AllPlain(stack) && AllPlain(comps)
    ensures Normalize(stack, comps) == stack + comps
    decreases |comps|
  {
    if comps != [] {
      assert Plain(comps[0]);
      NormalizePlain(stack + [comps[0]], comps[1..]);
      assert stack + [comps[0]] + comps[1..] == stack + comps;
    }
  }

  /** `n` leading `..` components pop `n` components off the stack. */
  lemma {:induction false} NormalizeUps(stack: seq<string>, n: nat, rest: seq<string>)
    requires AllPlain(stack) && n <= |stack|
    requires NoSlash(rest)
    ensures Normalize(stack, Ups(n) + rest) == Normalize(stack[..|stack| - n], rest)
    decreases n
  {
    if n > 0 {
      var comps := Ups(n) + rest;
      assert comps[0] == "..";
      assert comps[1..] == Ups(n - 1) + rest by {
        assert Ups(n) == [".."] + Ups(n - 1) by {
          var u := [".."] + Ups(n - 1);
          assert forall i :: 0 <= i < n ==> u[i] == "..";
        }
      }
      var popped := stack[..|stack| - 1];
      assert Normalize(stack, comps) == Normalize(popped, comps[1..]);
      assert NoSlash(Ups(n - 1) + rest);
      NormalizeUps(popped, n - 1, rest);
      assert popped[..|popped| - (n - 1)] == stack[..|stack| - n];
      assert Normalize(popped, comps[1..]) == Normalize(stack[..|stack| - n], rest);
    } else {
      assert Ups(n) + rest == rest && stack[..|stack|] == stack;
    }
  }

  /** Normalising a concatenation normalises the halves in turn. */
  lemma {:induction false} NormalizeAppend(stack: seq<string>, a: seq<string>, b: seq<string>)
    requires AllPlain(stack)
    requires NoSlash(a)
    requires NoSlash(b)
    ensures Normalize(stack, a + b) == Normalize(Normalize(stack, a), b)
    decreases |a|
  {
    if a == [] {
      assert a + b == b;
    } else {
      assert (a + b)[0] == a[0];
      assert (a + b)[1..] == a[1..] + b;
      var c := a[0];
      var next := if c == "" || c == "." then stack
                  else if c == ".." then (if stack == [] then [] else stack[..|stack| - 1])
                  else stack + [c];
      NormalizeAppend(next, a[1..], b);
    }
  }

  /** Normalising the components of `join(a, b)`, for a relative `b`, is
      normalising those of `a` and then those of `b`. */
  lemma JoinNormalize(stack: seq<string>, a: string, b: string)
    requires AllPlain(stack) && !IsAbsolute(b)
    ensures Normalize(stack, Split(PathJoin(a, b), '/')) ==
      Normalize(Normalize(stack, Split(a, '/')), Split(b, '/'))
  {
    if a == [] {
      assert PathJoin(a, b) == b;
      assert Split(a, '/') == [[]];
      assert Normalize(stack, [[]]) == Normalize(stack, []);
    } else if a[|a| - 1] == '/' {
      var x := a[..|a| - 1];
      assert a == x + ['/'] + [];
      SplitAround(x, [], '/');
      assert PathJoin(a, b) == x + ['/'] + b;
      SplitAround(x, b, '/');
      assert Split([], '/') == [[]];
      NormalizeAppend(stack, Split(x, '/'), [[]]);
      NormalizeAppend(stack, Split(x, '/'), Split(b, '/'));
    } else {
      assert PathJoin(a, b) == a + ['/'] + b;
      SplitAround(a, b, '/');
      NormalizeAppend(stack, Split(a, '/'), Split(b, '/'));
    }
  }

  /** The relative path `relpath` returns leads back from `start` to `path`:
      `abspath(join(start, relpath(path, start))) == abspath(path)`, for any
      working directory. */
  lemma RelPathResolves(cwd: string, path: string, start: string)
    requires IsAbsolute(cwd) && path != []
    ensures RelPath(cwd, path, start).Ok?
    ensures Abs(cwd, PathJoin(start, RelPath(cwd, path, start).value)) == Abs(cwd, path)
  {
    var s, p := Abs(cwd, start), Abs(cwd, path);
    var rp := RelText(RelComps(s, p));
    StartThenRel(cwd, start, rp);
    RelLeadsTo(s, p);
  }

  /** Following the relative components from `s` reaches `p`. */
  lemma RelLeadsTo(s: seq<string>, p: seq<string>)
    requires AllPlain(s) && AllPlain(p)
    ensures Normalize(s, Split(RelText(RelComps(s, p)), '/')) == p
  {
    var i := CommonPrefix(s, p);
    var rel := RelComps(s, p);
    if rel == [] {
      assert Split(".", '/') == ["."];
      assert s == s[..i] && p == p[..i];
    } else {
      RelSplits(rel);
      UpThenDown(s, p, i);
    }
  }

  lemma RelSplits(rel: seq<string>)
    requires |rel| >= 1 && forall k :: 0 <= k < |rel| ==> rel[k] == ".." || Plain(rel[k])
    ensures Split(Join(rel, '/'), '/') == rel
  {
    assert forall q :: q in rel ==> '/' !in q;
    SplitJoin(rel, '/');
  }

  /** Going up from `s` to the common ancestor and down the rest of `p` ends
      at `p`. */
  lemma UpThenDown(s: seq<string>, p: seq<string>, i: nat)
    requires AllPlain(s) && AllPlain(p)
    requires i <= |s| && i <= |p| && s[..i] == p[..i]
    ensures Normalize(s, Ups(|s| - i) + p[i..]) == p
  {
    NormalizeUps(s, |s| - i, p[i..]);
    assert s[..|s| - (|s| - i)] == p[..i];
    NormalizePlain(p[..i], p[i..]);
    assert p[..i] + p[i..] == p;
  }

  /** Resolving a relative path against `start` continues from `start`'s
      own normalised components. */
  lemma StartThenRel(cwd: string, start: string, rp: string)
    requires IsAbsolute(cwd) && !IsAbsolute(rp)
    ensures Abs(cwd, PathJoin(start, rp)) == Normalize(Abs(cwd, start), Split(rp, '/'))
  {
    var j := PathJoin(start, rp);
    if IsAbsolute(start) {
      assert IsAbsolute(j);
      assert PathJoin(cwd, j) == j;
      assert PathJoin(cwd, start) == start;
      JoinNormalize([], start, rp);
    } else {
      assert !IsAbsolute(j);
      JoinNormalize([], cwd, j);
      JoinNormalize(Normalize([], Split(cwd, '/')), start, rp);
      JoinNormalize([], cwd, start);
    }
  }
}

=== FILE: provider.dfy ===
/** The music database server's record rules (`DatabaseProvider`): the
    `favorites` and `music` tables as insertion-ordered maps from id to row,
    and the request bodies as JSON values. `update_song` and `update_album`
    call `create_song` and `create_album` unchanged, so they are the same
    members here. */
module Provider {
  import opened Py
  import opened PyNum
  import opened Seqs
  import opened Dicts

  /** A decoded JSON request body. */
  datatype Json =
    | JNull
    | JBool(b: bool)
    | JInt(i: int)
    | JNum(f: Float)
    | JStr(s: string)
    | JList(items: seq<Json>)
    | JObj(fields: map<string, Json>)

  /** Python truthiness of a decoded JSON value. */
  predicate Truthy(j: Json) {
    match j
    case JNull => false
    case JBool(b) => b
    case JInt(i) => i != 0
    case JNum(f) => f != Finite(0.0)
    case JStr(s) => s != []
    case JList(items) => items != []
    case JObj(fields) => fields != map[]
  }

  /** `j[k]`: a `KeyError` on a dict without the key, a `TypeError` on
      anything that is not a dict. */
  function Index(j: Json, k: string): (r: Result<Json>)
    ensures r.Ok? <==> j.JObj? && k in j.fields
    ensures r.Ok? ==> r.value == j.fields[k]
    ensures r.Raise? ==> r.exc == (if j.JObj? then KeyError else TypeError)
  {
    if !j.JObj? then Raise(TypeError)
    else if k in j.fields then Ok(j.fields[k])
    else Raise(KeyError)
  }

  /** `int(x)` of a finite float: truncation toward zero. */
  function Trunc(x: real): (t: int)
    ensures x >= 0.0 ==> t as real <= x < t as real + 1.0
    ensures x < 0.0 ==> t as real - 1.0 < x <= t as real
  {
    if x >= 0.0 then x.Floor else -((-x).Floor)
  }

  /** `int(j)` of a decoded JSON value. */
  function IntOf(j: Json): (r: Result<int>)
    ensures j.JInt? ==> r == Ok(j.i)
    ensures r.Raise? && r.exc == ValueError ==> j.JStr? || j == JNum(NaN)
    ensures j.JNull? || j.JList? || j.JObj? ==> r == Raise(TypeError)
  {
    match j
    case JInt(i) => Ok(i)
    case JBool(b) => Ok(if b then 1 else 0)
    case JNum(f) =>
      (match f
       case Finite(x) => Ok(Trunc(x))
       case Infinity(_) => Raise(OverflowError)
       case NaN => Raise(ValueError))
    case JStr(s) =>
      (match ParseInt(s)
       case Some(i) => Ok(i)
       case None => Raise(ValueError))
    case _ => Raise(TypeError)
  }

  /** The row a provided id selects once the ORM has converted it for the
      query: the value of `int(j)`. When `int()` rejects it with
      `ValueError` the raw value is sent, and it equals no integer id:
      `None`. Any other failure of `int()` escapes. */
  function RowId(j: Json): (r: Result<Option<int>>)
    ensures j.JInt? ==> r == Ok(Some(j.i))
    ensures j.JStr? && ParseInt(j.s).None? ==> r == Ok(None)
    ensures r.Ok? && r.value.Some? <==> IntOf(j).Ok?
    ensures r.Ok? && r.value.Some? ==> r.value.value == IntOf(j).value
    ensures r.Raise? ==> IntOf(j) == Raise(r.exc) && r.exc != ValueError
  {
    match IntOf(j)
    case Ok(n) => Ok(Some(n))
    case Raise(e) => if e == ValueError then Ok(None) else Raise(e)
  }

  /** `float(j)` of a decoded JSON value. */
  function FloatOf(j: Json): (r: Result<Float>)
    ensures j.JInt? ==> r == Ok(Finite(j.i as real))
    ensures j.JNum? ==> r == Ok(j.f)
    ensures r.Raise? && r.exc == ValueError ==> j.JStr?
    ensures j.JNull? || j.JList? || j.JObj? ==> r == Raise(TypeError)
  {
    match j
    case JInt(i) => Ok(Finite(i as real))
    case JBool(b) => Ok(Finite(if b then 1.0 else 0.0))
    case JNum(f) => Ok(f)
    case JStr(s) =>
      (match ParseFloat(s)
       case Some(f) => Ok(f)
       case None => Raise(ValueError))
    case _ => Raise(TypeError)
  }

  /** A table: rows by id, in insertion order. */
  type Table<R> = Dict<int, R>

  function MaxOf(keys: seq<int>): (m: int)
    ensures forall k :: k in keys ==> k <= m
    ensures m >= 0
  {
    if keys == [] then 0
    else
      var rest := MaxOf(keys[1..]);
      assert forall k :: k in keys ==> k == keys[0] || k in keys[1..];
      if keys[0] > rest then keys[0] else rest
  }

  /** The id the auto-increment column hands to the next inserted row:
      positive and above every id in the table. */
  function NextId<R>(t: Table<R>): (n: int)
    ensures n >= 1 && n !in t.vals
    ensures forall k :: k in t.vals ==> k < n
  {
    1 + MaxOf(t.keys)
  }

  /** The reply of a create call: the body and the HTTP status. */
  datatype Reply = Reply(body: Json, status: int)

  // ---------------------------------------------------------------------
  // favorites

  /** A `favorites` row (the id is the table key). */
  datatype Favorite = Favorite(
    albumId: int,
    score: real,
    trackNumber: int,
    title: Json,
    fileName: Json,
    kind: Json)

  /** The compulsory fields of a song body, read and converted in the order
      `create_song` reads them. */
  datatype SongFields = SongFields(title: Json, score: Float, albumId: int, fileName: Json)

  function ReadSong(song: Json): (r: Result<SongFields>)
    ensures r.Ok? <==>
      && song.JObj? && "title" in song.fields && "score" in song.fields
      && FloatOf(song.fields["score"]).Ok?
      && "album" in song.fields && song.fields["album"].JObj?
      && "id" in song.fields["album"].fields
      && IntOf(song.fields["album"].fields["id"]).Ok?
      && "file_name" in song.fields
    ensures r.Ok? ==>
      && r.value.title == song.fields["title"]
      && FloatOf(song.fields["score"]) == Ok(r.value.score)
      && IntOf(song.fields["album"].fields["id"]) == Ok(r.value.albumId)
      && r.value.fileName == song.fields["file_name"]
    ensures !song.JObj? ==> r == Raise(TypeError)
    ensures song.JObj? && "title" !in song.fields ==> r == Raise(KeyError)
    ensures song.JObj? && "title" in song.fields && "score" !in song.fields ==> r == Raise(KeyError)
    ensures song.JObj? && "title" in song.fields && "score" in song.fields && FloatOf(song.fields["score"]).Raise? ==>
      r == Raise(FloatOf(song.fields["score"]).exc)
    ensures song.JObj? && "title" in song.fields && "score" in song.fields && FloatOf(song.fields["score"]).Ok? ==>
      && ("album" !in song.fields ==> r == Raise(KeyError))
      && ("album" in song.fields && !song.fields["album"].JObj? ==> r == Raise(TypeError))
      && ("album" in song.fields && song.fields["album"].JObj? && "id" !in song.fields["album"].fields ==>
            r == Raise(KeyError))
      && ("album" in song.fields && song.fields["album"].JObj? && "id" in song.fields["album"].fields
          ==> var id := IntOf(song.fields["album"].fields["id"]);
              && (id.Raise? ==> r == Raise(id.exc))
              && (id.Ok? && "file_name" !in song.fields ==> r == Raise(KeyError)))
  {
    var title :- Index(song, "title");
    var sj :- Index(song, "score");
    var score :- FloatOf(sj);
    var album :- Index(song, "album");
    var aj :- Index(album, "id");
    var albumId :- IntOf(aj);
    var fileName :- Index(song, "file_name");
    Ok(SongFields(title, score, albumId, fileName))
  }

  /** The optional fields: the type is read only after a track number was
      read, and a track number that does not convert is not caught. */
  function ReadExtras(fields: map<string, Json>): (r: Result<(Option<int>, Option<Json>)>)
    ensures "track_number" !in fields ==> r == Ok((None, None))
    ensures r.Ok? && "track_number" in fields ==>
      && r.value.0.Some? && IntOf(fields["track_number"]) == Ok(r.value.0.value)
      && (r.value.1.Some? <==> "type" in fields)
      && ("type" in fields ==> r.value.1.value == fields["type"])
    ensures r.Raise? ==> "track_number" in fields && IntOf(fields["track_number"]) == Raise(r.exc)
  {
    if "track_number" !in fields then Ok((None, None))
    else
      var n :- IntOf(fields["track_number"]);
      Ok((Some(n), if "type" in fields then Some(fields["type"]) else None))
  }

  /** Which row `save()` writes: a new one, the row with a given id, or no
      row at all (an id that equals no integer id). */
  datatype Target = Insert | Update(id: int) | NoRow

  predicate SameSong(favs: Table<Favorite>, title: Json, albumId: int, k: int) {
    k in favs.vals && favs.vals[k].title == title && favs.vals[k].albumId == albumId
  }

  /** `_search_song_by_title_and_album_id`: the first row, in table order,
      with the title and album id. */
  function SearchSong(favs: Table<Favorite>, title: Json, albumId: int): (r: Option<int>)
    ensures r.Some? ==> SameSong(favs, title, albumId, r.value)
    ensures r.Some? ==> exists i :: (0 <= i < |favs.keys| && favs.keys[i] == r.value &&
      forall j :: 0 <= j < i ==> !SameSong(favs, title, albumId, favs.keys[j]))
    ensures r.None? <==> forall k :: !SameSong(favs, title, albumId, k)
  {
    match FirstIndex(favs.keys, (k: int) => SameSong(favs, title, albumId, k))
    case Some(i) => Some(favs.keys[i])
    case None =>
      assert forall k :: k in favs.vals ==> k in favs.keys;
      None
  }

  /** The id resolution of `create_song`: a provided id (a null id means a
      new row), else the id of an existing row with the same title and album,
      else a new row. A provided id is converted when the row is saved
      (`RowId`). */
  function ResolveSongId(favs: Table<Favorite>, fields: map<string, Json>, c: SongFields): (r: Result<Target>)
    ensures "id" in fields && fields["id"] == JNull ==> r == Ok(Insert)
    ensures "id" in fields && fields["id"] != JNull && IntOf(fields["id"]).Ok? ==>
      r == Ok(Update(IntOf(fields["id"]).value))
    ensures "id" in fields && fields["id"] != JNull && IntOf(fields["id"]) == Raise(ValueError) ==>
      r == Ok(NoRow)
    ensures r.Raise? ==> "id" in fields && IntOf(fields["id"]) == Raise(r.exc) && r.exc != ValueError
    ensures "id" !in fields ==> r.Ok? && !r.value.NoRow?
    ensures "id" !in fields && r.value.Update? ==> SameSong(favs, c.title, c.albumId, r.value.id)
    ensures "id" !in fields ==> (r.value == Insert <==> forall k :: !SameSong(favs, c.title, c.albumId, k))
  {
    if "id" in fields then
      if fields["id"] == JNull then Ok(Insert)
      else
        var id :- RowId(fields["id"]);
        Ok(if id.Some? then Update(id.value) else NoRow)
    else
      match SearchSong(favs, c.title, c.albumId)
      case Some(k) => Ok(Update(k))
      case None => Ok(Insert)
  }

  /** The fields `create_song` assigns, laid over a row. */
  function AssignSong(prev: Favorite, c: SongFields, extras: (Option<int>, Option<Json>)): (f: Favorite)
    requires c.score.Finite?
    ensures f.title == c.title && f.score == c.score.r && f.albumId == c.albumId && f.fileName == c.fileName
    ensures f.trackNumber == if extras.0.Some? then extras.0.value else prev.trackNumber
    ensures f.kind == if extras.1.Some? then extras.1.value else prev.kind
  {
    Favorite(
      c.albumId, c.score.r,
      if extras.0.Some? then extras.0.value else prev.trackNumber,
      c.title, c.fileName,
      if extras.1.Some? then extras.1.value else prev.kind)
  }

  /** A new row takes the column defaults (track number 0, no type) for the
      fields that were not assigned. */
  const DefaultFavorite := Favorite(0, 0.0, 0, JNull, JNull, JNull)

  /** `fav.save()`: an insert under a fresh id, or an update of the row with
      the id, which changes nothing when no row has it. */
  function SaveSong(favs: Table<Favorite>, t: Target, c: SongFields, extras: (Option<int>, Option<Json>)): (r: Table<Favorite>)
    requires c.score.Finite?
  {
    match t
    case Insert => Put(favs, NextId(favs), AssignSong(DefaultFavorite, c, extras))
    case Update(n) =>
      if n in favs.vals then Put(favs, n, AssignSong(favs.vals[n], c, extras)) else favs
    case NoRow => favs
  }

  /** `create_song(song)`: the reply and the table after the call. */
  function CreateSong(favs: Table<Favorite>, song: Json): (r: Result<(Reply, Table<Favorite>)>)
    ensures !Truthy(song) ==> r == Ok((Reply(JNull, 400), favs))
    ensures r.Ok? && r.value.0.status != 200 ==> r.value.0.status == 400 && r.value.1 == favs
    ensures r.Ok? ==> r.value.0.body == (if Truthy(song) then song else JNull)
    ensures r.Ok? && r.value.0.status == 200 ==> ReadSong(song).Ok? && ReadSong(song).value.score.Finite?
    ensures r.Ok? && r.value.0.status == 400 && Truthy(song) ==>
      ReadSong(song).Raise? && ReadSong(song).exc in {KeyError, ValueError}
    ensures Truthy(song) && ReadSong(song).Raise? && ReadSong(song).exc in {KeyError, ValueError} ==>
      r == Ok((Reply(song, 400), favs))
    ensures Truthy(song) && ReadSong(song).Raise? && ReadSong(song).exc !in {KeyError, ValueError} ==>
      r == Raise(ReadSong(song).exc)
  {
    if !Truthy(song) then Ok((Reply(JNull, 400), favs))
    else
      match ReadSong(song)
      case Raise(e) =>
        if e == KeyError || e == ValueError then Ok((Reply(song, 400), favs)) else Raise(e)
      case Ok(c) =>
        var extras :- ReadExtras(song.fields);
        var target :- ResolveSongId(favs, song.fields, c);
        if !c.score.Finite? then Raise(ProgrammingError)
        else Ok((Reply(song, 200), SaveSong(favs, target, c, extras)))
  }

  /** A truthy body missing its title is refused with 400 and saves nothing. */
  lemma MissingTitleRejected(favs: Table<Favorite>, fields: map<string, Json>)
    requires fields != map[] && "title" !in fields
    ensures CreateSong(favs, JObj(fields)) == Ok((Reply(JObj(fields), 400), favs))
  {
  }

  /** A body whose album, when sent, is an object and whose score and album
      id, when sent, either convert or fail with `ValueError`, is refused
      with 400 and saves nothing exactly when a compulsory field is missing
      or does not convert. */
  lemma CompulsoryFieldRejected(favs: Table<Favorite>, fields: map<string, Json>)
    requires fields != map[]
    requires "album" in fields ==> fields["album"].JObj?
    requires "score" in fields ==> FloatOf(fields["score"]).Ok? || FloatOf(fields["score"]) == Raise(ValueError)
    requires "album" in fields && "id" in fields["album"].fields ==>
      IntOf(fields["album"].fields["id"]).Ok? || IntOf(fields["album"].fields["id"]) == Raise(ValueError)
    ensures CreateSong(favs, JObj(fields)) == Ok((Reply(JObj(fields), 400), favs)) <==>
      || "title" !in fields || "score" !in fields || "album" !in fields || "file_name" !in fields
      || "id" !in fields["album"].fields
      || FloatOf(fields["score"]).Raise?
      || IntOf(fields["album"].fields["id"]).Raise?
  {
  }

  /** A body whose compulsory fields are all present and convert, and whose
      optional track number and id convert, is stored with 200. */
  lemma WellFormedSongAccepted(favs: Table<Favorite>, song: Json)
    requires ReadSong(song).Ok? && ReadSong(song).value.score.Finite?
    requires "track_number" in song.fields ==> IntOf(song.fields["track_number"]).Ok?
    requires "id" in song.fields && song.fields["id"] != JNull ==>
      IntOf(song.fields["id"]).Ok? || IntOf(song.fields["id"]) == Raise(ValueError)
    ensures CreateSong(favs, song).Ok? && CreateSong(favs, song).value.0 == Reply(song, 200)
  {
    assert "title" in song.fields;
  }

  /** The row a successful call writes holds the body's fields: exactly one
      row changes, the resolved one, and every other row is kept. */
  lemma {:induction false} SongStored(favs: Table<Favorite>, song: Json)
    requires CreateSong(favs, song).Ok? && CreateSong(favs, song).value.0.status == 200
    ensures var c := ReadSong(song).value;
      var t := ResolveSongId(favs, song.fields, c).value;
      var after := CreateSong(favs, song).value.1;
      && (t.Insert? ==>
            (&& after.keys == favs.keys + [NextId(favs)]
             && after.vals[NextId(favs)].title == c.title
             && after.vals[NextId(favs)].albumId == c.albumId
             && after.vals[NextId(favs)].score == c.score.r
             && after.vals[NextId(favs)].fileName == c.fileName
             && after.vals[NextId(favs)] == AssignSong(DefaultFavorite, c, ReadExtras(song.fields).value)))
      && (t.Update? && t.id in favs.vals ==>
            (&& after.keys == favs.keys
             && after.vals[t.id].title == c.title
             && after.vals[t.id].albumId == c.albumId
             && after.vals[t.id].score == c.score.r
             && after.vals[t.id].fileName == c.fileName
             && after.vals[t.id] == AssignSong(favs.vals[t.id], c, ReadExtras(song.fields).value)))
      && (t.Update? && t.id !in favs.vals ==> after == favs)
      && (t.NoRow? ==> after == favs)
      && (forall k :: k in favs.vals && !(t.Update? && k == t.id) ==> k in after.vals && after.vals[k] == favs.vals[k])
  {
    var c := ReadSong(song).value;
    var extras := ReadExtras(song.fields).value;
    var t := ResolveSongId(favs, song.fields, c).value;
    assert CreateSong(favs, song).value.1 == SaveSong(favs, t, c, extras);
  }

  /** Without an id, a body matching an existing row's title and album id
      updates the first such row, in table order, and adds no row. */
  lemma {:induction false} ExistingSongReused(favs: Table<Favorite>, song: Json, k: int)
    requires CreateSong(favs, song).Ok? && CreateSong(favs, song).value.0.status == 200
    requires "id" !in song.fields
    requires SameSong(favs, ReadSong(song).value.title, ReadSong(song).value.albumId, k)
    ensures CreateSong(favs, song).value.1.keys == favs.keys
    ensures var t := ResolveSongId(favs, song.fields, ReadSong(song).value).value;
      t.Update? && SameSong(favs, ReadSong(song).value.title, ReadSong(song).value.albumId, t.id)
      && exists i :: (0 <= i < |favs.keys| && favs.keys[i] == t.id &&
           forall j :: 0 <= j < i ==> !SameSong(favs, ReadSong(song).value.title, ReadSong(song).value.albumId, favs.keys[j]))
  {
    var c := ReadSong(song).value;
    SongStored(favs, song);
    var r := SearchSong(favs, c.title, c.albumId);
    assert r.Some?;
  }

  /** Without an id and without a matching row, the song becomes a new row
      under an id no row had. */
  lemma NewSongInserted(favs: Table<Favorite>, song: Json)
    requires CreateSong(favs, song).Ok? && CreateSong(favs, song).value.0.status == 200
    requires "id" !in song.fields
    requires forall k :: !SameSong(favs, ReadSong(song).value.title, ReadSong(song).value.albumId, k)
    ensures var after := CreateSong(favs, song).value.1;
      exists n :: n !in favs.vals && after.keys == favs.keys + [n]
  {
    SongStored(favs, song);
  }

  /** A provided id that no row has is answered with 200 although nothing is
      saved: the update matches no row. */
  lemma UnknownSongIdSavesNothing(favs: Table<Favorite>, song: Json, n: int)
    requires CreateSong(favs, song).Ok? && CreateSong(favs, song).value.0.status == 200
    requires "id" in song.fields && IntOf(song.fields["id"]) == Ok(n) && n !in favs.vals
    ensures CreateSong(favs, song).value.1 == favs
  {
    assert song.fields["id"] != JNull;
    SongStored(favs, song);
  }

  /** A well-formed body whose id `int()` cannot read is answered with 200
      and saves nothing: the update compares the raw id with no row. */
  lemma UnreadableSongIdSavesNothing(favs: Table<Favorite>, song: Json)
    requires ReadSong(song).Ok? && ReadSong(song).value.score.Finite?
    requires "track_number" in song.fields ==> IntOf(song.fields["track_number"]).Ok?
    requires "id" in song.fields && IntOf(song.fields["id"]) == Raise(ValueError)
    ensures CreateSong(favs, song) == Ok((Reply(song, 200), favs))
  {
  }

  /** Sending the same song twice without an id adds at most one row: the
      second call finds the row the first one wrote. */
  lemma CreateSongTwiceAddsNoRow(favs: Table<Favorite>, song: Json)
    requires CreateSong(favs, song).Ok? && CreateSong(favs, song).value.0.status == 200
    requires "id" !in song.fields
    ensures var once := CreateSong(favs, song).value.1;
      CreateSong(once, song).Ok? && CreateSong(once, song).value.1.keys == once.keys
  {
    var c := ReadSong(song).value;
    var once := CreateSong(favs, song).value.1;
    SongStored(favs, song);
    var t := ResolveSongId(favs, song.fields, c).value;
    var k := if t.Insert? then NextId(favs) else t.id;
    assert SameSong(once, c.title, c.albumId, k);
    var extras := ReadExtras(song.fields).value;
    assert CreateSong(once, song) == Ok((Reply(song, 200), SaveSong(once, ResolveSongId(once, song.fields, c).value, c, extras)));
    ExistingSongReused(once, song, k);
  }

  // ---------------------------------------------------------------------
  // albums

  /** A `music` row (the id is the table key). */
  datatype AlbumRow = AlbumRow(
    band: Json,
    title: Json,
    year: int,
    score: Json,
    review: Json,
    kind: Json,
    country: Json,
    copy: Json,
    style: Json)

  /** What `get_albums` answers: the rows with their ids (200), or the
      requested id (400). */
  datatype AlbumsReply = Found(rows: seq<(int, AlbumRow)>) | NotFound(albumId: Option<int>)

  function AlbumsStatus(r: AlbumsReply): int {
    if r.Found? then 200 else 400
  }

  /** The rows with the given ids, in that order. */
  function RowsOf<R>(t: Table<R>, ids: seq<int>): (rows: seq<(int, R)>)
    requires forall i :: 0 <= i < |ids| ==> ids[i] in t.vals
    ensures |rows| == |ids|
    ensures forall i :: 0 <= i < |ids| ==> rows[i] == (ids[i], t.vals[ids[i]])
  {
    seq(|ids|, i requires 0 <= i < |ids| => (ids[i], t.vals[ids[i]]))
  }

  /** A truthy optional number. */
  predicate Given(o: Option<int>) {
    o.Some? && o.value != 0
  }

  /** The rows `get_albums` selects: the one id when it is given, else
      `quantity` rows in `RAND()` order (`shuffled`) when that is given,
      else every row in table order. */
  function AlbumIds(albums: Table<AlbumRow>, quantity: Option<nat>, albumId: Option<int>, shuffled: seq<int>): (ids: seq<int>)
    ensures forall i :: 0 <= i < |ids| ==> ids[i] in albums.vals
    ensures Given(albumId) ==> ids == if albumId.value in albums.vals then [albumId.value] else []
    ensures !Given(albumId) && Given(quantity) ==>
      |ids| <= quantity.value && forall i :: 0 <= i < |ids| ==> ids[i] in shuffled
    ensures !Given(albumId) && !Given(quantity) ==> ids == albums.keys
  {
    assert forall k :: k in albums.keys ==> k in albums.vals;
    if Given(albumId) then (if albumId.value in albums.vals then [albumId.value] else [])
    else if Given(quantity) then
      var kept := Filter(shuffled, (k: int) => k in albums.vals);
      var ids := Take(kept, quantity.value);
      assert forall i :: 0 <= i < |ids| ==> ids[i] == kept[i];
      ids
    else albums.keys
  }

  /** `get_albums(quantity, album_id)`. `shuffled` is the order `RAND()`
      puts the rows in. */
  function GetAlbums(albums: Table<AlbumRow>, quantity: Option<nat>, albumId: Option<int>, shuffled: seq<int>): (r: AlbumsReply)
    ensures r.Found? ==> r.rows != [] && forall i :: 0 <= i < |r.rows| ==>
      r.rows[i].0 in albums.vals && r.rows[i].1 == albums.vals[r.rows[i].0]
    ensures r.NotFound? ==> r.albumId == albumId
    ensures Given(albumId) ==>
      (r.Found? <==> albumId.value in albums.vals) &&
      (r.Found? ==> r.rows == [(albumId.value, albums.vals[albumId.value])])
    ensures !Given(albumId) && Given(quantity) && r.Found? ==>
      |r.rows| <= quantity.value && forall i :: 0 <= i < |r.rows| ==> r.rows[i].0 in shuffled
    ensures !Given(albumId) && !Given(quantity) ==>
      (r.Found? <==> albums.keys != []) &&
      (r.Found? ==> |r.rows| == |albums.keys| && forall i :: 0 <= i < |r.rows| ==> r.rows[i].0 == albums.keys[i])
  {
    var ids := AlbumIds(albums, quantity, albumId, shuffled);
    if ids == [] then NotFound(albumId) else Found(RowsOf(albums, ids))
  }

  /** Every element of an ordering of a table's ids is a row of it. */
  lemma OrderingInTable<R>(t: Table<R>, shuffled: seq<int>)
    requires multiset(shuffled) == multiset(t.keys)
    ensures |shuffled| == |t.keys|
    ensures forall i :: 0 <= i < |shuffled| ==> shuffled[i] in t.vals
  {
    assert forall i :: 0 <= i < |shuffled| ==> shuffled[i] in multiset(t.keys);
    assert |multiset(shuffled)| == |multiset(t.keys)|;
  }

  /** When `shuffled` is an ordering of the whole table, a quantity yields
      that many rows, or every row when the table is smaller. */
  lemma RandomAlbumsCount(albums: Table<AlbumRow>, q: nat, shuffled: seq<int>)
    requires q != 0 && albums.keys != []
    requires multiset(shuffled) == multiset(albums.keys)
    ensures var r := GetAlbums(albums, Some(q), None, shuffled);
      r.Found? && |r.rows| == if q < |albums.keys| then q else |albums.keys|
  {
    OrderingInTable(albums, shuffled);
    var kept := Filter(shuffled, (k: int) => k in albums.vals);
    assert kept == shuffled;
    assert AlbumIds(albums, Some(q), None, shuffled) == Take(shuffled, q);
  }

  // ---------------------------------------------------------------------
  // songs with their albums

  /** A listed song: its id, its row and its album's row. */
  datatype Listed = Listed(id: int, song: Favorite, album: AlbumRow)

  /** `_get_album_for_song`: the album of a row with a truthy album id that
      `get_albums` finds. */
  function AlbumFor(albums: Table<AlbumRow>, f: Favorite): (r: Option<AlbumRow>)
    ensures r.Some? <==> f.albumId != 0 && f.albumId in albums.vals
    ensures r.Some? ==> r.value == albums.vals[f.albumId]
  {
    if f.albumId == 0 then None
    else
      match GetAlbums(albums, None, Some(f.albumId), [])
      case Found(rows) => Some(rows[0].1)
      case NotFound(_) => None
  }

  /** A row with its album, when `_get_album_for_song` finds the album. */
  function ListEntry(favs: Table<Favorite>, albums: Table<AlbumRow>, k: int): (r: Option<(Favorite, AlbumRow)>)
    ensures r.Some? <==> k in favs.vals && AlbumFor(albums, favs.vals[k]).Some?
    ensures r.Some? ==> r.value == (favs.vals[k], AlbumFor(albums, favs.vals[k]).value)
  {
    if k !in favs.vals then None
    else
      match AlbumFor(albums, favs.vals[k])
      case Some(a) => Some((favs.vals[k], a))
      case None => None
  }

  /** The rows with the ids whose album is found, in order. */
  function WithAlbums(favs: Table<Favorite>, albums: Table<AlbumRow>, ids: seq<int>): (r: seq<Listed>)
    ensures |r| <= |ids|
    ensures forall i :: 0 <= i < |r| ==>
      r[i].id in ids && ListEntry(favs, albums, r[i].id) == Some((r[i].song, r[i].album))
    ensures forall i :: 0 <= i < |ids| && ListEntry(favs, albums, ids[i]).Some? ==>
      exists j :: 0 <= j < |r| && r[j].id == ids[i]
  {
    var f := (k: int) => ListEntry(favs, albums, k);
    var picked := Choose(ids, f);
    var r := seq(|picked|, i requires 0 <= i < |picked| => Listed(picked[i].0, picked[i].1.0, picked[i].1.1));
    assert forall i :: 0 <= i < |ids| && ListEntry(favs, albums, ids[i]).Some? ==>
      exists j :: 0 <= j < |r| && r[j].id == ids[i] by {
      forall i | 0 <= i < |ids| && ListEntry(favs, albums, ids[i]).Some?
        ensures exists j :: 0 <= j < |r| && r[j].id == ids[i]
      {
        ChooseCovers(ids, f, i);
        var j :| 0 <= j < |picked| && picked[j].0 == ids[i];
        assert r[j].id == ids[i];
      }
    }
    r
  }

  predicate ScoreAbove(favs: Table<Favorite>, threshold: real, k: int) {
    k in favs.vals && favs.vals[k].score > threshold
  }

  /** The rows `get_songs` selects before the album lookup. */
  function SongIds(favs: Table<Favorite>, quantity: Option<nat>, threshold: real, shuffled: seq<int>): (ids: seq<int>)
    ensures Given(quantity) ==> |ids| <= quantity.value
    ensures Given(quantity) ==> forall k :: k in ids ==> ScoreAbove(favs, threshold, k)
    ensures !Given(quantity) ==> ids == favs.keys
  {
    if Given(quantity) then
      var above := Filter(shuffled, (k: int) => ScoreAbove(favs, threshold, k));
      var ids := Take(above, quantity.value);
      assert forall i :: 0 <= i < |ids| ==> ids[i] == above[i];
      ids
    else favs.keys
  }

  /** `get_songs(quantity, score)`: with a quantity, at most that many rows
      scored above the threshold, in `RAND()` order (`shuffled`); without,
      every row; and only the rows whose album is found. */
  function GetSongs(favs: Table<Favorite>, albums: Table<AlbumRow>, quantity: Option<nat>, threshold: real, shuffled: seq<int>): (r: seq<Listed>)
    ensures forall i :: 0 <= i < |r| ==>
      r[i].id in favs.vals && r[i].song == favs.vals[r[i].id]
      && r[i].song.albumId != 0 && r[i].song.albumId in albums.vals
      && r[i].album == albums.vals[r[i].song.albumId]
    ensures Given(quantity) ==> |r| <= quantity.value
    ensures Given(quantity) ==> forall i :: 0 <= i < |r| ==> r[i].song.score > threshold
    ensures !Given(quantity) ==> forall k :: k in favs.vals ==>
      ((exists i :: 0 <= i < |r| && r[i].id == k) <==>
        favs.vals[k].albumId != 0 && favs.vals[k].albumId in albums.vals)
  {
    var ids := SongIds(favs, quantity, threshold, shuffled);
    var r := WithAlbums(favs, albums, ids);
    assert !Given(quantity) ==> forall k :: k in favs.vals ==> exists i :: 0 <= i < |ids| && ids[i] == k;
    r
  }

  /** A song sent without an id whose album exists is listed by `get_songs`
      without a quantity once it is created. */
  lemma CreatedSongListed(favs: Table<Favorite>, albums: Table<AlbumRow>, song: Json, threshold: real, shuffled: seq<int>)
    requires CreateSong(favs, song).Ok? && CreateSong(favs, song).value.0.status == 200
    requires "id" !in song.fields
    requires ReadSong(song).value.albumId != 0 && ReadSong(song).value.albumId in albums.vals
    ensures var listed := GetSongs(CreateSong(favs, song).value.1, albums, None, threshold, shuffled);
      exists i :: 0 <= i < |listed| &&
        listed[i].song.title == ReadSong(song).value.title &&
        listed[i].song.albumId == ReadSong(song).value.albumId
  {
    var c := ReadSong(song).value;
    var after := CreateSong(favs, song).value.1;
    SongStored(favs, song);
    var t := ResolveSongId(favs, song.fields, c).value;
    var k := if t.Insert? then NextId(favs) else t.id;
    assert SameSong(after, c.title, c.albumId, k);
    var listed := GetSongs(after, albums, None, threshold, shuffled);
    assert exists i :: 0 <= i < |listed| && listed[i].id == k;
  }

  // ---------------------------------------------------------------------
  // create_album

  /** The compulsory album fields: band, title and an integer year. */
  function ReadAlbum(album: Json): (r: Result<(Json, Json, int)>)
    ensures r.Ok? <==>
      (album.JObj? && "band" in album.fields && "title" in album.fields
       && "year" in album.fields && IntOf(album.fields["year"]).Ok?)
    ensures r.Ok? ==> r.value == (album.fields["band"], album.fields["title"], IntOf(album.fields["year"]).value)
    ensures album.JObj? && ("band" !in album.fields || "title" !in album.fields || "year" !in album.fields) ==>
      r == Raise(KeyError)
  {
    var band :- Index(album, "band");
    var title :- Index(album, "title");
    var yj :- Index(album, "year");
    var year :- IntOf(yj);
    Ok((band, title, year))
  }

  /** An optional field: present or not. */
  function Opt(fields: map<string, Json>, k: string): (o: Option<Json>)
    ensures o.Some? <==> k in fields
    ensures o.Some? ==> o.value == fields[k]
  {
    if k in fields then Some(fields[k]) else None
  }

  /** The score, when present and convertible; one that fails with a
      `ValueError` is dropped, any other failure is raised. */
  function ReadScore(fields: map<string, Json>): (r: Result<Option<Float>>)
    ensures r.Ok? && r.value.Some? <==> "score" in fields && FloatOf(fields["score"]).Ok?
    ensures r.Ok? && r.value.Some? ==> FloatOf(fields["score"]) == Ok(r.value.value)
    ensures r.Raise? <==> "score" in fields && FloatOf(fields["score"]).Raise? && FloatOf(fields["score"]).exc != ValueError
  {
    if "score" !in fields then Ok(None)
    else
      match FloatOf(fields["score"])
      case Ok(f) => Ok(Some(f))
      case Raise(e) => if e == ValueError then Ok(None) else Raise(e)
  }

  /** The fields `create_album` assigns: compulsory ones and the optional
      ones that were present. */
  datatype AlbumEntry = AlbumEntry(
    band: Json,
    title: Json,
    year: int,
    score: Option<Float>,
    review: Option<Json>,
    kind: Option<Json>,
    country: Option<Json>,
    copy: Option<Json>,
    style: Option<Json>)

  function Or(o: Option<Json>, d: Json): Json {
    if o.Some? then o.value else d
  }

  /** The assigned fields laid over a row. */
  function AssignAlbum(prev: AlbumRow, e: AlbumEntry): (a: AlbumRow)
    ensures a.band == e.band && a.title == e.title && a.year == e.year
    ensures a.score == if e.score.Some? then JNum(e.score.value) else prev.score
    ensures a.review == Or(e.review, prev.review) && a.kind == Or(e.kind, prev.kind)
    ensures a.country == Or(e.country, prev.country) && a.copy == Or(e.copy, prev.copy)
    ensures a.style == Or(e.style, prev.style)
  {
    AlbumRow(
      e.band, e.title, e.year,
      if e.score.Some? then JNum(e.score.value) else prev.score,
      Or(e.review, prev.review), Or(e.kind, prev.kind), Or(e.country, prev.country),
      Or(e.copy, prev.copy), Or(e.style, prev.style))
  }

  /** The column defaults of `music`: a blank for text columns, no review. */
  const Blank := JStr(" ")
  const DefaultAlbum := AlbumRow(Blank, Blank, 0, Blank, JNull, Blank, Blank, Blank, Blank)

  /** `create_album(album)`: a body without an id (or with a null id) is
      inserted and gets the new id written into it; a body with an id
      updates that row, and an update that changes nothing (or finds no row)
      is answered with 400. */
  function CreateAlbum(albums: Table<AlbumRow>, album: Json): (r: Result<(Reply, Table<AlbumRow>)>)
    ensures r.Ok? && r.value.0.status != 200 ==> r.value.0 == Reply(album, 400) && r.value.1 == albums
    ensures ReadAlbum(album).Raise? && ReadAlbum(album).exc in {KeyError, ValueError} ==>
      r == Ok((Reply(album, 400), albums))
    ensures r.Ok? && r.value.0.status == 200 ==>
      (ReadAlbum(album).Ok? &&
       var n := NextId(albums);
       if "id" !in album.fields || album.fields["id"] == JNull then
         r.value.0.body == JObj(album.fields["id" := JInt(n)]) && r.value.1.keys == albums.keys + [n]
       else
         && r.value.0.body == album && r.value.1.keys == albums.keys
         && IntOf(album.fields["id"]).Ok? && IntOf(album.fields["id"]).value in albums.vals
         && r.value.1.vals[IntOf(album.fields["id"]).value] != albums.vals[IntOf(album.fields["id"]).value])
  {
    match ReadAlbum(album)
    case Raise(e) =>
      if e == KeyError || e == ValueError then Ok((Reply(album, 400), albums)) else Raise(e)
    case Ok((band, title, year)) =>
      var fs := album.fields;
      var score :- ReadScore(fs);
      SaveAlbum(albums, fs, EntryOf(fs, band, title, year, score))
  }

  function EntryOf(fs: map<string, Json>, band: Json, title: Json, year: int, score: Option<Float>): AlbumEntry {
    AlbumEntry(band, title, year, score,
      Opt(fs, "review"), Opt(fs, "type"), Opt(fs, "country"), Opt(fs, "copy"), Opt(fs, "style"))
  }

  /** `album_entry.save()` and the reply built from its outcome. */
  function SaveAlbum(albums: Table<AlbumRow>, fs: map<string, Json>, e: AlbumEntry): Result<(Reply, Table<AlbumRow>)> {
    if "id" !in fs || fs["id"] == JNull then
      var n := NextId(albums);
      Ok((Reply(JObj(fs["id" := JInt(n)]), 200), Put(albums, n, AssignAlbum(DefaultAlbum, e))))
    else
      var id :- RowId(fs["id"]);
      match id
      case Some(n) =>
        if n in albums.vals && AssignAlbum(albums.vals[n], e) != albums.vals[n] then
          Ok((Reply(JObj(fs), 200), Put(albums, n, AssignAlbum(albums.vals[n], e))))
        else Ok((Reply(JObj(fs), 400), albums))
      case None => Ok((Reply(JObj(fs), 400), albums))
  }

  /** Apart from the reply body, saving depends only on the id field. */
  lemma SaveAlbumSameId(albums: Table<AlbumRow>, fs: map<string, Json>, gs: map<string, Json>, e: AlbumEntry)
    requires ("id" in fs <==> "id" in gs) && ("id" in fs ==> fs["id"] == gs["id"])
    ensures SaveAlbum(albums, fs, e).Ok? == SaveAlbum(albums, gs, e).Ok?
    ensures SaveAlbum(albums, fs, e).Ok? ==>
      SaveAlbum(albums, fs, e).value.0.status == SaveAlbum(albums, gs, e).value.0.status &&
      SaveAlbum(albums, fs, e).value.1 == SaveAlbum(albums, gs, e).value.1
  {
  }

  /** The row an insert writes: the compulsory fields, each optional field
      that was present, and the defaults for the rest; a score that does not
      parse leaves the default. */
  lemma AlbumInserted(albums: Table<AlbumRow>, fields: map<string, Json>)
    requires CreateAlbum(albums, JObj(fields)).Ok?
    requires ReadAlbum(JObj(fields)).Ok?
    requires "id" !in fields || fields["id"] == JNull
    ensures var n := NextId(albums);
      var row := CreateAlbum(albums, JObj(fields)).value.1.vals[n];
      && CreateAlbum(albums, JObj(fields)).value.0.status == 200
      && row.band == fields["band"] && row.title == fields["title"]
      && IntOf(fields["year"]) == Ok(row.year)
      && (if "score" in fields && FloatOf(fields["score"]).Ok? then row.score == JNum(FloatOf(fields["score"]).value) else row.score == Blank)
      && row.review == (if "review" in fields then fields["review"] else JNull)
      && row.kind == (if "type" in fields then fields["type"] else Blank)
      && row.country == (if "country" in fields then fields["country"] else Blank)
      && row.copy == (if "copy" in fields then fields["copy"] else Blank)
      && row.style == (if "style" in fields then fields["style"] else Blank)
  {
  }

  /** Two bodies that agree on every field but the score read alike. */
  lemma SameAlbumFields(fields: map<string, Json>, g: map<string, Json>)
    requires forall k :: k != "score" ==> (k in fields <==> k in g)
    requires forall k :: k != "score" && k in fields ==> fields[k] == g[k]
    ensures ReadAlbum(JObj(fields)) == ReadAlbum(JObj(g))
    ensures forall k :: k != "score" ==> Opt(fields, k) == Opt(g, k)
  {
    assert "band" != "score" && "title" != "score" && "year" != "score";
  }

  /** An unparsable score is only dropped: the call stores and answers as
      if the body had no score. */
  lemma UnparsableScoreIgnored(albums: Table<AlbumRow>, fields: map<string, Json>)
    requires "score" in fields && FloatOf(fields["score"]) == Raise(ValueError)
    ensures var with := CreateAlbum(albums, JObj(fields));
      var without := CreateAlbum(albums, JObj(fields - {"score"}));
      with.Ok? == without.Ok? &&
      (with.Ok? ==> with.value.0.status == without.value.0.status && with.value.1 == without.value.1)
  {
    var g := fields - {"score"};
    SameAlbumFields(fields, g);
    if ReadAlbum(JObj(fields)).Ok? {
      var (band, title, year) := ReadAlbum(JObj(fields)).value;
      assert ReadScore(fields) == Ok(None) == ReadScore(g);
      var e := EntryOf(fields, band, title, year, None);
      assert e == EntryOf(g, band, title, year, None);
      assert CreateAlbum(albums, JObj(fields)) == SaveAlbum(albums, fields, e);
      assert CreateAlbum(albums, JObj(g)) == SaveAlbum(albums, g, e);
      SaveAlbumSameId(albums, fields, g, e);
    }
  }

  /** An inserted album is what `get_albums` returns for the id written back
      into the body. */
  lemma CreatedAlbumFound(albums: Table<AlbumRow>, fields: map<string, Json>, shuffled: seq<int>)
    requires CreateAlbum(albums, JObj(fields)).Ok?
    requires CreateAlbum(albums, JObj(fields)).value.0.status == 200
    requires "id" !in fields || fields["id"] == JNull
    ensures var (reply, after) := CreateAlbum(albums, JObj(fields)).value;
      reply.body.JObj? && "id" in reply.body.fields && reply.body.fields["id"].JInt? &&
      var n := reply.body.fields["id"].i;
      GetAlbums(after, None, Some(n), shuffled) == Found([(n, after.vals[n])])
  {
  }

  /** A well-formed body whose id `int()` cannot read is answered with 400
      and changes nothing: the update compares the raw id with no row. */
  lemma UnreadableAlbumIdRejected(albums: Table<AlbumRow>, album: Json)
    requires ReadAlbum(album).Ok? && ReadScore(album.fields).Ok?
    requires "id" in album.fields && IntOf(album.fields["id"]) == Raise(ValueError)
    ensures CreateAlbum(albums, album) == Ok((Reply(album, 400), albums))
  {
  }

  /** Sending the same album with an id a second time changes nothing and is
      answered with 400. */
  lemma CreateAlbumTwiceNoChange(albums: Table<AlbumRow>, album: Json)
    requires CreateAlbum(albums, album).Ok? && CreateAlbum(albums, album).value.0.status == 200
    requires "id" in album.fields && album.fields["id"] != JNull
    ensures var once := CreateAlbum(albums, album).value.1;
      CreateAlbum(once, album) == Ok((Reply(album, 400), once))
  {
    var fs := album.fields;
    var (band, title, year) := ReadAlbum(album).value;
    var e := EntryOf(fs, band, title, year, ReadScore(fs).value);
    var n := IntOf(fs["id"]).value;
    var once := CreateAlbum(albums, album).value.1;
    assert once == Put(albums, n, AssignAlbum(albums.vals[n], e));
    assert AssignAlbum(AssignAlbum(albums.vals[n], e), e) == AssignAlbum(albums.vals[n], e);
  }
}

=== FILE: py.dfy ===
/** Failure-compatible wrappers and the Python exceptions that can escape the
    modelled operations. */
module Py {

  datatype Option<+T> = None | Some(value: T) {
    predicate IsFailure() { None? }

    function PropagateFailure<U>(): Option<U>
      requires None?
    {
      None
    }

    function Extract(): T
      requires Some?
    {
      value
    }
  }

  /** The exceptions a modelled call can raise to its caller. */
  datatype Exc =
    | AttributeError   // e.g. `None.casefold()`
    | TypeError        // e.g. `float(None)`, indexing a non-dict
    | ValueError       // e.g. `int('x')` where nothing catches it
    | FileNotFoundError
    | KeyError         // a missing key in a request body
    | OverflowError    // `int(float('inf'))`
    | ProgrammingError // the database driver refuses a non-finite float

  datatype Result<+R> = Ok(value: R) | Raise(exc: Exc) {
    predicate IsFailure() { Raise? }

    function PropagateFailure<U>(): Result<U>
      requires Raise?
    {
      Raise(exc)
    }

    function Extract(): R
      requires Ok?
    {
      value
    }
  }
}

=== FILE: reviews.dfy ===
/** `add_reviews_batch` (MusicPlayer/music/music_manager.py): review text
    files named `BAND - ALBUM - SCORE` set the score and review of the
    matching valid album and send it to the catalog. */
module Reviews {
  import opened Py
  import opened Text
  import opened Dicts
  import opened Albums
  import opened Trees
  import opened Collection
  import Reconciliation

  /** Index of the last `c` in `s`, if any (`str.rfind`). */
  function LastIndex(s: string, c: char): (r: Option<nat>)
    ensures r.None? <==> c !in s
    ensures r.Some? ==> r.value < |s| && s[r.value] == c && c !in s[r.value + 1..]
  {
    if s == [] then None
    else if s[|s| - 1] == c then Some(|s| - 1)
    else
      var r := LastIndex(s[..|s| - 1], c);
      assert s == s[..|s| - 1] + [s[|s| - 1]];
      r
  }

  /** `os.path.splitext(p)[0]`: drops the text from the last dot when that
      dot is in the last path component and something other than a dot
      precedes it within the component (so `.bashrc` keeps its name). */
  function StripExtension(p: string): (r: string)
    ensures |r| <= |p| && r == p[..|r|]
  {
    var sepEnd: nat := match LastIndex(p, '/') case None => 0 case Some(i) => i + 1;
    match LastIndex(p, '.')
    case None => p
    case Some(d) =>
      if d >= sepEnd && exists x :: sepEnd <= x < d && p[x] != '.' then p[..d] else p
  }

  /** The three keys of a review file name: `band.casefold().strip()`,
      `album.casefold().strip()` and `score.strip()`; `None` unless the name
      without its extension splits at `-` into exactly three parts. Band and
      album come out stripped and already case-folded. */
  function ParseReviewName(fileName: string): (r: Option<(string, string, string)>)
    ensures r.Some? <==> |Split(StripExtension(fileName), '-')| == 3
    ensures r.Some? ==> var parts := Split(StripExtension(fileName), '-');
      r.value == (Casefold(Strip(parts[0])), Casefold(Strip(parts[1])), Strip(parts[2]))
    ensures r.Some? ==> Stripped(r.value.0) && Stripped(r.value.1) && Stripped(r.value.2)
    ensures r.Some? ==> Casefold(r.value.0) == r.value.0 && Casefold(r.value.1) == r.value.1
  {
    var parts := Split(StripExtension(fileName), '-');
    if |parts| != 3 then None
    else
      StripCasefold(parts[0]);
      StripCasefold(parts[1]);
      CasefoldIdempotent(Strip(parts[0]));
      CasefoldIdempotent(Strip(parts[1]));
      Some((Strip(Casefold(parts[0])), Strip(Casefold(parts[1])), Strip(parts[2])))
  }

  /** A name is accepted iff it has exactly two dashes before its extension. */
  lemma ReviewNameDashes(fileName: string)
    ensures ParseReviewName(fileName).Some? <==> Count(StripExtension(fileName), '-') == 2
  {
    SplitCount(StripExtension(fileName), '-');
  }

  /** Extension stripping undoes appending `.txt` to a name that has some
      character other than a dot and no slash. */
  lemma StripTxt(name: string)
    requires '/' !in name && exists x :: 0 <= x < |name| && name[x] != '.'
    ensures StripExtension(name + ".txt") == name
  {
    var p := name + ".txt";
    assert p[|name|] == '.';
    assert p[|name| + 1..] == "txt";
    assert '/' !in p;
    assert p[..|name|] == name;
  }

  /** Round trip of the naming pattern: for dash-free, stripped parts, the
      file `"B - A - S.txt"` yields the case-folded band and album and the
      score as written. */
  lemma ReviewNameRoundTrip(band: string, album: string, score: string)
    requires '-' !in band && '-' !in album && '-' !in score
    requires '/' !in band && '/' !in album && '/' !in score
    requires Stripped(band) && Stripped(album) && Stripped(score)
    ensures ParseReviewName(band + " - " + album + " - " + score + ".txt") ==
      Some((Casefold(band), Casefold(album), score))
  {
    NameExtension(band, album, score);
    ReviewParts(band, album, score);
    var parts := [band + " ", " " + album + " ", " " + score];
    assert Split(StripExtension(band + " - " + album + " - " + score + ".txt"), '-') == parts;
    PadStripped(band);
    PadStripped(album);
    PadStripped(score);
  }

  lemma ReviewParts(band: string, album: string, score: string)
    requires '-' !in band && '-' !in album && '-' !in score
    ensures Split(band + " - " + album + " - " + score, '-') == [band + " ", " " + album + " ", " " + score]
  {
    PadDashes(band, album, score);
    SplitThree(band + " - " + album + " - " + score, band + " ", " " + album + " ", " " + score);
  }

  lemma PadDashes(band: string, album: string, score: string)
    ensures band + " - " + album + " - " + score == (band + " ") + "-" + (" " + album + " ") + "-" + (" " + score)
  {
  }

  lemma NameExtension(band: string, album: string, score: string)
    requires '/' !in band && '/' !in album && '/' !in score
    ensures StripExtension(band + " - " + album + " - " + score + ".txt") == band + " - " + album + " - " + score
  {
    var name := band + " - " + album + " - " + score;
    assert name[|band|] == ' ';
    assert '/' !in name;
    StripTxt(name);
  }

  /** `w.split('-')` of three dash-free parts joined by dashes. */
  lemma SplitThree(w: string, a: string, b: string, c: string)
    requires '-' !in a && '-' !in b && '-' !in c
    requires w == a + "-" + b + "-" + c
    ensures Split(w, '-') == [a, b, c]
  {
    var ps := [a, b, c];
    assert ps[1..] == [b, c];
    assert [b, c][1..] == [c];
    assert Join([b, c], '-') == b + "-" + c;
    assert Join(ps, '-') == a + "-" + (b + "-" + c);
    assert a + "-" + (b + "-" + c) == a + "-" + b + "-" + c;
    SplitJoin(ps, '-');
  }

  lemma PadStripped(s: string)
    requires Stripped(s)
    ensures Strip(s + " ") == s && Strip(" " + s + " ") == s && Strip(" " + s) == s
  {
    StripStripped(s);
    StripSpaceAfter(s);
    StripSpaceBefore(s);
    StripSpaceAfter(" " + s);
  }

  /** The found album `key` of band `bk`: its score is written at once; its
      review only when the file could be read (`content`), after which it
      goes to the catalog. A failed update files the album in the wrong tree
      under the review's keys `(bk, ak)`. */
  function ReviewAlbum(st: Stage, bk: string, ak: string, key: string, score: string,
                       content: Option<string>, srv: Server): (r: Stage)
    requires InTree(st.valid, bk, key)
    ensures forall b, k :: InTree(r.valid, b, k) <==> InTree(st.valid, b, k)
    ensures forall b, k :: InTree(st.wrong, b, k) ==> InTree(r.wrong, b, k)
  {
    match content
    case None => Stage(AddAlbumToTree(st.valid, bk, key, With(At(st.valid, bk, key), "score", VStr(score))), st.wrong)
    case Some(review) =>
      var a := Reviewed(st, bk, key, score, review);
      if srv.validate(a) && srv.push(a).Some? then
        Stage(AddAlbumToTree(st.valid, bk, key, Marked(a, srv.push(a).value)), st.wrong)
      else
        Stage(AddAlbumToTree(st.valid, bk, key, a), AddAlbumToTree(st.wrong, bk, ak, Some(a)))
  }

  /** One review file: an unknown band is filed in the wrong tree with no
      album; a known band is searched for the album (the first whose
      case-folded title is the album key), and an album found is reviewed. */
  function ApplyReview(st: Stage, fileName: string, content: Option<string>, srv: Server): (r: Result<Stage>)
    ensures r.Raise? ==> r.exc == AttributeError
    ensures r.Ok? ==> forall b, k :: InTree(r.value.valid, b, k) <==> InTree(st.valid, b, k)
    ensures r.Ok? ==> forall b, k :: InTree(st.wrong, b, k) ==> InTree(r.value.wrong, b, k)
  {
    match ParseReviewName(fileName)
    case None => Ok(st)
    case Some(keys) =>
      if keys.0 !in st.valid.vals then Ok(Stage(st.valid, AddAlbumToTree(st.wrong, keys.0, keys.1, None)))
      else ReviewBand(st, keys.0, keys.1, keys.2, content, srv)
  }

  /** The review of a known band: its albums are searched in order. */
  function ReviewBand(st: Stage, bk: string, ak: string, score: string,
                      content: Option<string>, srv: Server): (r: Result<Stage>)
    requires bk in st.valid.vals
    ensures r.Raise? ==> r.exc == AttributeError
    ensures r.Ok? ==> forall b, k :: InTree(r.value.valid, b, k) <==> InTree(st.valid, b, k)
    ensures r.Ok? ==> forall b, k :: InTree(st.wrong, b, k) ==> InTree(r.value.wrong, b, k)
  {
    var band := st.valid.vals[bk];
    var found :- FindAlbum(band, band.keys, ak);
    match found
    case None => Ok(st)
    case Some(key) => Ok(ReviewAlbum(st, bk, ak, key, score, content, srv))
  }

  /** A review whose band is not in the valid tree is recorded in the wrong
      tree as `None` under its keys, and nothing else changes. */
  lemma UnknownBandIsWrong(st: Stage, fileName: string, content: Option<string>, srv: Server)
    requires ParseReviewName(fileName).Some? && ParseReviewName(fileName).value.0 !in st.valid.vals
    ensures var keys := ParseReviewName(fileName).value;
      var r := ApplyReview(st, fileName, content, srv);
      && r.Ok? && r.value.valid == st.valid
      && InTree(r.value.wrong, keys.0, keys.1) && At(r.value.wrong, keys.0, keys.1) == None
  {
  }

  /** A name that does not have three parts changes nothing. */
  lemma MalformedNameIgnored(st: Stage, fileName: string, content: Option<string>, srv: Server)
    requires Count(StripExtension(fileName), '-') != 2
    ensures ApplyReview(st, fileName, content, srv) == Ok(st)
  {
    ReviewNameDashes(fileName);
  }

  /** A review whose album is found is the review of that album. */
  lemma ApplyReviewFound(st: Stage, fileName: string, content: Option<string>, srv: Server, key: string)
    requires ParseReviewName(fileName).Some?
    requires var keys := ParseReviewName(fileName).value;
      keys.0 in st.valid.vals &&
      FindAlbum(st.valid.vals[keys.0], st.valid.vals[keys.0].keys, keys.1) == Ok(Some(key))
    ensures var keys := ParseReviewName(fileName).value;
      && InTree(st.valid, keys.0, key)
      && ApplyReview(st, fileName, content, srv) == Ok(ReviewAlbum(st, keys.0, keys.1, key, keys.2, content, srv))
  {
  }

  /** The reviewed album, with the file's score and review, before the
      catalog update. */
  function Reviewed(st: Stage, bk: string, key: string, score: string, review: string): (a: Album)
    requires InTree(st.valid, bk, key)
    ensures Get(a, "score") == VStr(score) && Get(a, "review") == VStr(review)
    ensures forall f :: f != "score" && f != "review" ==> Get(a, f) == Get(At(st.valid, bk, key), f)
  {
    With(With(At(st.valid, bk, key), "score", VStr(score)), "review", VStr(review))
  }

  lemma ReviewAlbumApplied(st: Stage, bk: string, ak: string, key: string, score: string, review: string, srv: Server)
    requires InTree(st.valid, bk, key)
    requires var a := Reviewed(st, bk, key, score, review); srv.validate(a) && srv.push(a).Some?
    ensures var a := Reviewed(st, bk, key, score, review);
      var reply := srv.push(a).value;
      var r := ReviewAlbum(st, bk, ak, key, score, Some(review), srv);
      && r.wrong == st.wrong
      && InTree(r.valid, bk, key)
      && Get(At(r.valid, bk, key), "in_db") == VBool(true)
      && ("score" !in reply.fields ==> Get(At(r.valid, bk, key), "score") == VStr(score))
      && ("review" !in reply.fields ==> Get(At(r.valid, bk, key), "review") == VStr(review))
  {
    var a := Reviewed(st, bk, key, score, review);
    var r := ReviewAlbum(st, bk, ak, key, score, Some(review), srv);
    assert r.valid == AddAlbumToTree(st.valid, bk, key, Marked(a, srv.push(a).value));
  }

  lemma ReviewAlbumRejected(st: Stage, bk: string, ak: string, key: string, score: string, review: string, srv: Server)
    requires InTree(st.valid, bk, key)
    requires var a := Reviewed(st, bk, key, score, review); !(srv.validate(a) && srv.push(a).Some?)
    ensures var a := Reviewed(st, bk, key, score, review);
      var r := ReviewAlbum(st, bk, ak, key, score, Some(review), srv);
      && InTree(r.wrong, bk, ak) && At(r.wrong, bk, ak) == Some(a)
      && InTree(r.valid, bk, key) && At(r.valid, bk, key) == a
  {
    var a := Reviewed(st, bk, key, score, review);
    var r := ReviewAlbum(st, bk, ak, key, score, Some(review), srv);
    assert r == Stage(AddAlbumToTree(st.valid, bk, key, a), AddAlbumToTree(st.wrong, bk, ak, Some(a)));
  }

  /** When the album is found, the file read and the catalog update
      succeeds, the album holds the file's score and review (unless the
      catalog's reply carries its own) and is marked as in the catalog. */
  lemma ReviewApplied(st: Stage, fileName: string, review: string, srv: Server, key: string)
    requires ParseReviewName(fileName).Some?
    requires var keys := ParseReviewName(fileName).value;
      keys.0 in st.valid.vals &&
      FindAlbum(st.valid.vals[keys.0], st.valid.vals[keys.0].keys, keys.1) == Ok(Some(key))
    requires var keys := ParseReviewName(fileName).value;
      InTree(st.valid, keys.0, key) &&
      var a := Reviewed(st, keys.0, key, keys.2, review);
      srv.validate(a) && srv.push(a).Some?
    ensures var keys := ParseReviewName(fileName).value;
      var reply := srv.push(Reviewed(st, keys.0, key, keys.2, review)).value;
      var r := ApplyReview(st, fileName, Some(review), srv);
      && r.Ok? && r.value.wrong == st.wrong
      && InTree(r.value.valid, keys.0, key)
      && Get(At(r.value.valid, keys.0, key), "in_db") == VBool(true)
      && ("score" !in reply.fields ==> Get(At(r.value.valid, keys.0, key), "score") == VStr(keys.2))
      && ("review" !in reply.fields ==> Get(At(r.value.valid, keys.0, key), "review") == VStr(review))
  {
    var keys := ParseReviewName(fileName).value;
    ApplyReviewFound(st, fileName, Some(review), srv, key);
    ReviewAlbumApplied(st, keys.0, keys.1, key, keys.2, review, srv);
  }

  /** When the catalog update fails, the album, with the file's score and
      review, is filed in the wrong tree under the review's keys and kept,
      so updated, in the valid tree. */
  lemma ReviewRejected(st: Stage, fileName: string, review: string, srv: Server, key: string)
    requires ParseReviewName(fileName).Some?
    requires var keys := ParseReviewName(fileName).value;
      keys.0 in st.valid.vals &&
      FindAlbum(st.valid.vals[keys.0], st.valid.vals[keys.0].keys, keys.1) == Ok(Some(key))
    requires var keys := ParseReviewName(fileName).value;
      InTree(st.valid, keys.0, key) &&
      var a := Reviewed(st, keys.0, key, keys.2, review);
      !(srv.validate(a) && srv.push(a).Some?)
    ensures var keys := ParseReviewName(fileName).value;
      var a := Reviewed(st, keys.0, key, keys.2, review);
      var r := ApplyReview(st, fileName, Some(review), srv);
      && r.Ok?
      && InTree(r.value.wrong, keys.0, keys.1) && At(r.value.wrong, keys.0, keys.1) == Some(a)
      && InTree(r.value.valid, keys.0, key) && At(r.value.valid, keys.0, key) == a
  {
    var keys := ParseReviewName(fileName).value;
    ApplyReviewFound(st, fileName, Some(review), srv, key);
    ReviewAlbumRejected(st, keys.0, keys.1, key, keys.2, review, srv);
  }

  /** The file names the listing keeps: regular files only, in order. */
  function RegularFiles(listing: seq<string>, isFile: string -> bool): (fs: seq<string>)
    ensures forall f :: f in fs <==> f in listing && isFile(f)
    ensures |fs| <= |listing|
  {
    if listing == [] then []
    else
      var rest := RegularFiles(listing[1..], isFile);
      assert forall f :: f in listing <==> f == listing[0] || f in listing[1..];
      if isFile(listing[0]) then [listing[0]] + rest else rest
  }

  /** The review files in turn, stopping at the first exception. */
  function ApplyReviews(st: Stage, files: seq<string>, read: string -> Option<string>, srv: Server): Result<Stage>
    decreases |files|
  {
    if files == [] then Ok(st)
    else
      var next :- ApplyReview(st, files[0], read(files[0]), srv);
      ApplyReviews(next, files[1..], read, srv)
  }

  /** Over the whole batch the valid tree keeps its albums and the wrong
      tree only grows. */
  lemma {:induction false} ApplyReviewsKeeps(st: Stage, files: seq<string>, read: string -> Option<string>, srv: Server, b: string, k: string)
    requires ApplyReviews(st, files, read, srv).Ok?
    ensures InTree(ApplyReviews(st, files, read, srv).value.valid, b, k) <==> InTree(st.valid, b, k)
    ensures InTree(st.wrong, b, k) ==> InTree(ApplyReviews(st, files, read, srv).value.wrong, b, k)
    decreases |files|
  {
    if files != [] {
      var next := ApplyReview(st, files[0], read(files[0]), srv).value;
      ApplyReviewsKeeps(next, files[1..], read, srv, b, k);
    }
  }

  /** `add_reviews_batch(reviews_path)`. An empty valid tree is first
      refilled by a fresh reconciliation (`rescan`); a directory without
      regular files raises `FileNotFoundError`. The directory listing, the
      regular-file test and the file reads are parameters. */
  function AddReviewsBatch(current: Stage, rescan: Result<Stage>, listing: seq<string>,
                           isFile: string -> bool, read: string -> Option<string>, srv: Server): (r: Result<Stage>)
    ensures current.valid.keys != [] && RegularFiles(listing, isFile) == [] ==> r == Raise(FileNotFoundError)
    ensures current.valid.keys != [] && RegularFiles(listing, isFile) != [] ==>
      r == ApplyReviews(current, RegularFiles(listing, isFile), read, srv)
    ensures current.valid.keys == [] && rescan.Raise? ==> r == rescan
    ensures current.valid.keys == [] && rescan.Ok? ==>
      r == if RegularFiles(listing, isFile) == [] then Raise(FileNotFoundError)
           else ApplyReviews(rescan.value, RegularFiles(listing, isFile), read, srv)
  {
    var st :- if current.valid.keys == [] then rescan else Ok(current);
    var files := RegularFiles(listing, isFile);
    if files == [] then Raise(FileNotFoundError)
    else ApplyReviews(st, files, read, srv)
  }

  /** `add_reviews_batch` with its rescan made explicit: the state that
      `_update_albums_from_collection()` leaves behind. */
  function AddReviewsBatchRescanned(current: Stage, root: string, bands: seq<BandFolder>,
                                    catalog: Result<Option<seq<Album>>>, listing: seq<string>,
                                    isFile: string -> bool, read: string -> Option<string>, srv: Server): (r: Result<Stage>)
    ensures current.valid.keys == [] && catalog.Raise? ==> r == Raise(catalog.exc)
    ensures current.valid.keys == [] && r.Ok? ==> Reconciliation.Rescan(root, bands, catalog, srv).Ok?
  {
    AddReviewsBatch(current, Reconciliation.Rescan(root, bands, catalog, srv), listing, isFile, read, srv)
  }

  /** Starting from an empty valid tree, a successful batch works on the
      rescanned collection: its valid tree holds exactly the conforming
      folders. */
  lemma BatchRescannedKeepsFolders(current: Stage, root: string, bands: seq<BandFolder>,
                                   catalog: Result<Option<seq<Album>>>, listing: seq<string>,
                                   isFile: string -> bool, read: string -> Option<string>, srv: Server,
                                   b: string, k: string)
    requires current.valid.keys == []
    requires AddReviewsBatchRescanned(current, root, bands, catalog, listing, isFile, read, srv).Ok?
    ensures InTree(AddReviewsBatchRescanned(current, root, bands, catalog, listing, isFile, read, srv).value.valid, b, k) <==>
      exists e :: e in Entries(bands) && FiledAs(e, b, k)
  {
    var st := Reconciliation.Rescan(root, bands, catalog, srv).value;
    var files := RegularFiles(listing, isFile);
    assert AddReviewsBatchRescanned(current, root, bands, catalog, listing, isFile, read, srv) ==
      ApplyReviews(st, files, read, srv);
    ApplyReviewsKeeps(st, files, read, srv, b, k);
    Reconciliation.RescanValidConforms(root, bands, catalog, srv, b, k);
  }

  /** The batch never loses an album of the tree it works on, and whatever
      the wrong tree held stays there. */
  lemma BatchKeepsTrees(current: Stage, listing: seq<string>, isFile: string -> bool,
                        read: string -> Option<string>, srv: Server, b: string, k: string)
    requires current.valid.keys != []
    requires AddReviewsBatch(current, Raise(FileNotFoundError), listing, isFile, read, srv).Ok?
    ensures var r := AddReviewsBatch(current, Raise(FileNotFoundError), listing, isFile, read, srv).value;
      && (InTree(r.valid, b, k) <==> InTree(current.valid, b, k))
      && (InTree(current.wrong, b, k) ==> InTree(r.wrong, b, k))
  {
    ApplyReviewsKeeps(current, RegularFiles(listing, isFile), read, srv, b, k);
  }
}

=== FILE: seqs.dfy ===
/** Linear searches over sequences, as `for x in xs: if p(x): ... break`
    loops perform them. */
module Seqs {
  import opened Py

  /** Position of the first element satisfying `p`. */
  function FirstIndex<T>(s: seq<T>, p: T -> bool): (r: Option<nat>)
    ensures r.Some? ==> r.value < |s| && p(s[r.value]) && forall j :: 0 <= j < r.value ==> !p(s[j])
    ensures r.None? <==> forall j :: 0 <= j < |s| ==> !p(s[j])
    decreases |s|
  {
    if s == [] then None
    else if p(s[0]) then Some(0)
    else
      match FirstIndex(s[1..], p)
      case None => None
      case Some(i) => Some(i + 1)
  }

  /** The answer `f` gives for the last element it answers for: a loop in
      which each answering element overwrites the previous answer. */
  function LastSome<T, U>(s: seq<T>, f: T -> Option<U>): (r: Option<U>)
    ensures r.None? <==> forall i :: 0 <= i < |s| ==> f(s[i]).None?
    ensures r.Some? ==> exists i :: (0 <= i < |s| && f(s[i]) == r &&
      forall j :: i < j < |s| ==> f(s[j]).None?)
    decreases |s|
  {
    if s == [] then None
    else
      var n := |s| - 1;
      var earlier := LastSome(s[..n], f);
      assert forall i :: 0 <= i < n ==> s[..n][i] == s[i];
      match f(s[n])
      case Some(x) => Some(x)
      case None => earlier
  }

  /** The elements satisfying `p`, in their order: `[x for x in s if p(x)]`. */
  function Filter<T>(s: seq<T>, p: T -> bool): (r: seq<T>)
    ensures |r| <= |s|
    ensures forall i :: 0 <= i < |r| ==> r[i] in s && p(r[i])
    ensures forall i :: 0 <= i < |s| && p(s[i]) ==> s[i] in r
    ensures (forall i :: 0 <= i < |s| ==> p(s[i])) ==> r == s
    decreases |s|
  {
    if s == [] then []
    else
      var rest := Filter(s[1..], p);
      if p(s[0]) then [s[0]] + rest else rest
  }

  /** The first `n` elements, or all of them when there are fewer:
      `s[:n]`, a `LIMIT n`. */
  function Take<T>(s: seq<T>, n: nat): (r: seq<T>)
    ensures |r| == if n < |s| then n else |s|
    ensures forall i :: 0 <= i < |r| ==> r[i] == s[i]
  {
    if n < |s| then s[..n] else s
  }

  /** Each element `f` answers for, paired with the answer, in order. */
  function Choose<T, U>(s: seq<T>, f: T -> Option<U>): (r: seq<(T, U)>)
    ensures |r| <= |s|
    ensures forall i :: 0 <= i < |r| ==> r[i].0 in s && f(r[i].0) == Some(r[i].1)
    decreases |s|
  {
    if s == [] then []
    else
      var rest := Choose(s[1..], f);
      assert forall i :: 0 <= i < |rest| ==> rest[i].0 in s;
      match f(s[0])
      case None => rest
      case Some(u) =>
        var r := [(s[0], u)] + rest;
        assert forall j :: 0 <= j < |rest| ==> r[j + 1] == rest[j];
        r
  }

  /** No element `f` answers for is left out. */
  lemma {:induction false} ChooseCovers<T, U>(s: seq<T>, f: T -> Option<U>, i: nat)
    requires i < |s| && f(s[i]).Some?
    ensures exists j :: 0 <= j < |Choose(s, f)| && Choose(s, f)[j].0 == s[i]
    decreases |s|
  {
    var r := Choose(s, f);
    if i == 0 {
      assert r[0].0 == s[0];
    } else {
      var rest := Choose(s[1..], f);
      assert s[1..][i - 1] == s[i];
      ChooseCovers(s[1..], f, i - 1);
      var j :| 0 <= j < |rest| && rest[j].0 == s[i];
      if f(s[0]).Some? {
        assert r[j + 1] == rest[j];
      } else {
        assert r == rest;
      }
    }
  }
}

=== FILE: song.dfy ===
/** The music player's `Song` record (MusicPlayer/music/song.py): its
    validation rule, its `band` property and its `m:ss` length text. */
module Songs {
  import opened Py
  import opened Text
  import opened PyNum
  import opened Albums

  /** What a song's `album` attribute refers to: nothing, a music-player
      `Album`, or some other object (the catalog client's album record)
      whose `validate()` answers `valid`. */
  datatype AlbumRef = NoAlbum | AnAlbum(album: Album) | Foreign(valid: bool, band: Value, id: Value)

  /** A song: the catalog fields as optional strings, the owning album and
      the length read from the audio file. */
  datatype Song = Song(
    id: Value,
    title: Option<string>,
    fileName: Option<string>,
    score: Option<string>,
    trackNumber: Option<string>,
    kind: Option<string>,
    album: AlbumRef,
    minutes: Option<int>,
    seconds: Option<int>)

  /** Truthiness of an optional string attribute. */
  predicate Present(s: Option<string>) {
    s.Some? && s.value != []
  }

  /** The score passes the float check: empty or blank, or a float in
      `[0.0, 10.0]` (NaN compares false both ways and so passes). */
  predicate ScoreAcceptable(score: Option<string>) {
    !Present(score) || IsSpaceString(score.value) ||
    match ParseFloat(score.value)
    case None => false
    case Some(f) => !Less(f, 0.0) && !Greater(f, 10.0)
  }

  /** The track number passes the int check, which only runs when the track
      number is set and the score is not blank. */
  predicate TrackAcceptable(s: Song)
    requires s.score.Some?
  {
    !Present(s.trackNumber) || IsSpaceString(s.score.value) ||
    ParseInt(s.trackNumber.value).Some?
  }

  /** `song.validate()` given how `album.validate()` answers for a
      music-player album. `Raise(AttributeError)` is the `None.isspace()`
      call made when a track number is set and the score is `None`. */
  function Validate(s: Song, albumValid: Album -> bool): (r: Result<bool>)
    ensures r == Ok(true) <==>
      && s.album.AnAlbum? && albumValid(s.album.album)
      && Present(s.title) && Present(s.fileName)
      && (Present(s.trackNumber) ==> s.score.Some?)
      && (s.score.Some? ==> TrackAcceptable(s))
      && ScoreAcceptable(s.score)
    ensures r.Raise? <==>
      && s.album.AnAlbum? && albumValid(s.album.album)
      && Present(s.title) && Present(s.fileName)
      && Present(s.trackNumber) && s.score.None?
    ensures s.album.NoAlbum? ==> r == Ok(false)
    ensures s.album.AnAlbum? && !albumValid(s.album.album) ==> r == Ok(false)
    ensures s.album.Foreign? ==> r == Ok(false)
    ensures !Present(s.title) || !Present(s.fileName) ==> r == Ok(false)
    ensures r.Raise? ==> r.exc == AttributeError
  {
    if s.album.NoAlbum? then Ok(false)
    else if s.album.AnAlbum? && !albumValid(s.album.album) then Ok(false)
    else if s.album.Foreign? && !s.album.valid then Ok(false)
    else if !Present(s.title) then Ok(false)
    else if s.album.Foreign? then Ok(false)
    else if !Present(s.fileName) then Ok(false)
    else if Present(s.trackNumber) && s.score.None? then Raise(AttributeError)
    else if Present(s.trackNumber) && !IsSpaceString(s.score.value)
         && ParseInt(s.trackNumber.value).None? then Ok(false)
    else if Present(s.score) && !IsSpaceString(s.score.value) then
      match ParseFloat(s.score.value)
      case None => Ok(false)
      case Some(f) => Ok(!Less(f, 0.0) && !Greater(f, 10.0))
    else Ok(true)
  }

  /** The `band` property: the album's band when an album is set, else
      `None`. */
  function Band(s: Song): (r: Value)
    ensures s.album.NoAlbum? ==> r == VNone
    ensures s.album.AnAlbum? ==> r == Get(s.album.album, "band")
    ensures s.album.Foreign? ==> r == s.album.band
  {
    match s.album
    case NoAlbum => VNone
    case AnAlbum(a) => Get(a, "band")
    case Foreign(_, b, _) => b
  }

  /** The `total_length` property: `str(minutes) + ":" + format(seconds, '02d')`.
      Reading it first sets unset (falsy) seconds to 0, so the song comes
      back alongside the text. */
  function TotalLength(s: Song): (r: (string, Song))
    ensures r.1 == s.(seconds := if s.seconds.Some? && s.seconds.value != 0 then s.seconds else Some(0))
  {
    var secs := if s.seconds.Some? && s.seconds.value != 0 then s.seconds.value else 0;
    var mins := if s.minutes.Some? then IntToString(s.minutes.value) else "None";
    (mins + ":" + Format02d(secs), s.(seconds := Some(secs)))
  }

  lemma NoColonInNumber(i: int)
    ensures ':' !in IntToString(i)
    ensures ':' !in Format02d(i)
  {
    var n: nat := if i < 0 then -i else i;
    var d := NatToString(n);
    assert forall k :: 0 <= k < |d| ==> d[k] != ':';
  }

  /** The length text splits at its colon into the minutes and the seconds,
      and `int()` reads both back; unset minutes are the text `None`. Unset
      seconds read back as 0, and seconds that are not negative are written
      with at least two digits. */
  lemma TotalLengthRoundTrip(s: Song)
    ensures var parts := Split(TotalLength(s).0, ':');
      && |parts| == 2
      && (s.minutes.Some? ==> ParseInt(parts[0]) == Some(s.minutes.value))
      && (s.minutes.None? ==> parts[0] == "None")
      && ParseInt(parts[1]) == Some(if s.seconds.Some? then s.seconds.value else 0)
      && (s.seconds.None? || s.seconds.value >= 0 ==> |parts[1]| >= 2 && AllDigits(parts[1]))
  {
    var secs := if s.seconds.Some? && s.seconds.value != 0 then s.seconds.value else 0;
    var m := if s.minutes.Some? then IntToString(s.minutes.value) else "None";
    var f := Format02d(secs);
    if s.minutes.Some? {
      NoColonInNumber(s.minutes.value);
      ParseIntRoundTrip(s.minutes.value);
    }
    NoColonInNumber(secs);
    assert TotalLength(s).0 == Join([m, f], ':');
    SplitJoin([m, f], ':');
    Format02dRoundTrip(secs);
  }
  /** `validate()` with the track-number check guarded by the track
      number's own blankness instead of the score's: a set, non-blank
      track number must be an int whatever the score, and a missing score
      no longer raises. */
  function ValidateTrackChecked(s: Song, albumValid: Album -> bool): (r: bool)
    ensures r ==> s.album.AnAlbum? && albumValid(s.album.album) && Present(s.title) && Present(s.fileName)
    ensures r && Present(s.trackNumber) && !IsSpaceString(s.trackNumber.value) ==> ParseInt(s.trackNumber.value).Some?
    ensures r ==> ScoreAcceptable(s.score)
  {
    if !s.album.AnAlbum? || !albumValid(s.album.album) then false
    else if !Present(s.title) || !Present(s.fileName) then false
    else if Present(s.trackNumber) && !IsSpaceString(s.trackNumber.value)
         && ParseInt(s.trackNumber.value).None? then false
    else ScoreAcceptable(s.score)
  }

  /** Without a track number the two checks agree. */
  lemma TrackCheckAgreesWithoutTrack(s: Song, albumValid: Album -> bool)
    requires !Present(s.trackNumber)
    ensures ValidateTrackChecked(s, albumValid) <==> Validate(s, albumValid) == Ok(true)
  {
  }

  /** With a set track number and a non-blank score the two checks agree. */
  lemma TrackCheckAgreesWithScore(s: Song, albumValid: Album -> bool)
    requires Present(s.trackNumber) && !IsSpaceString(s.trackNumber.value)
    requires s.score.Some? && !IsSpaceString(s.score.value)
    ensures ValidateTrackChecked(s, albumValid) <==> Validate(s, albumValid) == Ok(true)
  {
  }

  /** A blank score switches the track-number check off: the track number
      `one` passes `validate()` although it is not an int. */
  lemma BlankScoreSkipsTrackCheck(a: Album, albumValid: Album -> bool)
    requires albumValid(a)
    ensures var s := Song(VNone, Some("Intro"), Some("01 Intro.mp3"), Some(" "), Some("one"), None, AnAlbum(a), None, None);
      Validate(s, albumValid) == Ok(true) && !ValidateTrackChecked(s, albumValid)
  {
    var s := Song(VNone, Some("Intro"), Some("01 Intro.mp3"), Some(" "), Some("one"), None, AnAlbum(a), None, None);
    assert IsSpaceString(" ");
    assert !IsSpaceString("one") by { assert !IsSpace("one"[0]); }
    assert ParseInt("one").None? by {
      assert Strip("one") == "one" by { StripStripped("one"); }
      assert !DigitGroups("one");
    }
  }

  /** A track number with no score at all raises `AttributeError`. */
  lemma TrackWithoutScoreRaises(a: Album, albumValid: Album -> bool)
    requires albumValid(a)
    ensures var s := Song(VNone, Some("Intro"), Some("01 Intro.mp3"), None, Some("3"), None, AnAlbum(a), None, None);
      Validate(s, albumValid) == Raise(AttributeError) && ValidateTrackChecked(s, albumValid)
  {
    var s := Song(VNone, Some("Intro"), Some("01 Intro.mp3"), None, Some("3"), None, AnAlbum(a), None, None);
    assert Present(s.title) && Present(s.fileName) && Present(s.trackNumber);
    assert Validate(s, albumValid) == Raise(AttributeError);
    assert !IsSpaceString("3") by { assert !IsSpace("3"[0]); }
    assert ParseInt("3").Some? by {
      assert Strip("3") == "3" by { StripStripped("3"); }
      assert DigitGroups("3");
    }
    assert ScoreAcceptable(s.score);
  }
}

=== FILE: text.dfy ===
/** The string operations the Python code relies on: `str.isspace`,
    `str.strip`, `str.casefold`, the `in` substring test and `str.split`. */
module Text {

  /** `c.isspace()` for one character: the characters Python's `str.isspace`
      treats as whitespace. */
  predicate IsSpace(c: char) {
    || c == ' '
    || ('\t' <= c <= '\r')
    || ('\U{1C}' <= c <= '\U{1F}')
    || c == '\U{85}' || c == '\U{A0}' || c == '\U{1680}'
    || ('\U{2000}' <= c <= '\U{200A}')
    || c == '\U{2028}' || c == '\U{2029}' || c == '\U{202F}'
    || c == '\U{205F}' || c == '\U{3000}'
  }

  /** `s.isspace()`: true only for a non-empty string of whitespace. */
  predicate IsSpaceString(s: string) {
    |s| > 0 && forall i :: 0 <= i < |s| ==> IsSpace(s[i])
  }

  /** No whitespace at either end: what `strip` leaves behind. */
  predicate Stripped(s: string) {
    s == [] || (!IsSpace(s[0]) && !IsSpace(s[|s| - 1]))
  }

  function TrimLeft(s: string): (r: string)
    ensures |r| <= |s| && r == s[|s| - |r|..]
    ensures forall i :: 0 <= i < |s| - |r| ==> IsSpace(s[i])
    ensures r == [] || !IsSpace(r[0])
  {
    if |s| > 0 && IsSpace(s[0]) then TrimLeft(s[1..]) else s
  }

  function TrimRight(s: string): (r: string)
    ensures |r| <= |s| && r == s[..|r|]
    ensures forall i :: |r| <= i < |s| ==> IsSpace(s[i])
    ensures r == [] || !IsSpace(r[|r| - 1])
  {
    if |s| > 0 && IsSpace(s[|s| - 1]) then TrimRight(s[..|s| - 1]) else s
  }

  /** `s.strip()`: the longest slice without whitespace at either end that
      only whitespace surrounds. */
  function Strip(s: string): (r: string)
    ensures Stripped(r)
    ensures |r| <= |s|
    ensures (forall i :: 0 <= i < |s| ==> IsSpace(s[i])) <==> r == []
  {
    var l := TrimLeft(s);
    var r := TrimRight(l);
    assert r != [] ==> !IsSpace(r[0]) by {
      if r != [] {
        assert r[0] == l[0];
      }
    }
    r
  }

  /** A string with nothing to strip strips to itself. */
  lemma StripStripped(s: string)
    requires Stripped(s)
    ensures Strip(s) == s
  {
    if s != [] {
      assert TrimLeft(s) == s;
      assert TrimRight(s) == s;
    }
  }

  /** Stripping is idempotent. */
  lemma StripIdempotent(s: string)
    ensures Strip(Strip(s)) == Strip(s)
  {
    StripStripped(Strip(s));
  }

  lemma {:induction false} TrimLeftAppend(a: string, b: string)
    requires exists i :: 0 <= i < |a| && !IsSpace(a[i])
    ensures TrimLeft(a + b) == TrimLeft(a) + b
    decreases |a|
  {
    if IsSpace(a[0]) {
      var i :| 0 <= i < |a| && !IsSpace(a[i]);
      assert i > 0 && a[1..][i - 1] == a[i];
      assert (a + b)[1..] == a[1..] + b;
      TrimLeftAppend(a[1..], b);
    }
  }

  /** A space in front does not change what `strip` returns. */
  lemma StripSpaceBefore(t: string)
    ensures Strip(" " + t) == Strip(t)
  {
    assert (" " + t)[1..] == t;
    assert TrimLeft(" " + t) == TrimLeft(t);
  }

  /** Nor does a space behind. */
  lemma StripSpaceAfter(t: string)
    ensures Strip(t + " ") == Strip(t)
  {
    if exists i :: 0 <= i < |t| && !IsSpace(t[i]) {
      TrimLeftAppend(t, " ");
      TrimRightSpace(TrimLeft(t));
    } else {
      AllSpaceAppend(t);
    }
  }

  lemma TrimRightSpace(l: string)
    ensures TrimRight(l + " ") == TrimRight(l)
  {
    var s := l + " ";
    assert IsSpace(s[|s| - 1]);
    assert s[..|s| - 1] == l;
  }

  lemma AllSpaceAppend(t: string)
    requires forall i :: 0 <= i < |t| ==> IsSpace(t[i])
    ensures forall i :: 0 <= i < |t + " "| ==> IsSpace((t + " ")[i])
  {
    forall i | 0 <= i < |t + " "|
      ensures IsSpace((t + " ")[i])
    {
      if i < |t| {
        assert (t + " ")[i] == t[i];
      }
    }
  }

  /** One character of `str.casefold`, for the ASCII range. */
  function Fold(c: char): char {
    if 'A' <= c <= 'Z' then (c as int - 'A' as int + 'a' as int) as char else c
  }

  /** `s.casefold()`, character by character. */
  function Casefold(s: string): (r: string)
    ensures |r| == |s|
    ensures forall i :: 0 <= i < |s| ==> r[i] == Fold(s[i])
  {
    if s == [] then [] else [Fold(s[0])] + Casefold(s[1..])
  }

  lemma CasefoldAppend(a: string, b: string)
    ensures Casefold(a + b) == Casefold(a) + Casefold(b)
  {
    var l, r := Casefold(a + b), Casefold(a) + Casefold(b);
    forall i | 0 <= i < |l|
      ensures l[i] == r[i]
    {
      if i < |a| {
        assert (a + b)[i] == a[i];
      } else {
        assert (a + b)[i] == b[i - |a|];
      }
    }
  }

  /** Folding a folded string changes nothing. */
  lemma CasefoldIdempotent(s: string)
    ensures Casefold(Casefold(s)) == Casefold(s)
  {
    var f := Casefold(s);
    forall i | 0 <= i < |s|
      ensures Casefold(f)[i] == f[i]
    {
      assert Fold(Fold(s[i])) == Fold(s[i]);
    }
  }

  /** Folding keeps whitespace whitespace and everything else not. */
  lemma FoldSpace(c: char)
    ensures IsSpace(Fold(c)) <==> IsSpace(c)
  {
    if !('A' <= c <= 'Z') {
      assert Fold(c) == c;
    }
  }

  lemma {:induction false} TrimLeftCasefold(s: string)
    ensures TrimLeft(Casefold(s)) == Casefold(TrimLeft(s))
    decreases |s|
  {
    if |s| > 0 {
      var f := Casefold(s);
      FoldSpace(s[0]);
      if IsSpace(s[0]) {
        assert f[1..] == Casefold(s[1..]);
        TrimLeftCasefold(s[1..]);
      }
    }
  }

  lemma {:induction false} TrimRightCasefold(s: string)
    ensures TrimRight(Casefold(s)) == Casefold(TrimRight(s))
    decreases |s|
  {
    if |s| > 0 {
      var f := Casefold(s);
      FoldSpace(s[|s| - 1]);
      if IsSpace(s[|s| - 1]) {
        assert f[..|s| - 1] == Casefold(s[..|s| - 1]);
        TrimRightCasefold(s[..|s| - 1]);
      }
    }
  }

  /** Folding leaves whitespace alone, so strip and casefold commute:
      `s.strip().casefold() == s.casefold().strip()`. */
  lemma StripCasefold(s: string)
    ensures Strip(Casefold(s)) == Casefold(Strip(s))
  {
    TrimLeftCasefold(s);
    TrimRightCasefold(TrimLeft(s));
  }

  predicate OccursAt(hay: string, needle: string, i: nat) {
    i + |needle| <= |hay| && hay[i..i + |needle|] == needle
  }

  /** Python's `needle in hay` for strings. */
  predicate Contains(hay: string, needle: string) {
    exists i: nat :: i <= |hay| && OccursAt(hay, needle, i)
  }

  /** The empty string is in every string. */
  lemma ContainsEmpty(hay: string)
    ensures Contains(hay, [])
  {
    assert OccursAt(hay, [], 0);
  }

  /** Index of the first `c` in `s`. */
  function IndexOf(s: string, c: char): (i: nat)
    requires c in s
    ensures i < |s| && s[i] == c
    ensures c !in s[..i]
  {
    if s[0] == c then 0 else
      assert s == [s[0]] + s[1..];
      var j := IndexOf(s[1..], c);
      assert s[..j + 1] == [s[0]] + s[1..][..j];
      j + 1
  }

  /** `sep.join(parts)` for a one-character separator. */
  function Join(parts: seq<string>, sep: char): string {
    if |parts| == 0 then []
    else if |parts| == 1 then parts[0]
    else parts[0] + [sep] + Join(parts[1..], sep)
  }

  /** `s.split(sep)` for a one-character separator: splits at EVERY occurrence. */
  function Split(s: string, sep: char): (parts: seq<string>)
    ensures |parts| >= 1
    ensures forall p :: p in parts ==> sep !in p
    ensures Join(parts, sep) == s
    decreases |s|
  {
    if sep in s then
      var i := IndexOf(s, sep);
      var rest := Split(s[i + 1..], sep);
      assert s == s[..i] + [sep] + s[i + 1..];
      [s[..i]] + rest
    else
      [s]
  }

  /** Number of occurrences of `c` in `s`. */
  function Count(s: string, c: char): nat {
    if s == [] then 0 else (if s[0] == c then 1 else 0) + Count(s[1..], c)
  }

  lemma CountAppend(a: string, b: string, c: char)
    ensures Count(a + b, c) == Count(a, c) + Count(b, c)
  {
    if a != [] {
      assert (a + b)[0] == a[0];
      assert (a + b)[1..] == a[1..] + b;
      CountAppend(a[1..], b, c);
      assert Count(a + b, c) == (if a[0] == c then 1 else 0) + Count(a[1..] + b, c);
    } else {
      assert a + b == b;
    }
  }

  lemma CountAbsent(s: string, c: char)
    requires c !in s
    ensures Count(s, c) == 0
  {
    if s != [] {
      assert s[0] in s;
      assert forall x :: x in s[1..] ==> x in s;
      CountAbsent(s[1..], c);
    }
  }

  /** `s.split(sep)` has exactly one more part than `s` has separators. */
  lemma {:induction false} SplitCount(s: string, sep: char)
    ensures |Split(s, sep)| == Count(s, sep) + 1
    decreases |s|
  {
    if sep in s {
      var i := IndexOf(s, sep);
      assert s == s[..i] + ([sep] + s[i + 1..]);
      CountAppend(s[..i], [sep] + s[i + 1..], sep);
      CountAbsent(s[..i], sep);
      assert ([sep] + s[i + 1..])[1..] == s[i + 1..];
      SplitCount(s[i + 1..], sep);
    } else {
      CountAbsent(s, sep);
    }
  }

  /** Splitting undoes joining, for parts free of the separator. */
  lemma {:induction false} SplitJoin(parts: seq<string>, sep: char)
    requires |parts| >= 1
    requires forall p :: p in parts ==> sep !in p
    ensures Split(Join(parts, sep), sep) == parts
    decreases |parts|
  {
    if |parts| > 1 {
      var s := Join(parts, sep);
      var p0 := parts[0];
      assert p0 in parts;
      assert s == p0 + [sep] + Join(parts[1..], sep);
      assert s[|p0|] == sep;
      assert s[..|p0|] == p0;
      var i := IndexOf(s, sep);
      assert s[i + 1..] == Join(parts[1..], sep);
      forall p | p in parts[1..] ensures sep !in p {
        assert p in parts;
      }
      SplitJoin(parts[1..], sep);
    } else {
      assert parts[0] in parts;
    }
  }

  /** Joining two non-empty lists puts one separator between their joins. */
  lemma {:induction false} JoinAppend(a: seq<string>, b: seq<string>, sep: char)
    requires |a| >= 1 && |b| >= 1
    ensures Join(a + b, sep) == Join(a, sep) + [sep] + Join(b, sep)
    decreases |a|
  {
    if |a| > 1 {
      assert (a + b)[1..] == a[1..] + b;
      JoinAppend(a[1..], b, sep);
    } else {
      assert (a + b)[1..] == b;
    }
  }

  /** Splitting at every separator splits the text on either side of one
      separator independently. */
  lemma SplitAround(x: string, y: string, sep: char)
    ensures Split(x + [sep] + y, sep) == Split(x, sep) + Split(y, sep)
  {
    var parts := Split(x, sep) + Split(y, sep);
    JoinAppend(Split(x, sep), Split(y, sep), sep);
    SplitJoin(parts, sep);
  }

  /** `s.split(sep, 1)` where `sep` occurs: the text before and after the
      FIRST separator. */
  function SplitFirst(s: string, sep: char): (halves: (string, string))
    requires sep in s
    ensures s == halves.0 + [sep] + halves.1
    ensures sep !in halves.0
  {
    var i := IndexOf(s, sep);
    assert s == s[..i] + [sep] + s[i + 1..];
    (s[..i], s[i + 1..])
  }
}

=== FILE: trees.dfy ===
/** The album trees `band_key -> album_key -> album` that reconciliation
    builds, `_add_album_to_tree`, and folds that file a sequence of items
    into a tree one after another. */
module Trees {
  import opened Py
  import opened Dicts

  type Tree<A> = Dict<string, Dict<string, A>>

  predicate InTree<A>(t: Tree<A>, b: string, k: string) {
    b in t.vals && k in t.vals[b].vals
  }

  function At<A>(t: Tree<A>, b: string, k: string): A
    requires InTree(t, b, k)
  {
    t.vals[b].vals[k]
  }

  /** `_add_album_to_tree(tree, band_key, album_key, album)`: creates the band
      when missing and sets exactly the one entry; every other entry, and the
      order of bands and of albums, is kept. */
  function AddAlbumToTree<A>(t: Tree<A>, b: string, k: string, a: A): (r: Tree<A>)
    ensures InTree(r, b, k) && At(r, b, k) == a
    ensures forall b', k' :: b' != b || k' != k ==>
      (InTree(r, b', k') <==> InTree(t, b', k'))
    ensures forall b', k' :: (b' != b || k' != k) && InTree(t, b', k') ==>
      At(r, b', k') == At(t, b', k')
    ensures r.vals.Keys == t.vals.Keys + {b}
    ensures b in t.vals ==> r.keys == t.keys
    ensures b !in t.vals ==> r.keys == t.keys + [b]
    ensures b in t.vals && k in t.vals[b].vals ==> r.vals[b].keys == t.vals[b].keys
    ensures b in t.vals && k !in t.vals[b].vals ==> r.vals[b].keys == t.vals[b].keys + [k]
  {
    var band: Dict<string, A> := if b in t.vals then t.vals[b] else Empty();
    Put(t, b, Put(band, k, a))
  }

  /** Where an item goes in a tree, if anywhere. */
  datatype Slot<A> = Slot(band: string, key: string, value: A)

  predicate Hits<A>(o: Option<Slot<A>>, b: string, k: string) {
    o.Some? && o.value.band == b && o.value.key == k
  }

  /** Files the items, in order, at the slots `f` gives them. */
  function Place<T, A>(t: Tree<A>, items: seq<T>, f: T -> Option<Slot<A>>): Tree<A>
    decreases |items|
  {
    if items == [] then t
    else
      var r := Place(t, items[..|items| - 1], f);
      match f(items[|items| - 1])
      case None => r
      case Some(s) => AddAlbumToTree(r, s.band, s.key, s.value)
  }

  /** After filing, an entry is present iff it was before or some item hits
      it; an entry no item hits keeps its value, and an entry some item hits
      holds the value of the LAST item that hits it. */
  lemma PlaceSpec<T, A>(t: Tree<A>, items: seq<T>, f: T -> Option<Slot<A>>, b: string, k: string)
    ensures InTree(Place(t, items, f), b, k) <==>
      InTree(t, b, k) || exists i :: 0 <= i < |items| && Hits(f(items[i]), b, k)
    ensures (forall i :: 0 <= i < |items| ==> !Hits(f(items[i]), b, k)) && InTree(t, b, k) ==>
      At(Place(t, items, f), b, k) == At(t, b, k)
    ensures forall i ::
      (0 <= i < |items| && Hits(f(items[i]), b, k) &&
       forall j :: i < j < |items| ==> !Hits(f(items[j]), b, k)) ==>
      At(Place(t, items, f), b, k) == f(items[i]).value.value
  {
    PlacePresent(t, items, f, b, k);
    if (forall i :: 0 <= i < |items| ==> !Hits(f(items[i]), b, k)) && InTree(t, b, k) {
      PlaceUntouched(t, items, f, b, k);
    }
    forall i | 0 <= i < |items| && Hits(f(items[i]), b, k) &&
               forall j :: i < j < |items| ==> !Hits(f(items[j]), b, k)
      ensures At(Place(t, items, f), b, k) == f(items[i]).value.value
    {
      PlaceLast(t, items, f, b, k, i);
    }
  }

  lemma {:induction false} PlacePresent<T, A>(t: Tree<A>, items: seq<T>, f: T -> Option<Slot<A>>, b: string, k: string)
    ensures InTree(Place(t, items, f), b, k) <==>
      InTree(t, b, k) || exists i :: 0 <= i < |items| && Hits(f(items[i]), b, k)
    decreases |items|
  {
    if items != [] {
      var n := |items| - 1;
      var front := items[..n];
      PlacePresent(t, front, f, b, k);
      assert forall i :: 0 <= i < n ==> front[i] == items[i];
      if !Hits(f(items[n]), b, k) {
        assert (exists i :: 0 <= i < |items| && Hits(f(items[i]), b, k)) <==>
          (exists i :: 0 <= i < n && Hits(f(front[i]), b, k));
      }
    }
  }

  lemma {:induction false} PlaceUntouched<T, A>(t: Tree<A>, items: seq<T>, f: T -> Option<Slot<A>>, b: string, k: string)
    requires forall i :: 0 <= i < |items| ==> !Hits(f(items[i]), b, k)
    requires InTree(t, b, k)
    ensures InTree(Place(t, items, f), b, k) && At(Place(t, items, f), b, k) == At(t, b, k)
    decreases |items|
  {
    if items != [] {
      var n := |items| - 1;
      var front := items[..n];
      assert forall i :: 0 <= i < n ==> front[i] == items[i];
      PlaceUntouched(t, front, f, b, k);
      assert !Hits(f(items[n]), b, k);
    }
  }

  lemma {:induction false} PlaceLast<T, A>(t: Tree<A>, items: seq<T>, f: T -> Option<Slot<A>>, b: string, k: string, i: nat)
    requires i < |items| && Hits(f(items[i]), b, k)
    requires forall j :: i < j < |items| ==> !Hits(f(items[j]), b, k)
    ensures InTree(Place(t, items, f), b, k) && At(Place(t, items, f), b, k) == f(items[i]).value.value
    decreases |items|
  {
    var n := |items| - 1;
    var front := items[..n];
    if i < n {
      assert forall j :: 0 <= j < n ==> front[j] == items[j];
      PlaceLast(t, front, f, b, k, i);
      assert !Hits(f(items[n]), b, k);
    }
  }

  /** Among items that hit an entry there is a last one. */
  lemma LastHit<T, A>(items: seq<T>, f: T -> Option<Slot<A>>, b: string, k: string, i: nat)
    requires i < |items| && Hits(f(items[i]), b, k)
    ensures exists m :: (i <= m < |items| && Hits(f(items[m]), b, k) &&
      forall j :: m < j < |items| ==> !Hits(f(items[j]), b, k))
    decreases |items| - i
  {
    if exists j :: i < j < |items| && Hits(f(items[j]), b, k) {
      var j :| i < j < |items| && Hits(f(items[j]), b, k);
      LastHit(items, f, b, k, j);
    } else {
      assert forall j :: i < j < |items| ==> !Hits(f(items[j]), b, k);
    }
  }

  /** Every `(band, key)` pair of one band, in the band's album order. */
  function BandPairs(b: string, keys: seq<string>): (ps: seq<(string, string)>)
    ensures |ps| == |keys|
    ensures forall i :: 0 <= i < |keys| ==> ps[i] == (b, keys[i])
  {
    seq(|keys|, i requires 0 <= i < |keys| => (b, keys[i]))
  }

  function PairsOf<A>(t: Tree<A>, bands: seq<string>): seq<(string, string)>
    requires forall x :: x in bands ==> x in t.vals
  {
    if bands == [] then []
    else PairsOf(t, bands[..|bands| - 1]) + BandPairs(bands[|bands| - 1], t.vals[bands[|bands| - 1]].keys)
  }

  lemma {:induction false} PairsOfSpec<A>(t: Tree<A>, bands: seq<string>, b: string, k: string)
    requires forall x :: x in bands ==> x in t.vals
    ensures (b, k) in PairsOf(t, bands) <==> b in bands && k in t.vals[b].vals
    decreases |bands|
  {
    if bands != [] {
      var n := |bands| - 1;
      assert forall x :: x in bands[..n] ==> x in bands;
      PairsOfSpec(t, bands[..n], b, k);
      var last := BandPairs(bands[n], t.vals[bands[n]].keys);
      assert (b, k) in last <==> b == bands[n] && k in t.vals[bands[n]].keys;
      assert b in bands <==> b in bands[..n] || b == bands[n];
    }
  }

  /** Every entry of a tree, bands in order and albums in order within a band:
      the order of `for band, albums in tree.items(): for key in albums`. */
  function TreePairs<A>(t: Tree<A>): (ps: seq<(string, string)>)
    ensures forall b, k :: (b, k) in ps <==> InTree(t, b, k)
  {
    assert forall x :: x in t.keys ==> x in t.vals;
    var ps := PairsOf(t, t.keys);
    assert forall b, k :: (b, k) in ps <==> InTree(t, b, k) by {
      forall b, k ensures (b, k) in ps <==> InTree(t, b, k) {
        PairsOfSpec(t, t.keys, b, k);
      }
    }
    ps
  }
}
